=== FILE: README.md ===
# AI-powered learning recommendation — a verified model

This project models the core of a course recommender for learners, in Dafny.

- **Recommendation engine.** It builds a user-item affinity matrix from the recorded interactions. Three scorers work on that matrix:
  - a collaborative scorer: cosine similarity between learners, then similarity-weighted predictions;
  - a content-based scorer: interest, tag, category and difficulty bonuses;
  - a hybrid scorer: 0.6 × collaborative + 0.4 × content-based, each side asked for 2N candidates.

  Every scorer sorts by score, descending and stably, and keeps the top N. The engine also computes the evaluation metrics: accuracy, precision, recall, coverage and diversity, each rounded to two decimals.
- **Course-interaction panel.** This is the screen where a learner selects courses, gives each one a star rating and a completion level, and submits the resulting interactions. It is paged four courses at a time.
- **Onboarding wizard.** Three steps: name, learning style, interests. Each step has a gate on its Next button. Submission is guarded.

Modules, one per file:

| file | module | models |
|---|---|---|
| wrappers.dfy | `Wrappers` | `Option` |
| learning.dfy | `Learning` | learners, courses, interactions, recommendations (`src/types/learning.ts`) |
| assoc.dfy | `Assoc` | insertion-ordered maps: JavaScript `Map` with `set`/`get`/`has` |
| similarity.dfy | `Similarity` | `cosineSimilarity` |
| matrix.dfy | `AffinityMatrix` | `getUserItemMatrix` |
| ranking.dfy | `Ranking` | `sort((a, b) => b.score - a.score).slice(0, topN)` |
| content.dfy | `ContentFiltering` | `contentBasedFiltering` |
| collaborative.dfy | `CollaborativeFiltering` | `collaborativeFiltering` |
| hybrid.dfy | `Hybrid` | `hybridRecommendations` |
| metrics.dfy | `Metrics` | `calculateMetrics` |
| course_panel.dfy | `CoursePanel` | the handlers and controls of `CourseInteractionPanel` |
| onboarding.dfy | `Onboarding` | the handlers and controls of `OnboardingFlow` |

Modelling choices:

- **Numbers.** Scores are exact reals.
- **Square roots.** `Math.sqrt` is a parameter `root: real -> real`. Lemmas that need square-root facts require `RootAt(root, x)` at the magnitudes they use.
- **Maps.** JavaScript `Map`s that the code iterates are association lists `seq<(string, V)>`. `Put` keeps an existing key in its place and appends a new one, as `Map.set` does, so iteration order is modelled exactly.
- **Folds.** Each `forEach` fold is a function over the prefix followed by the last element.
- **String length.** Dafny characters are Unicode code points, while JavaScript's `length` counts UTF-16 code units. The name gate therefore measures `Onboarding.Utf16Length`, where a character outside the Basic Multilingual Plane counts 2.
- **UI state.** Each screen is a state datatype. Every click or keystroke is an `Event`. A disabled or absent control leaves the state unchanged.

## Model

| member | source | states |
|---|---|---|
| Learning.Level | src/algorithms/recommendationEngine.ts:146-154 | Difficulty tier: beginner 1, intermediate 2, anything else 3, always in 1..3 |
| Learning.FindCourse | src/algorithms/recommendationEngine.ts:94-95 | `courses.find`: none exactly when no course has the id; otherwise the first course with that id |
| Learning.FindStudent | src/algorithms/recommendationEngine.ts:113-114 | `students.find`: none exactly when no learner has the id; otherwise the first learner with that id |
| Assoc.Get | src/algorithms/recommendationEngine.ts:44 | `Map.get`: absent exactly when the key was never set; with unique keys, the value stored under the key |
| Assoc.Put | src/algorithms/recommendationEngine.ts:36 | `Map.set`: an existing key keeps its position, a new key is appended, keys stay unique, the key now maps to the value and every other key is unchanged |
| Assoc.HasPut | src/algorithms/recommendationEngine.ts:81-82 | After `set`, `has` holds for exactly the old keys plus the new one |
| Assoc.KeySet | src/algorithms/recommendationEngine.ts:180-204 | The set of keys of a Map: a key is in it exactly when the Map has it |
| Assoc.KeySetSize | src/algorithms/recommendationEngine.ts:180-204 | With unique keys, the Map has exactly one entry per key in its key set |
| Similarity.CosineBounds | src/algorithms/recommendationEngine.ts:14-19 | Cosine similarity always lies in [-1, 1] (proved through Cauchy–Schwarz) |
| Similarity.CauchySchwarz | src/algorithms/recommendationEngine.ts:15-17 | The square of the dot product is at most the product of the two squared magnitudes |
| Similarity.CosineOfZeroVector | src/algorithms/recommendationEngine.ts:18 | A zero magnitude on either side yields similarity 0 rather than a division by zero |
| Similarity.CosinePositiveIffDotPositive | src/algorithms/recommendationEngine.ts:15-18 | Similarity is positive exactly when the dot product is positive |
| Similarity.SumSquaresZeroIff | src/algorithms/recommendationEngine.ts:16-17 | A squared magnitude is zero exactly when every component is zero |
| Similarity.DotSymmetric | src/algorithms/recommendationEngine.ts:15 | The dot product does not depend on the order of its arguments |
| Similarity.DotNonNegative | src/algorithms/recommendationEngine.ts:15 | Vectors with non-negative components, as affinities are, have a non-negative dot product |
| Similarity.CosineSimilarity | src/algorithms/recommendationEngine.ts:14-19 | `cosineSimilarity`: dot / (‖a‖·‖b‖), 0 when a magnitude is 0; characterised by `Similarity.CosineBounds`, `Similarity.CosineOfZeroVector` and `Similarity.CosinePositiveIffDotPositive` |
| AffinityMatrix.Affinity | src/algorithms/recommendationEngine.ts:29-34 | A nonzero rating gives rating/5, otherwise a positive completion gives completion/100, otherwise 0; a valid interaction gives a value in [0, 1] |
| AffinityMatrix.BuildMatrix | src/algorithms/recommendationEngine.ts:21-40 | The matrix has a row exactly for each learner with an interaction, and every row has unique keys and is non-empty |
| AffinityMatrix.LastMatch | src/algorithms/recommendationEngine.ts:24-37 | The position of the last interaction of a (learner, course) pair, -1 when there is none |
| AffinityMatrix.Record | src/algorithms/recommendationEngine.ts:24-37 | One interaction's `set` into its learner's row; characterised by `AffinityMatrix.RecordEntry` |
| AffinityMatrix.EntryIsLastInteraction | src/algorithms/recommendationEngine.ts:24-37 | Last interaction wins: a matrix entry is the affinity of the last interaction for that pair, and absent when there is none |
| AffinityMatrix.RecordEntry | src/algorithms/recommendationEngine.ts:24-37 | Recording an interaction sets the entry of its own (learner, course) pair and leaves every other entry unchanged |
| AffinityMatrix.RowKeysAreInteractedCourses | src/algorithms/recommendationEngine.ts:24-37 | A learner's row holds a course exactly when the learner interacted with it |
| AffinityMatrix.AffinitiesInUnitRange | src/algorithms/recommendationEngine.ts:29-36 | With valid interactions every matrix entry lies in [0, 1] |
| Ranking.Insert | src/algorithms/recommendationEngine.ts:107-108 | One step of the stable sort: the result is the input plus the new element, as a multiset |
| Ranking.SortByScore | src/algorithms/recommendationEngine.ts:107-108 | The descending sort gives a permutation of its input that is sorted by score |
| Ranking.SortIsStable | src/algorithms/recommendationEngine.ts:107-108 | Stability: recommendations with equal scores keep their input order |
| Ranking.SortSortedIsIdentity | src/algorithms/recommendationEngine.ts:107-108 | Sorting an already sorted list changes nothing |
| Ranking.Slice | src/algorithms/recommendationEngine.ts:109 | `slice(0, n)` with JavaScript semantics, negative `n` included: a prefix of the expected length |
| Ranking.Rank | src/algorithms/recommendationEngine.ts:107-109 | Exactly min(n, input size) results for n ≥ 0 (and `slice`'s count for negative n), sorted by score, each one taken from the input |
| Ranking.RankIsTopN | src/algorithms/recommendationEngine.ts:107-109 | Top-n: the result is a sub-multiset of the input of size min(n, input size), everything left out scores no higher than anything kept, and nothing is dropped when the input fits |
| Ranking.RankTwice | src/algorithms/recommendationEngine.ts:177-178 | Keeping the top n of the top 2n is the same as keeping the top n |
| Ranking.RankKeepsDistinct | src/algorithms/recommendationEngine.ts:107-109 | Ranking never duplicates a course |
| ContentFiltering.CountIn | src/algorithms/recommendationEngine.ts:124-126 | The count of interests found among the tags: at most the number of interests, zero exactly when none matches |
| ContentFiltering.CompletedCourses | src/algorithms/recommendationEngine.ts:129-132 | Courses completed beyond 70 %, resolved in the catalog: all of them catalog courses, at most one per interaction |
| ContentFiltering.CompletedIndices | src/algorithms/recommendationEngine.ts:116-132 | Reference definition of the contributing interactions (the learner's own, above 70 %, course found in the catalog): the positions it lists lie in range |
| ContentFiltering.CompletedIndicesQualify | src/algorithms/recommendationEngine.ts:116-132 | Every listed position holds a contributing interaction |
| ContentFiltering.CompletedIndicesIncrease | src/algorithms/recommendationEngine.ts:129-132 | The listed positions increase, so the history follows interaction order |
| ContentFiltering.CompletedIndicesCover | src/algorithms/recommendationEngine.ts:116-132 | Every contributing interaction is listed |
| ContentFiltering.CompletedCoursesAt | src/algorithms/recommendationEngine.ts:129-132 | From any starting position, the history has one entry per contributing interaction, and entry k is `courses.find` of the k-th one's course id |
| ContentFiltering.CompletedCoursesSpec | src/algorithms/recommendationEngine.ts:116-132 | The history is exactly the catalog courses of the contributing interactions, one each, in interaction order, none missed and nothing else |
| ContentFiltering.HistoryScore | src/algorithms/recommendationEngine.ts:134-143 | The history bonus fold never lowers the score; its value is given by `ContentFiltering.HistoryScoreIsSum` |
| ContentFiltering.NearLevel | src/algorithms/recommendationEngine.ts:145-159 | The difficulty test, in integers; `ContentFiltering.NearLevelIsMeanDistance` proves it equals the source's test against the mean tier |
| ContentFiltering.HistoryScoreIsSum | src/algorithms/recommendationEngine.ts:134-143 | The history bonus adds 0.2 per shared tag and 0.15 per same-category course, summed over the completed courses |
| ContentFiltering.NearLevelIsMeanDistance | src/algorithms/recommendationEngine.ts:145-159 | The integer test used in the model equals the source's test that the tier lies within 1 of the mean completed tier (1 with no history) |
| ContentFiltering.ContentScoreFormula | src/algorithms/recommendationEngine.ts:122-161 | The content score is min(1, 0.3·interest matches + 0.2·tag overlap + 0.15·category matches + 0.2·near level) |
| ContentFiltering.ContentScore | src/algorithms/recommendationEngine.ts:161 | The content score always lies in [0, 1] |
| ContentFiltering.Candidates | src/algorithms/recommendationEngine.ts:119-171 | Each unseen catalog course, scored and labelled content-based; every unseen catalog course appears and nothing else does |
| ContentFiltering.Unseen | src/algorithms/recommendationEngine.ts:116-119 | Reference definition of `availableCourses`: a course is in it exactly when it is in the catalog and the learner has not interacted with it |
| ContentFiltering.CandidatesFollowUnseen | src/algorithms/recommendationEngine.ts:119-171 | The candidates are the unseen courses one by one, in catalog order |
| ContentFiltering.ContentBased | src/algorithms/recommendationEngine.ts:112-174 | Empty for an unknown learner; at most n results, sorted; only catalog courses the learner has not touched; each score is the content score; distinct when catalog ids are |
| ContentFiltering.ContentBasedCount | src/algorithms/recommendationEngine.ts:112-173 | A known learner gets exactly min(n, number of unseen catalog courses) results for n ≥ 0 |
| ContentFiltering.CandidatesDistinct | src/algorithms/recommendationEngine.ts:119-171 | Over a catalog with distinct ids, the scored candidates name each course once |
| ContentFiltering.CandidatesAllSeen | src/algorithms/recommendationEngine.ts:116-119 | A learner who has interacted with every catalog course has no candidates |
| ContentFiltering.ContentBasedAllSeen | src/algorithms/recommendationEngine.ts:112-174 | A learner who has interacted with every catalog course gets no content-based recommendation |
| ContentFiltering.ContentBasedTwice | src/algorithms/recommendationEngine.ts:177-178 | Keeping the top n of the content-based top 2n is the content-based top n |
| ContentFiltering.ContentBasedKeepsBest | src/algorithms/recommendationEngine.ts:119-173 | Every eligible course left out scores no higher than any course returned |
| CollaborativeFiltering.CommonCourses | src/algorithms/recommendationEngine.ts:58-60 | The common courses are exactly those in both rows |
| CollaborativeFiltering.Vector | src/algorithms/recommendationEngine.ts:64-65 | The vector over the common courses carries each row's affinity at each position |
| CollaborativeFiltering.Consider | src/algorithms/recommendationEngine.ts:52-70 | A learner is recorded with their similarity exactly when they are a neighbour (another learner, a non-empty row, at least two common courses, positive similarity) |
| CollaborativeFiltering.Neighbours | src/algorithms/recommendationEngine.ts:50-71 | The similarity map, with unique keys; characterised by `CollaborativeFiltering.NeighboursAreExactlyTheNeighbours` and `CollaborativeFiltering.NeighboursCarrySimilarity` |
| CollaborativeFiltering.NeighboursAreExactlyTheNeighbours | src/algorithms/recommendationEngine.ts:50-71 | The similarity map holds a learner exactly when that learner is listed and is a neighbour |
| CollaborativeFiltering.NeighboursCarrySimilarity | src/algorithms/recommendationEngine.ts:67-70 | Each recorded similarity is that learner's cosine similarity, and it is positive |
| CollaborativeFiltering.AccumulateRowEntry | src/algorithms/recommendationEngine.ts:78-88 | One neighbour's row adds similarity × affinity and similarity to every course the target has not rated, and leaves the rest alone |
| CollaborativeFiltering.AccumulateRow | src/algorithms/recommendationEngine.ts:78-88 | One neighbour's row folded into the prediction map, keeping keys unique; characterised by `CollaborativeFiltering.AccumulateRowEntry` |
| CollaborativeFiltering.Predict | src/algorithms/recommendationEngine.ts:73-89 | The prediction map over all neighbours, with unique keys; characterised by `CollaborativeFiltering.PredictionIsWeightedSum` |
| CollaborativeFiltering.PredictionIsWeightedSum | src/algorithms/recommendationEngine.ts:73-89 | The prediction for a course is (Σ sim·affinity, Σ sim) over the neighbours who rated it, and absent when the target rated it or no neighbour did |
| CollaborativeFiltering.UnratedSumsVanish | src/algorithms/recommendationEngine.ts:78-88 | A course no neighbour rated accumulates nothing |
| CollaborativeFiltering.SumsBounds | src/algorithms/recommendationEngine.ts:86-87 | With positive similarities and unit affinities, 0 ≤ weighted sum ≤ weight sum, and the weight sum is positive exactly when some neighbour rated the course |
| CollaborativeFiltering.EstimateInUnitRange | src/algorithms/recommendationEngine.ts:97 | score/weight (0 when the weight is 0) lies in [0, 1] when 0 ≤ score ≤ weight |
| CollaborativeFiltering.Emit | src/algorithms/recommendationEngine.ts:93-105 | Each emitted recommendation is collaborative, carries the first catalog course with the predicted id, and comes from a prediction |
| CollaborativeFiltering.EmitIds | src/algorithms/recommendationEngine.ts:93-95 | A course is emitted exactly when it has a prediction and is in the catalog |
| CollaborativeFiltering.EmitScores | src/algorithms/recommendationEngine.ts:97-101 | Each emitted score is the prediction's score/weight |
| CollaborativeFiltering.EmitKeepsDistinct | src/algorithms/recommendationEngine.ts:93-105 | Emitted courses are distinct |
| CollaborativeFiltering.Collaborative | src/algorithms/recommendationEngine.ts:42-110 | A learner without interactions gets exactly the content-based result; otherwise the top n of the predictions; always at most n results, sorted, from the catalog |
| CollaborativeFiltering.PredictedSkipsSeen | src/algorithms/recommendationEngine.ts:79 | No course the target interacted with is predicted |
| CollaborativeFiltering.Predicted | src/algorithms/recommendationEngine.ts:73-105 | The unsorted collaborative recommendations; characterised by `CollaborativeFiltering.PredictedSkipsSeen` and `CollaborativeFiltering.PredictedIsWeightedMean` |
| CollaborativeFiltering.PredictedIsWeightedMean | src/algorithms/recommendationEngine.ts:73-105 | Each prediction is rated by some neighbour, and its score is the similarity-weighted mean of the neighbours' affinities, in [0, 1] for valid interactions |
| CollaborativeFiltering.CollaborativeProperties | src/algorithms/recommendationEngine.ts:42-110 | Collaborative results never include a course the learner already interacted with, score in [0, 1] for valid interactions, and are distinct when catalog ids are |
| Hybrid.Values | src/algorithms/recommendationEngine.ts:204-210 | The hybrid map's values become hybrid recommendations, in insertion order |
| Hybrid.AddCollaborative | src/algorithms/recommendationEngine.ts:182-188 | The collaborative pass keeps keys unique; its entries are given by `Hybrid.AddCollaborativeEntry` |
| Hybrid.AddContent | src/algorithms/recommendationEngine.ts:190-202 | The content pass keeps keys unique; its entries are given by `Hybrid.AddContentEntry` |
| Hybrid.Blends | src/algorithms/recommendationEngine.ts:180-202 | The `hybridScores` map has unique keys; its keys and entries are given by `Hybrid.BlendKeys` and `Hybrid.BlendEntry` |
| Hybrid.BlendsSize | src/algorithms/recommendationEngine.ts:180-204 | The map holds one entry per course id that either list recommends |
| Hybrid.LastFor | src/algorithms/recommendationEngine.ts:182-201 | The last recommendation for a course id, absent exactly when the id is not recommended |
| Hybrid.AddCollaborativeEntry | src/algorithms/recommendationEngine.ts:182-188 | After the collaborative pass, a course's entry is 0.6 × its last collaborative score, with source "collaborative" |
| Hybrid.AddContentEntry | src/algorithms/recommendationEngine.ts:190-202 | The content pass adds 0.4 × the content score to an existing entry, appending the source, and otherwise creates an entry of 0.4 × score |
| Hybrid.BlendKeys | src/algorithms/recommendationEngine.ts:180-202 | The hybrid map holds exactly the courses that either list recommends |
| Hybrid.BlendEntry | src/algorithms/recommendationEngine.ts:180-202 | Each blended score is 0.6·collaborative + 0.4·content, the missing side counting 0, with the sources in order |
| Hybrid.BlendedScoreInUnitRange | src/algorithms/recommendationEngine.ts:184-197 | With both inputs in [0, 1], the blended score lies in [0, 1] |
| Hybrid.HybridRecommend | src/algorithms/recommendationEngine.ts:176-215 | At most n results, sorted by score, each labelled hybrid |
| Hybrid.HybridCount | src/algorithms/recommendationEngine.ts:176-212 | Exactly min(n, number of course ids either 2n list recommends) results for n ≥ 0 |
| Hybrid.HybridFromLists | src/algorithms/recommendationEngine.ts:176-212 | Every hybrid result names a course recommended by the collaborative or the content-based top-2n list |
| Hybrid.HybridEligibleAndDistinct | src/algorithms/recommendationEngine.ts:176-215 | Hybrid results are distinct catalog courses the learner has not interacted with |
| Hybrid.ValuesScores | src/algorithms/recommendationEngine.ts:180-210 | Every hybrid value carries the blended score of its course |
| Hybrid.HybridScores | src/algorithms/recommendationEngine.ts:176-215 | Each hybrid score is 0.6·collaborative + 0.4·content over the 2n-candidate lists, and lies in [0, 1] for valid interactions |
| Hybrid.SelfBlend | src/algorithms/recommendationEngine.ts:180-210 | Blending a distinct list with itself returns the same courses and scores in the same order, since 0.6s + 0.4s = s |
| Hybrid.HybridColdStart | src/algorithms/recommendationEngine.ts:46-48 | For a learner without interactions, the hybrid result is the content-based top n, relabelled hybrid |
| Metrics.RelevantIds | src/algorithms/recommendationEngine.ts:218-224 | The relevant courses are exactly those the learner rated 4 or more (a missing rating counts 0) |
| Metrics.RecommendedSet | src/algorithms/recommendationEngine.ts:223 | The set of recommended course ids |
| Metrics.CatalogCategories | src/algorithms/recommendationEngine.ts:234 | The set of catalog categories |
| Metrics.Diversity | src/algorithms/recommendationEngine.ts:236-237 | `1 - (avgScore > 0.8 ? 0.3 : 0)`; characterised by `Metrics.DiversityIff` |
| Metrics.RawMetrics | src/algorithms/recommendationEngine.ts:217-237 | The unrounded metrics; characterised by `Metrics.RawFields` and `Metrics.MetricBounds` |
| Metrics.RoundMetrics | src/algorithms/recommendationEngine.ts:239-245 | Each field rounded to two decimals; characterised by `Metrics.RoundedFacts` |
| Metrics.Divide | src/algorithms/recommendationEngine.ts:233-234 | JavaScript division of sizes: a finite quotient, NaN for 0/0, Infinity for positive/0 |
| Metrics.Round2 | src/algorithms/recommendationEngine.ts:240-244 | `Math.round(x·100)/100` lies within half a hundredth of x |
| Metrics.Round2Exact | src/algorithms/recommendationEngine.ts:240-244 | A value with two decimals is left unchanged by rounding |
| Metrics.Round2Idempotent | src/algorithms/recommendationEngine.ts:240-244 | Rounding twice is rounding once |
| Metrics.MetricBounds | src/algorithms/recommendationEngine.ts:226-237 | Before rounding, precision, recall and accuracy lie in [0, 1], and diversity is 0.7 or 1 |
| Metrics.CalculateMetrics | src/algorithms/recommendationEngine.ts:217-246 | Precision and recall are the rounded shares of true positives among the recommended and the relevant ids; accuracy is the rounded mean of the unrounded two; coverage is the rounded ratio of categories; diversity is 0.7 exactly for a non-empty list whose mean score exceeds 0.8, and 1 otherwise; precision, recall and accuracy lie in [0, 1]; every finite field has at most two decimals |
| Metrics.RawFields | src/algorithms/recommendationEngine.ts:223-234 | The unrounded precision, recall, accuracy and coverage in terms of the recommended, relevant and category sets |
| Metrics.RoundedFacts | src/algorithms/recommendationEngine.ts:239-245 | Rounding keeps values in [0, 1] there, keeps 0.7 and 1 apart, and leaves at most two decimals in each field |
| Metrics.DiversityIff | src/algorithms/recommendationEngine.ts:236-237 | Diversity is 0.7 exactly when the list is non-empty and its mean score exceeds 0.8; the empty list's NaN mean gives 1 |
| Metrics.QuotientAbove | src/algorithms/recommendationEngine.ts:236-237 | A mean over a positive count exceeds a threshold exactly when the sum exceeds threshold × count |
| Metrics.Round2TwoDecimals | src/algorithms/recommendationEngine.ts:240-244 | `Math.round(x·100)/100` has at most two decimals |
| Metrics.PrecisionOneIff | src/algorithms/recommendationEngine.ts:226-228 | For a non-empty list, precision is 1 exactly when every recommended course is relevant |
| Metrics.RecallOneIff | src/algorithms/recommendationEngine.ts:226-229 | When something is relevant, recall is 1 exactly when every relevant course is recommended |
| Metrics.CoverageBounds | src/algorithms/recommendationEngine.ts:233-234 | With a non-empty catalog and catalog courses only, coverage is finite and in [0, 1] |
| Metrics.EmptyRecommendations | src/algorithms/recommendationEngine.ts:226-244 | No recommendations: precision, recall and accuracy 0, diversity 1, coverage 0 or NaN for an empty catalog |
| CoursePanel.Remove | src/components/CourseInteractionPanel.tsx:30-31 | `Set.delete`: removes exactly that id and keeps the rest distinct; an absent id changes nothing |
| CoursePanel.RemoveCuts | src/components/CourseInteractionPanel.tsx:30-31 | Deleting an id that occurs once cuts it out and keeps every other id in its order |
| CoursePanel.Toggle | src/components/CourseInteractionPanel.tsx:28-42 | Deselecting drops the course with its rating and completion and keeps the other selected courses in order; selecting appends it and changes nothing else |
| CoursePanel.ToggleTwice | src/components/CourseInteractionPanel.tsx:28-42 | Selecting then deselecting a course restores the panel exactly |
| CoursePanel.UpdateRating | src/components/CourseInteractionPanel.tsx:44-48 | The course's rating becomes the new one; every other entry and the rest of the state are unchanged |
| CoursePanel.UpdateCompletion | src/components/CourseInteractionPanel.tsx:50-54 | The course's completion becomes the new one; every other entry and the rest of the state are unchanged |
| CoursePanel.HandleComplete | src/components/CourseInteractionPanel.tsx:56-69 | One interaction per selected course, in selection order: id `i-<clock(k)>-<course>` for the k-th course, one clock reading per course, the current learner, the rating, completion defaulting to 0, kind Complete exactly at completion ≥ 100 and Rate otherwise |
| CoursePanel.HandleCompleteUniquePairs | src/components/CourseInteractionPanel.tsx:57-66 | The submitted interactions name each course once |
| CoursePanel.HandleCompleteIsValid | src/components/CourseInteractionPanel.tsx:56-69 | From a reachable panel, the submitted interactions are valid, so their affinities lie in [0, 1] |
| CoursePanel.CanComplete | src/components/CourseInteractionPanel.tsx:84-85 | `canComplete`: at least three selected courses, each rated and given a completion; used by `CoursePanel.ReadyInteractionsAreRated` |
| CoursePanel.ReadyInteractionsAreRated | src/components/CourseInteractionPanel.tsx:84-85 | When Complete is enabled, at least three interactions are sent, each carrying its star rating and completion |
| CoursePanel.TotalPages | src/components/CourseInteractionPanel.tsx:21-22 | `Math.ceil(count / 4)`: the fewest pages of four that hold every course |
| CoursePanel.Enabled | src/components/CourseInteractionPanel.tsx:109-233 | Which controls are on screen and enabled: the toggle for a course on the current page, stars and slider only for a selected course on that page, Previous off page 0, Next off the last page, one dot per page; `CoursePanel.ApplyKeepsValid` proves each enabled one keeps the panel valid |
| CoursePanel.ShownInCatalog | src/components/CourseInteractionPanel.tsx:23-26 | A course drawn on the current page is a catalog course |
| CoursePanel.Apply | src/components/CourseInteractionPanel.tsx:28-54 | The handler behind each control; characterised by `CoursePanel.Toggle`, `CoursePanel.UpdateRating`, `CoursePanel.UpdateCompletion` and `CoursePanel.ApplyKeepsValid` |
| CoursePanel.Run | src/components/CourseInteractionPanel.tsx:109-233 | A sequence of clicks on a fixed catalog, a click on an absent or disabled control doing nothing; `CoursePanel.RunKeepsValid` proves the panel invariant along it |
| CoursePanel.RunKeepsValid | src/components/CourseInteractionPanel.tsx:109-233 | Along any sequence of clicks from the initial panel: no course is selected twice, every selected course is a catalog course, only selected courses carry 1–5 stars and 0–100 completions in steps of 10, and a non-empty catalog keeps the page in range |
| CoursePanel.SubmittedCoursesInCatalog | src/components/CourseInteractionPanel.tsx:56-69 | Every interaction a session submits names a course the engine's `find` resolves in the catalog |
| CoursePanel.EmptyCatalogSelectsNothing | src/components/CourseInteractionPanel.tsx:109-126 | With no courses no card is drawn, so no session selects a course |
| CoursePanel.ApplyKeepsValid | src/components/CourseInteractionPanel.tsx:109-233 | One enabled control keeps the panel valid, its selection within the catalog and its page in range |
| CoursePanel.PageSizeAtMostFour | src/components/CourseInteractionPanel.tsx:23-26 | A page shows at most four courses |
| CoursePanel.PageCourses | src/components/CourseInteractionPanel.tsx:23-26 | `courses.slice(page·4, page·4 + 4)`; characterised by `CoursePanel.PageSizeAtMostFour` and `CoursePanel.CourseOnItsPage` |
| CoursePanel.CourseOnItsPage | src/components/CourseInteractionPanel.tsx:21-26 | Course k is shown on page k div 4, at position k mod 4 |
| CoursePanel.EmptyCatalogNext | src/components/CourseInteractionPanel.tsx:228-229 | With no courses, Next is enabled and moves to page -1, which shows nothing |
| Onboarding.ToggleInterest | src/components/OnboardingFlow.tsx:51-57 | A selected interest is removed and the others keep their order (an interest at k occurring only there leaves `s[..k] + s[k+1..]`); any other interest is appended; the selection stays free of duplicates |
| Onboarding.WithoutCuts | src/components/OnboardingFlow.tsx:54 | `filter` of an interest that occurs once, at k, cuts it out and keeps every other interest in order |
| Onboarding.ToggleTwice | src/components/OnboardingFlow.tsx:51-57 | Toggling twice restores the selection as a set, and exactly when the interest was not selected |
| Onboarding.Trim | src/components/OnboardingFlow.tsx:68 | `String.prototype.trim`: never longer than the name, and a non-empty result starts and ends with a non-space character |
| Onboarding.TrimSlice | src/components/OnboardingFlow.tsx:68 | The trimmed name is the infix of the name that follows its leading white space |
| Onboarding.VisibleInside | src/components/OnboardingFlow.tsx:68 | Every non-space character of the name lies inside the trimmed infix, so trimming drops only white space |
| Onboarding.Units | src/components/OnboardingFlow.tsx:68 | A character takes two UTF-16 code units exactly when it lies outside the Basic Multilingual Plane, one otherwise |
| Onboarding.Utf16Length | src/components/OnboardingFlow.tsx:68 | JavaScript's `length`: between the number of characters and twice that, and equal to it when no character is astral |
| Onboarding.Utf16AtLeastTwo | src/components/OnboardingFlow.tsx:68 | Two code units take two characters or one astral character |
| Onboarding.TrimmedPair | src/components/OnboardingFlow.tsx:68 | The trimmed name has two characters exactly when the name has two non-space characters |
| Onboarding.NameGate | src/components/OnboardingFlow.tsx:67-68 | The name gate (`name.trim().length >= 2`, in UTF-16 units) passes exactly when the name has two non-space characters or one astral character |
| Onboarding.OneEmojiName | src/components/OnboardingFlow.tsx:68 | A name made of one emoji passes the gate: its length is 2 |
| Onboarding.OneLetterName | src/components/OnboardingFlow.tsx:68 | A name made of one letter does not pass the gate: its length is 1 |
| Onboarding.HandleComplete | src/components/OnboardingFlow.tsx:59-63 | The profile is emitted exactly for a non-empty name, a chosen style and at least three interests, and it carries them unchanged |
| Onboarding.CanProceed | src/components/OnboardingFlow.tsx:65-76 | `canProceed`: the gate of each step; step 1 is characterised by `Onboarding.NameGate` |
| Onboarding.Enabled | src/components/OnboardingFlow.tsx:102-211 | Which controls are on screen and enabled at each step; used by `Onboarding.Apply` |
| Onboarding.Apply | src/components/OnboardingFlow.tsx:89-211 | A disabled or hidden control changes nothing; typing sets the name, a style button sets the style, an interest button toggles that interest and nothing else, Back goes back one step, Next goes forward one step |
| Onboarding.Run | src/components/OnboardingFlow.tsx:89-211 | A sequence of events; `Onboarding.RunKeepsReachable` proves the wizard invariant along it |
| Onboarding.RunKeepsReachable | src/components/OnboardingFlow.tsx:65-76 | Along any event sequence: the step stays in 1..3; the style is empty or one of the four; the interests are distinct and offered; each passed step's gate still holds |
| Onboarding.GetStartedCompletes | src/components/OnboardingFlow.tsx:208-210 | An enabled Get Started always reaches `onComplete`, with a name that passes the gate (two non-space characters or an astral one), one of the four styles and at least three distinct offered interests |
| Onboarding.TooFewInterests | src/components/OnboardingFlow.tsx:59-76 | With fewer than three interests, Get Started is disabled and `handleComplete` emits nothing |

## Left out

- **Rendering.** JSX, styling, icons, animation and the `reasoning` strings of recommendations are not modelled; none of them affects a score or a state.
- **Clock and randomness.** `Date.now()`, `new Date()` and `Math.random()` in the panel's submission are not modelled. The `map` callback reads `Date.now()` once per course, so the readings become a parameter `clock: nat -> string`: `clock(k)` is the reading for the k-th course, and any two readings may differ or agree. Time spent and timestamps are dropped from interactions.
- **Numbers.** IEEE-754 doubles are not modelled; scores are exact reals, so rounding error is absent. `0.6·s + 0.4·s == s` (used by `Hybrid.SelfBlend` and `Hybrid.HybridColdStart`) holds exactly only over reals. NaN and Infinity appear only where the code produces them from sizes: coverage as a `Quantity`, and the empty-list mean in diversity.
- **Square root.** `Math.sqrt` is not modelled; it is a parameter, and its properties are hypotheses (`RootAt`).
- **Tie order.** Ties are ordered only by the stability of the sort. The engine's `Array.prototype.sort` is specified as stable, and the model's insertion sort is stable.
- **Fractional counts.** A fractional `topN` is not modelled; n is an integer.
- **Default `topN`.** The three engine methods default `topN` to 5 when it is omitted. The model always passes n explicitly; the default is a call-site convenience.
- **Fractional ratings and completions.** `rating` and `completionPercentage` are JavaScript numbers; the model takes them as integers, so a fractional rating or completion is not modelled. The application's data are integers; the panel's stars give 1–5 and its slider gives 0–100 in steps of 10.
- **Lone surrogates.** A JavaScript string may hold an unpaired surrogate code unit; a Dafny `string` cannot. The UTF-16 length counts well-formed text only.
- **Other parts of the application.** The application shell, the demo data, the modal, the charts and the algorithm comparison are not part of this model.
- Hybrid.HybridScores: requires distinct catalog ids. With repeated ids, the content pass may meet one id twice, and the blend then depends on both occurrences.
- Hybrid.HybridColdStart: also requires distinct catalog ids and a non-negative n.
- CoursePanel.HandleComplete: the `timeSpentMinutes` and `timestamp` fields are not produced (see above).
- CoursePanel.RunKeepsValid: star and slider inputs are taken as what the controls can produce (1–5 stars; 0–100 in steps of 10). `parseInt` of other text is not modelled.
- ContentFiltering.ContentBased: learner lookup uses the first learner with the id, as `find` does; the model does not state which one when ids repeat.

## Notes on the code

- Cold-start fallback. `collaborativeFiltering` falls back to content-based scoring when the learner's row is missing or empty. Every matrix row is non-empty by construction, so the fallback happens exactly when the learner has no interaction (`Learning.Active`).
- Zero-weight predictions. Every prediction entry is created together with a positive similarity. With the recorded similarities positive (`CollaborativeFiltering.NeighboursCarrySimilarity`) and the affinities in [0, 1], the weight of an emitted course is positive, so the `weight > 0 ? … : 0` branch is not taken for it (`CollaborativeFiltering.SumsBounds`, which assumes those two facts).
- Metric bounds. Accuracy, precision and recall always lie in [0, 1]. Coverage can exceed 1, or be NaN or Infinity, when recommendations name categories outside the catalog or the catalog is empty. Diversity is 0.7 or 1.
- Empty catalog paging. With no courses, `totalPages` is 0. The Next button is enabled then (`currentPage === totalPages - 1` is false) and sets the page to -1. The page shows nothing, so the effect is invisible (`CoursePanel.EmptyCatalogNext`).
- Name check differs between gate and submission. The onboarding gate trims the name, but `handleComplete` tests the untrimmed name for non-emptiness. Because the name can only be edited at step 1, the gate's guarantee carries through to submission (`Onboarding.GetStartedCompletes`).

=== FILE: assoc.dfy ===
/**
 * A JavaScript `Map<string, V>`: a key/value list that remembers insertion
 * order. `Put` is `Map.prototype.set`: it overwrites the value of an
 * existing key in place (the key keeps its position) and appends a new key
 * at the end. Iteration (`forEach`) is in list order.
 */
module Assoc {
  import opened Wrappers

  type AList<V> = seq<(string, V)>

  function Keys<V>(a: AList<V>): (ks: seq<string>)
    ensures |ks| == |a|
    ensures forall k :: 0 <= k < |a| ==> ks[k] == a[k].0
  {
    seq(|a|, k requires 0 <= k < |a| => a[k].0)
  }

  predicate Has<V>(a: AList<V>, key: string) {
    exists k :: 0 <= k < |a| && a[k].0 == key
  }

  /** Every key occurs at most once, as in a Map. */
  predicate UniqueKeys<V>(a: AList<V>) {
    forall i, j :: 0 <= i < j < |a| ==> a[i].0 != a[j].0
  }

  /** The position of `key`, or -1. */
  function IndexOf<V>(a: AList<V>, key: string): (r: int)
    ensures -1 <= r < |a|
    ensures r == -1 <==> !Has(a, key)
    ensures 0 <= r ==> a[r].0 == key && forall j :: 0 <= j < r ==> a[j].0 != key
  {
    if |a| == 0 then -1
    else if a[0].0 == key then 0
    else
      var r := IndexOf(a[1..], key);
      if r == -1 then
        assert forall k :: 1 <= k < |a| ==> a[k] == a[1..][k - 1];
        -1
      else r + 1
  }

  /** `IndexOf` finds the first occurrence. */
  lemma IndexOfFirst<V>(a: AList<V>, key: string, i: int)
    requires 0 <= i < |a| && a[i].0 == key
    requires forall j :: 0 <= j < i ==> a[j].0 != key
    ensures IndexOf(a, key) == i
  {
  }

  /** `Map.prototype.get` */
  function Get<V>(a: AList<V>, key: string): (r: Option<V>)
    ensures r.None? <==> !Has(a, key)
    ensures UniqueKeys(a) ==> forall k :: 0 <= k < |a| && a[k].0 == key ==> r == Some(a[k].1)
    ensures r.Some? ==> exists k :: 0 <= k < |a| && a[k] == (key, r.value)
  {
    var i := IndexOf(a, key);
    if i == -1 then None else Some(a[i].1)
  }

  /** `Map.prototype.set` */
  function Put<V>(a: AList<V>, key: string, value: V): (r: AList<V>)
    ensures Has(a, key) ==> |r| == |a| && Keys(r) == Keys(a)
    ensures !Has(a, key) ==> Keys(r) == Keys(a) + [key]
    ensures UniqueKeys(a) ==> UniqueKeys(r)
    ensures Get(r, key) == Some(value)
    ensures forall other :: other != key ==> Get(r, other) == Get(a, other)
    ensures forall k :: 0 <= k < |r| ==> r[k] == (key, value) || r[k] in a
  {
    var i := IndexOf(a, key);
    if i == -1 then
      Appended(a, key, value);
      a + [(key, value)]
    else
      Replaced(a, i, key, value);
      a[i := (key, value)]
  }

  /** `set` of a new key appends it. */
  lemma Appended<V>(a: AList<V>, key: string, value: V)
    requires !Has(a, key)
    ensures var r := a + [(key, value)];
      && Keys(r) == Keys(a) + [key]
      && (UniqueKeys(a) ==> UniqueKeys(r))
      && Get(r, key) == Some(value)
      && (forall other :: other != key ==> Get(r, other) == Get(a, other))
      && (forall k :: 0 <= k < |r| ==> r[k] == (key, value) || r[k] in a)
  {
    var r := a + [(key, value)];
    assert forall k :: 0 <= k < |a| ==> r[k] == a[k];
    GetSnoc(a, (key, value), key);
    forall other | other != key
      ensures Get(r, other) == Get(a, other)
    {
      GetSnoc(a, (key, value), other);
    }
  }

  /** `set` of a key present at position `i` overwrites that entry. */
  lemma Replaced<V>(a: AList<V>, i: int, key: string, value: V)
    requires 0 <= i < |a| && a[i].0 == key
    requires forall j :: 0 <= j < i ==> a[j].0 != key
    ensures var r := a[i := (key, value)];
      && |r| == |a| && Keys(r) == Keys(a)
      && (UniqueKeys(a) ==> UniqueKeys(r))
      && Get(r, key) == Some(value)
      && (forall other :: other != key ==> Get(r, other) == Get(a, other))
      && (forall k :: 0 <= k < |r| ==> r[k] == (key, value) || r[k] in a)
  {
    var r := a[i := (key, value)];
    assert Keys(r) == Keys(a);
    IndexOfFirst(r, key, i);
    forall other | other != key
      ensures Get(r, other) == Get(a, other)
    {
      if Has(a, other) {
        var j := IndexOf(a, other);
        assert r[j] == a[j];
        IndexOfFirst(r, other, j);
      } else {
        assert !Has(r, other);
      }
    }
  }

  /** The keys, as a set. */
  function KeySet<V>(a: AList<V>): (ks: set<string>)
    ensures forall key :: key in ks <==> Has(a, key)
  {
    set k | 0 <= k < |a| :: a[k].0
  }

  /** A Map's `size`: with unique keys, the list has one entry per key. */
  lemma {:induction false} KeySetSize<V>(a: AList<V>)
    requires UniqueKeys(a)
    ensures |KeySet(a)| == |a|
  {
    if |a| > 0 {
      var prefix := a[..|a| - 1];
      var last := a[|a| - 1];
      assert UniqueKeys(prefix);
      KeySetSize(prefix);
      assert last.0 !in KeySet(prefix) by {
        forall k | 0 <= k < |prefix|
          ensures prefix[k].0 != last.0
        {
          assert prefix[k] == a[k];
        }
      }
      KeySetSnoc(a);
    }
  }

  /** The key set of a non-empty list: the prefix's keys plus the last key. */
  lemma KeySetSnoc<V>(a: AList<V>)
    requires |a| > 0
    ensures KeySet(a) == KeySet(a[..|a| - 1]) + {a[|a| - 1].0}
  {
    var prefix := a[..|a| - 1];
    forall key
      ensures key in KeySet(a) <==> key in KeySet(prefix) || key == a[|a| - 1].0
    {
      if key in KeySet(a) {
        var k :| 0 <= k < |a| && a[k].0 == key;
        if k < |a| - 1 {
          assert prefix[k].0 == key;
        }
      }
      if key in KeySet(prefix) {
        var k :| 0 <= k < |prefix| && prefix[k].0 == key;
        assert a[k].0 == key;
      }
    }
  }

  /** A key is present exactly when it is one of the listed keys. */
  lemma HasIffInKeys<V>(a: AList<V>, key: string)
    ensures Has(a, key) <==> key in Keys(a)
  {
    if Has(a, key) {
      var k :| 0 <= k < |a| && a[k].0 == key;
      assert Keys(a)[k] == key;
    }
  }

  /** Looking up in a list extended at the end. */
  lemma GetSnoc<V>(a: AList<V>, e: (string, V), key: string)
    ensures Has(a + [e], key) <==> Has(a, key) || e.0 == key
    ensures Get(a + [e], key) == if Has(a, key) then Get(a, key) else if e.0 == key then Some(e.1) else None
  {
    var b := a + [e];
    assert forall k :: 0 <= k < |a| ==> b[k] == a[k];
    if Has(a, key) {
      IndexOfFirst(b, key, IndexOf(a, key));
    } else if e.0 == key {
      IndexOfFirst(b, key, |a|);
    }
  }

  /** A prefix of a list with unique keys has unique keys. */
  lemma UniquePrefix<V>(a: AList<V>)
    requires UniqueKeys(a) && |a| > 0
    ensures UniqueKeys(a[..|a| - 1])
    ensures !Has(a[..|a| - 1], a[|a| - 1].0)
  {
  }

  /** The keys after `Put` are the old keys plus the one put. */
  lemma HasPut<V>(a: AList<V>, key: string, value: V, other: string)
    ensures Has(Put(a, key, value), other) <==> other == key || Has(a, other)
  {
    if other != key {
      assert Get(Put(a, key, value), other) == Get(a, other);
    }
  }
}

=== FILE: collaborative.dfy ===
/**
 * The collaborative scorer: predicts the target's affinity for unseen
 * courses as the similarity-weighted mean of the affinities of students
 * whose rows resemble the target's. A target with no affinities falls back
 * to the content-based scorer.
 */
module CollaborativeFiltering {
  import opened Wrappers
  import opened Learning
  import opened Assoc
  import opened AffinityMatrix
  import opened Similarity
  import opened Ranking
  import opened ContentFiltering

  /** The target's courses, in the target row's order, that `other` also has. */
  function CommonCourses(target: Row, other: Row): (cs: seq<string>)
    ensures forall c :: c in cs <==> Has(target, c) && Has(other, c)
  {
    if |target| == 0 then []
    else
      var rest := CommonCourses(target[1..], other);
      assert forall c :: Has(target, c) <==> target[0].0 == c || Has(target[1..], c) by {
        assert forall k :: 1 <= k < |target| ==> target[k] == target[1..][k - 1];
      }
      (if Has(other, target[0].0) then [target[0].0] else []) + rest
  }

  /** The affinities of `row` at the given courses. */
  function Vector(row: Row, cs: seq<string>): (v: seq<real>)
    ensures |v| == |cs|
    ensures forall k :: 0 <= k < |cs| && Has(row, cs[k]) ==> Get(row, cs[k]) == Some(v[k])
  {
    seq(|cs|, k requires 0 <= k < |cs| => Get(row, cs[k]).GetOr(0.0))
  }

  /** Cosine similarity of two rows over their common courses. */
  function RowSimilarity(target: Row, other: Row, root: real -> real): real {
    var cs := CommonCourses(target, other);
    CosineSimilarity(Vector(target, cs), Vector(other, cs), root)
  }

  /**
   * A student counts as a neighbour of the target: another student with a
   * non-empty row, at least two common courses and positive similarity.
   */
  predicate IsNeighbour(m: Matrix, targetId: string, target: Row, id: string, root: real -> real) {
    && id != targetId
    && id in m && |m[id]| > 0
    && |CommonCourses(target, m[id])| >= 2
    && RowSimilarity(target, m[id], root) > 0.0
  }

  /** One iteration of the neighbour search over the students. */
  function Consider(sims: AList<real>, s: Student, m: Matrix, targetId: string, target: Row,
                    root: real -> real): (r: AList<real>)
    ensures r == if IsNeighbour(m, targetId, target, s.id, root)
                 then Put(sims, s.id, RowSimilarity(target, m[s.id], root)) else sims
  {
    if s.id == targetId then sims
    else if s.id !in m || |m[s.id]| == 0 then sims
    else
      var common := CommonCourses(target, m[s.id]);
      if |common| < 2 then sims
      else
        var similarity := CosineSimilarity(Vector(target, common), Vector(m[s.id], common), root);
        if similarity > 0.0 then Put(sims, s.id, similarity) else sims
  }

  /** The `similarities` map, built student by student. */
  function Neighbours(students: seq<Student>, m: Matrix, targetId: string, target: Row,
                      root: real -> real): (sims: AList<real>)
    ensures UniqueKeys(sims)
  {
    if |students| == 0 then []
    else
      Consider(Neighbours(students[..|students| - 1], m, targetId, target, root),
               students[|students| - 1], m, targetId, target, root)
  }

  /** Is some student in `students` called `id`? */
  predicate Listed(students: seq<Student>, id: string) {
    exists j :: 0 <= j < |students| && students[j].id == id
  }

  /** The similarities map lists exactly the listed students that are neighbours. */
  lemma {:induction false} NeighboursAreExactlyTheNeighbours(students: seq<Student>, m: Matrix, targetId: string,
                                                           target: Row, root: real -> real, id: string)
    ensures Has(Neighbours(students, m, targetId, target, root), id)
            <==> Listed(students, id) && IsNeighbour(m, targetId, target, id, root)
  {
    if |students| > 0 {
      var prefix := students[..|students| - 1];
      var s := students[|students| - 1];
      var before := Neighbours(prefix, m, targetId, target, root);
      NeighboursAreExactlyTheNeighbours(prefix, m, targetId, target, root, id);
      assert Listed(students, id) <==> Listed(prefix, id) || s.id == id by {
        assert forall j :: 0 <= j < |prefix| ==> students[j] == prefix[j];
      }
      if IsNeighbour(m, targetId, target, s.id, root) {
        HasPut(before, s.id, RowSimilarity(target, m[s.id], root), id);
      }
    }
  }

  /** Every entry is a neighbour of the target, stored with its similarity. */
  predicate AllNeighbours(sims: AList<real>, m: Matrix, targetId: string, target: Row, root: real -> real) {
    forall k :: 0 <= k < |sims| ==>
      && IsNeighbour(m, targetId, target, sims[k].0, root)
      && sims[k].1 == RowSimilarity(target, m[sims[k].0], root)
  }

  /** Every entry of the similarities map is a neighbour, stored with its similarity. */
  lemma {:induction false} NeighboursCarrySimilarity(students: seq<Student>, m: Matrix, targetId: string,
                                                     target: Row, root: real -> real)
    ensures AllNeighbours(Neighbours(students, m, targetId, target, root), m, targetId, target, root)
  {
    if |students| > 0 {
      var before := Neighbours(students[..|students| - 1], m, targetId, target, root);
      var s := students[|students| - 1];
      NeighboursCarrySimilarity(students[..|students| - 1], m, targetId, target, root);
      if IsNeighbour(m, targetId, target, s.id, root) {
        PutNeighbour(before, m, targetId, target, s.id, root);
      }
    }
  }

  /** Storing a neighbour with its similarity keeps every entry a neighbour with its similarity. */
  lemma PutNeighbour(sims: AList<real>, m: Matrix, targetId: string, target: Row, id: string, root: real -> real)
    requires AllNeighbours(sims, m, targetId, target, root) && IsNeighbour(m, targetId, target, id, root)
    ensures AllNeighbours(Put(sims, id, RowSimilarity(target, m[id], root)), m, targetId, target, root)
  {
    var entry := (id, RowSimilarity(target, m[id], root));
    var r := Put(sims, id, entry.1);
    forall k | 0 <= k < |r|
      ensures IsNeighbour(m, targetId, target, r[k].0, root)
      ensures r[k].1 == RowSimilarity(target, m[r[k].0], root)
    {
      if r[k] != entry {
        var j :| 0 <= j < |sims| && sims[j] == r[k];
      }
    }
  }

  /** The running similarity-weighted sum and weight for one course. */
  datatype Prediction = Prediction(score: real, weight: real)

  /** A prediction (absent meaning {0, 0}) after adding one weighted affinity. */
  function Added(p: Option<Prediction>, sim: real, affinity: real): Prediction {
    var q := p.GetOr(Prediction(0.0, 0.0));
    Prediction(q.score + sim * affinity, q.weight + sim)
  }

  /** Adds one neighbour's affinity for `course`. */
  function Accumulate(preds: AList<Prediction>, course: string, sim: real, affinity: real): (r: AList<Prediction>)
    ensures UniqueKeys(preds) ==> UniqueKeys(r)
  {
    Put(preds, course, Added(Get(preds, course), sim, affinity))
  }

  /** One neighbour's row: every course the target has no affinity for is accumulated. */
  function AccumulateRow(preds: AList<Prediction>, target: Row, sim: real, row: Row): (r: AList<Prediction>)
    ensures UniqueKeys(preds) ==> UniqueKeys(r)
  {
    if |row| == 0 then preds
    else
      var before := AccumulateRow(preds, target, sim, row[..|row| - 1]);
      var entry := row[|row| - 1];
      if Has(target, entry.0) then before else Accumulate(before, entry.0, sim, entry.1)
  }

  /** The `predictions` map, neighbour by neighbour. */
  function Predict(sims: AList<real>, m: Matrix, target: Row): (r: AList<Prediction>)
    ensures UniqueKeys(r)
  {
    if |sims| == 0 then []
    else
      var before := Predict(sims[..|sims| - 1], m, target);
      var entry := sims[|sims| - 1];
      AccumulateRow(before, target, entry.1, RowOf(m, entry.0))
  }

  /** Does some neighbour have an affinity for `course`? */
  predicate Rated(sims: AList<real>, m: Matrix, course: string) {
    exists k :: 0 <= k < |sims| && Has(RowOf(m, sims[k].0), course)
  }

  /** Σ similarity · affinity over the neighbours with an affinity for `course`. */
  function WeightedSum(sims: AList<real>, m: Matrix, course: string): real {
    if |sims| == 0 then 0.0
    else
      var entry := sims[|sims| - 1];
      var before := WeightedSum(sims[..|sims| - 1], m, course);
      match Get(RowOf(m, entry.0), course)
      case Some(a) => before + entry.1 * a
      case None => before
  }

  /** Σ similarity over the neighbours with an affinity for `course`. */
  function WeightSum(sims: AList<real>, m: Matrix, course: string): real {
    if |sims| == 0 then 0.0
    else
      var entry := sims[|sims| - 1];
      var before := WeightSum(sims[..|sims| - 1], m, course);
      if Has(RowOf(m, entry.0), course) then before + entry.1 else before
  }

  /** One row's pass changes only the entries of the courses in the row the target lacks. */
  lemma {:induction false} AccumulateRowEntry(preds: AList<Prediction>, target: Row, sim: real, row: Row, c: string)
    requires UniqueKeys(row)
    ensures Get(AccumulateRow(preds, target, sim, row), c) ==
            if !Has(target, c) && Has(row, c) then Some(Added(Get(preds, c), sim, Get(row, c).value))
            else Get(preds, c)
  {
    if |row| > 0 {
      var prefix := row[..|row| - 1];
      var entry := row[|row| - 1];
      var before := AccumulateRow(preds, target, sim, prefix);
      assert row == prefix + [entry];
      UniquePrefix(row);
      GetSnoc(prefix, entry, c);
      AccumulateRowEntry(preds, target, sim, prefix, c);
      if !Has(target, entry.0) {
        assert AccumulateRow(preds, target, sim, row) == Accumulate(before, entry.0, sim, entry.1);
        if c == entry.0 {
          assert Get(before, c) == Get(preds, c);
        }
      }
    }
  }

  /** The last neighbour's share of both sums. */
  lemma SumsStep(sims: AList<real>, m: Matrix, c: string)
    requires |sims| > 0
    ensures var prefix := sims[..|sims| - 1];
            var entry := sims[|sims| - 1];
            var row := RowOf(m, entry.0);
            && WeightedSum(sims, m, c) == WeightedSum(prefix, m, c) + (if Has(row, c) then entry.1 * Get(row, c).value else 0.0)
            && WeightSum(sims, m, c) == WeightSum(prefix, m, c) + (if Has(row, c) then entry.1 else 0.0)
  {
  }

  lemma SumsHit(sims: AList<real>, m: Matrix, c: string)
    requires |sims| > 0 && Has(RowOf(m, sims[|sims| - 1].0), c)
    ensures WeightedSum(sims, m, c) ==
            WeightedSum(sims[..|sims| - 1], m, c) + sims[|sims| - 1].1 * Get(RowOf(m, sims[|sims| - 1].0), c).value
    ensures WeightSum(sims, m, c) == WeightSum(sims[..|sims| - 1], m, c) + sims[|sims| - 1].1
  {
    SumsStep(sims, m, c);
  }

  /** Without a rating neighbour both sums are zero. */
  lemma {:induction false} UnratedSumsVanish(sims: AList<real>, m: Matrix, c: string)
    requires !Rated(sims, m, c)
    ensures WeightedSum(sims, m, c) == 0.0 && WeightSum(sims, m, c) == 0.0
  {
    if |sims| > 0 {
      var prefix := sims[..|sims| - 1];
      assert !Rated(prefix, m, c) by {
        assert forall k :: 0 <= k < |prefix| ==> prefix[k] == sims[k];
      }
      assert !Has(RowOf(m, sims[|sims| - 1].0), c);
      UnratedSumsVanish(prefix, m, c);
    }
  }

  /**
   * The prediction for a course the target lacks is the pair (Σ sim · affinity,
   * Σ sim) over the neighbours that rated it; there is none for a course the
   * target has or no neighbour rated.
   */
  lemma {:induction false} PredictionIsWeightedSum(sims: AList<real>, m: Matrix, target: Row, c: string)
    requires WellFormed(m)
    ensures Get(Predict(sims, m, target), c) == Expected(sims, m, target, c)
  {
    if |sims| > 0 {
      PredictionIsWeightedSum(sims[..|sims| - 1], m, target, c);
      PredictStep(sims, m, target, c);
      ExpectedStep(sims, m, target, c);
    }
  }

  /** The reference value of the prediction for `c`. */
  function Expected(sims: AList<real>, m: Matrix, target: Row, c: string): Option<Prediction> {
    if !Has(target, c) && Rated(sims, m, c)
    then Some(Prediction(WeightedSum(sims, m, c), WeightSum(sims, m, c)))
    else None
  }

  /** The reference values obey the same step as one row's pass. */
  lemma ExpectedStep(sims: AList<real>, m: Matrix, target: Row, c: string)
    requires |sims| > 0
    ensures var entry := sims[|sims| - 1];
            var row := RowOf(m, entry.0);
            var before := Expected(sims[..|sims| - 1], m, target, c);
            Expected(sims, m, target, c) ==
              if !Has(target, c) && Has(row, c) then Some(Added(before, entry.1, Get(row, c).value))
              else before
  {
    var entry := sims[|sims| - 1];
    if !Has(target, c) && Has(RowOf(m, entry.0), c) {
      ExpectedStepHit(sims, m, target, c);
    } else {
      ExpectedStepMiss(sims, m, target, c);
    }
  }

  lemma ExpectedStepHit(sims: AList<real>, m: Matrix, target: Row, c: string)
    requires |sims| > 0 && !Has(target, c) && Has(RowOf(m, sims[|sims| - 1].0), c)
    ensures Expected(sims, m, target, c) ==
            Some(Added(Expected(sims[..|sims| - 1], m, target, c), sims[|sims| - 1].1,
                       Get(RowOf(m, sims[|sims| - 1].0), c).value))
  {
    var prefix := sims[..|sims| - 1];
    var entry := sims[|sims| - 1];
    var a := Get(RowOf(m, entry.0), c).value;
    SumsHit(sims, m, c);
    RatedStep(sims, m, c);
    ExpectedAdds(prefix, sims, m, target, c, entry.1, a);
  }

  /** When the sums grow by one neighbour's terms, so does the reference value. */
  lemma ExpectedAdds(prefix: AList<real>, sims: AList<real>, m: Matrix, target: Row, c: string, sim: real, a: real)
    requires !Has(target, c) && Rated(sims, m, c)
    requires WeightedSum(sims, m, c) == WeightedSum(prefix, m, c) + sim * a
    requires WeightSum(sims, m, c) == WeightSum(prefix, m, c) + sim
    ensures Expected(sims, m, target, c) == Some(Added(Expected(prefix, m, target, c), sim, a))
  {
    ExpectedSums(prefix, m, target, c);
    ExpectedSums(sims, m, target, c);
    AddedTo(Expected(prefix, m, target, c), Expected(sims, m, target, c),
            WeightedSum(prefix, m, c), WeightSum(prefix, m, c), WeightedSum(sims, m, c), WeightSum(sims, m, c),
            sim, a);
  }

  /** For a course the target lacks, the reference value carries the two sums, zero when unrated. */
  lemma ExpectedSums(sims: AList<real>, m: Matrix, target: Row, c: string)
    requires !Has(target, c)
    ensures Expected(sims, m, target, c).GetOr(Prediction(0.0, 0.0)) == Prediction(WeightedSum(sims, m, c), WeightSum(sims, m, c))
    ensures Rated(sims, m, c) ==> Expected(sims, m, target, c) == Some(Prediction(WeightedSum(sims, m, c), WeightSum(sims, m, c)))
  {
    if !Rated(sims, m, c) {
      UnratedSumsVanish(sims, m, c);
    }
  }

  lemma ExpectedStepMiss(sims: AList<real>, m: Matrix, target: Row, c: string)
    requires |sims| > 0 && !(!Has(target, c) && Has(RowOf(m, sims[|sims| - 1].0), c))
    ensures Expected(sims, m, target, c) == Expected(sims[..|sims| - 1], m, target, c)
  {
    if !Has(target, c) {
      SumsStep(sims, m, c);
      RatedStep(sims, m, c);
    }
  }

  lemma RatedStep(sims: AList<real>, m: Matrix, c: string)
    requires |sims| > 0
    ensures Rated(sims, m, c) <==> Rated(sims[..|sims| - 1], m, c) || Has(RowOf(m, sims[|sims| - 1].0), c)
  {
    var prefix := sims[..|sims| - 1];
    assert forall k :: 0 <= k < |prefix| ==> prefix[k] == sims[k];
  }

  /** A prediction whose sums grew by one neighbour's terms is that neighbour added. */
  lemma AddedTo(before: Option<Prediction>, after: Option<Prediction>,
                s0: real, w0: real, s1: real, w1: real, sim: real, a: real)
    requires before.GetOr(Prediction(0.0, 0.0)) == Prediction(s0, w0)
    requires after == Some(Prediction(s1, w1))
    requires s1 == s0 + sim * a && w1 == w0 + sim
    ensures after == Some(Added(before, sim, a))
  {
  }

  /** The last neighbour's row applied to the predictions of the others. */
  lemma PredictStep(sims: AList<real>, m: Matrix, target: Row, c: string)
    requires WellFormed(m) && |sims| > 0
    ensures var before := Predict(sims[..|sims| - 1], m, target);
            var entry := sims[|sims| - 1];
            var row := RowOf(m, entry.0);
            Get(Predict(sims, m, target), c) ==
              if !Has(target, c) && Has(row, c) then Some(Added(Get(before, c), entry.1, Get(row, c).value))
              else Get(before, c)
  {
    var entry := sims[|sims| - 1];
    AccumulateRowEntry(Predict(sims[..|sims| - 1], m, target), target, entry.1, RowOf(m, entry.0), c);
  }

  /** Every affinity in the matrix lies in [0, 1]. */
  predicate UnitAffinities(m: Matrix) {
    forall s, k :: s in m && 0 <= k < |m[s]| ==> 0.0 <= m[s][k].1 <= 1.0
  }

  /** Every similarity in the map is positive. */
  predicate PositiveSimilarities(sims: AList<real>) {
    forall k :: 0 <= k < |sims| ==> sims[k].1 > 0.0
  }

  /**
   * With positive similarities and affinities in [0, 1], the weighted sum
   * lies between 0 and the weight, and the weight is positive exactly when
   * some neighbour rated the course.
   */
  lemma {:induction false} SumsBounds(sims: AList<real>, m: Matrix, c: string)
    requires PositiveSimilarities(sims) && UnitAffinities(m)
    ensures 0.0 <= WeightedSum(sims, m, c) <= WeightSum(sims, m, c)
    ensures Rated(sims, m, c) <==> WeightSum(sims, m, c) > 0.0
  {
    if |sims| > 0 {
      var prefix := sims[..|sims| - 1];
      var entry := sims[|sims| - 1];
      var row := RowOf(m, entry.0);
      assert PositiveSimilarities(prefix) by {
        assert forall k :: 0 <= k < |prefix| ==> prefix[k] == sims[k];
      }
      SumsBounds(prefix, m, c);
      assert Rated(sims, m, c) <==> Rated(prefix, m, c) || Has(row, c) by {
        assert forall k :: 0 <= k < |prefix| ==> prefix[k] == sims[k];
      }
      SumsStepBounds(sims, m, c);
    }
  }

  /** The last neighbour's share keeps the weighted sum between 0 and the weight. */
  lemma SumsStepBounds(sims: AList<real>, m: Matrix, c: string)
    requires |sims| > 0 && sims[|sims| - 1].1 > 0.0 && UnitAffinities(m)
    requires var prefix := sims[..|sims| - 1];
             0.0 <= WeightedSum(prefix, m, c) <= WeightSum(prefix, m, c)
    ensures 0.0 <= WeightedSum(sims, m, c) <= WeightSum(sims, m, c)
    ensures WeightSum(sims, m, c) > 0.0 <==>
            WeightSum(sims[..|sims| - 1], m, c) > 0.0 || Has(RowOf(m, sims[|sims| - 1].0), c)
  {
    var prefix := sims[..|sims| - 1];
    var entry := sims[|sims| - 1];
    var row := RowOf(m, entry.0);
    SumsStep(sims, m, c);
    if Has(row, c) {
      var a := Get(row, c).value;
      var k :| 0 <= k < |row| && row[k] == (c, a);
      assert 0.0 <= a <= 1.0 by {
        assert entry.0 in m && row[k] == m[entry.0][k];
      }
      BoundsStep(WeightedSum(prefix, m, c), WeightSum(prefix, m, c), entry.1, a);
    }
  }

  lemma BoundsStep(ws: real, w: real, sim: real, a: real)
    requires 0.0 <= ws <= w && 0.0 < sim && 0.0 <= a <= 1.0
    ensures 0.0 <= ws + sim * a <= w + sim && 0.0 < w + sim
  {
    assert sim * a <= sim * 1.0;
  }

  /** `pred.weight > 0 ? pred.score / pred.weight : 0` */
  function Estimate(p: Prediction): real {
    if p.weight > 0.0 then p.score / p.weight else 0.0
  }

  /** A weighted mean of values in [0, 1] is in [0, 1]. */
  lemma EstimateInUnitRange(p: Prediction)
    requires 0.0 <= p.score <= p.weight
    ensures 0.0 <= Estimate(p) <= 1.0
  {
    if p.weight > 0.0 {
      DivWithinUnit(p.score, p.weight);
    }
  }

  lemma DivWithinUnit(x: real, w: real)
    requires 0.0 < w && 0.0 <= x <= w
    ensures 0.0 <= x / w <= 1.0
  {
    assert x / w * w == x;
  }

  /** Turns predictions into recommendations, skipping ids missing from the catalog. */
  function Emit(preds: AList<Prediction>, courses: seq<Course>): (r: seq<Recommendation>)
    ensures forall x :: x in r ==>
      && x.algorithm == CollaborativeAlgorithm
      && FindCourse(courses, x.course.id) == Some(x.course)
      && Has(preds, x.course.id)
  {
    if |preds| == 0 then []
    else
      var rest := Emit(preds[1..], courses);
      assert forall c :: Has(preds[1..], c) ==> Has(preds, c) by {
        assert forall k :: 0 <= k < |preds| - 1 ==> preds[1..][k] == preds[k + 1];
      }
      match FindCourse(courses, preds[0].0)
      case None => rest
      case Some(course) => [Recommendation(course, Estimate(preds[0].1), CollaborativeAlgorithm)] + rest
  }

  /** With a Map's unique keys, every recommendation scores the estimate of its own course. */
  lemma {:induction false} EmitScores(preds: AList<Prediction>, courses: seq<Course>)
    requires UniqueKeys(preds)
    ensures forall x :: x in Emit(preds, courses) ==> x.score == Estimate(Get(preds, x.course.id).value)
  {
    if |preds| > 0 {
      var tail := preds[1..];
      assert UniqueKeys(tail);
      EmitScores(tail, courses);
      forall x | x in Emit(tail, courses)
        ensures Get(preds, x.course.id) == Get(tail, x.course.id)
      {
        var k :| 0 <= k < |tail| && tail[k].0 == x.course.id;
        assert preds[k + 1] == tail[k];
      }
    }
  }

  /** The emitted ids are exactly the predicted ids the catalog knows. */
  lemma {:induction false} EmitIds(preds: AList<Prediction>, courses: seq<Course>, c: string)
    ensures c in RecommendedIds(Emit(preds, courses)) <==> Has(preds, c) && FindCourse(courses, c).Some?
  {
    if |preds| > 0 {
      var tail := preds[1..];
      EmitIds(tail, courses, c);
      assert Has(preds, c) <==> preds[0].0 == c || Has(tail, c) by {
        assert forall k :: 0 <= k < |tail| ==> tail[k] == preds[k + 1];
      }
      var rest := Emit(tail, courses);
      match FindCourse(courses, preds[0].0)
      case None =>
        assert Emit(preds, courses) == rest;
      case Some(course) =>
        var x := Recommendation(course, Estimate(preds[0].1), CollaborativeAlgorithm);
        assert Emit(preds, courses) == [x] + rest;
        IdsCons(x, rest, c);
    }
  }

  /** Emitting from a Map never repeats a course id. */
  lemma {:induction false} EmitKeepsDistinct(preds: AList<Prediction>, courses: seq<Course>)
    requires UniqueKeys(preds)
    ensures DistinctRecommendations(Emit(preds, courses))
  {
    if |preds| > 0 {
      var tail := preds[1..];
      assert UniqueKeys(tail);
      EmitKeepsDistinct(tail, courses);
      assert !Has(tail, preds[0].0);
      var rest := Emit(tail, courses);
      assert forall x :: x in rest ==> x.course.id != preds[0].0;
      match FindCourse(courses, preds[0].0)
      case None =>
        assert Emit(preds, courses) == rest;
      case Some(course) =>
        var x := Recommendation(course, Estimate(preds[0].1), CollaborativeAlgorithm);
        assert Emit(preds, courses) == [x] + rest;
        ConsDistinct(x, rest);
    }
  }

  /** The target's neighbours with their similarities, as `collaborativeFiltering` finds them. */
  function Neighbourhood(ds: Dataset, target: string, root: real -> real): AList<real> {
    var m := BuildMatrix(ds.interactions);
    Neighbours(ds.students, m, target, RowOf(m, target), root)
  }

  /** The unranked collaborative recommendations of a target that has affinities. */
  function Predicted(ds: Dataset, target: string, root: real -> real): seq<Recommendation> {
    var m := BuildMatrix(ds.interactions);
    Emit(Predict(Neighbourhood(ds, target, root), m, RowOf(m, target)), ds.courses)
  }

  /**
   * `collaborativeFiltering(target, n)`: the content-based list when the
   * target has no affinities, otherwise the top `n` predictions.
   */
  function Collaborative(ds: Dataset, target: string, n: int, root: real -> real): (r: seq<Recommendation>)
    ensures 0 <= n ==> |r| <= n
    ensures SortedByScore(r)
    ensures forall x :: x in r ==> x.course in ds.courses
    ensures !Active(ds.interactions, target) ==> r == ContentBased(ds, target, n)
    ensures Active(ds.interactions, target) ==> r == Rank(Predicted(ds, target, root), n)
  {
    var m := BuildMatrix(ds.interactions);
    if target !in m || |m[target]| == 0 then ContentBased(ds, target, n)
    else
      var row := m[target];
      var sims := Neighbours(ds.students, m, target, row, root);
      Rank(Emit(Predict(sims, m, row), ds.courses), n)
  }

  /** Every collaborative prediction is for a course the target never interacted with. */
  lemma PredictedSkipsSeen(ds: Dataset, target: string, root: real -> real)
    ensures forall x :: x in Predicted(ds, target, root) ==> !HasInteraction(ds.interactions, target, x.course.id)
  {
    var m := BuildMatrix(ds.interactions);
    var sims := Neighbourhood(ds, target, root);
    forall x | x in Predicted(ds, target, root)
      ensures !HasInteraction(ds.interactions, target, x.course.id)
    {
      var c := x.course.id;
      PredictionIsWeightedSum(sims, m, RowOf(m, target), c);
      RowKeysAreInteractedCourses(ds.interactions, target, c);
    }
  }

  /**
   * Every collaborative prediction is the similarity-weighted mean of the
   * neighbours' affinities for its course: at least one neighbour rated it,
   * and with valid interactions the mean lies in [0, 1].
   */
  lemma PredictedIsWeightedMean(ds: Dataset, target: string, root: real -> real)
    ensures var m := BuildMatrix(ds.interactions);
            var sims := Neighbourhood(ds, target, root);
            forall x :: x in Predicted(ds, target, root) ==>
              && x.algorithm == CollaborativeAlgorithm
              && Rated(sims, m, x.course.id)
              && x.score == Estimate(Prediction(WeightedSum(sims, m, x.course.id), WeightSum(sims, m, x.course.id)))
    ensures AllValid(ds.interactions) ==>
            forall x :: x in Predicted(ds, target, root) ==> 0.0 <= x.score <= 1.0
  {
    var m := BuildMatrix(ds.interactions);
    var row := RowOf(m, target);
    var sims := Neighbourhood(ds, target, root);
    var preds := Predict(sims, m, row);
    EmitScores(preds, ds.courses);
    if AllValid(ds.interactions) {
      AffinitiesInUnitRange(ds.interactions);
      NeighboursCarrySimilarity(ds.students, m, target, row, root);
    }
    forall x | x in Predicted(ds, target, root)
      ensures Rated(sims, m, x.course.id)
      ensures x.score == Estimate(Prediction(WeightedSum(sims, m, x.course.id), WeightSum(sims, m, x.course.id)))
      ensures AllValid(ds.interactions) ==> 0.0 <= x.score <= 1.0
    {
      var c := x.course.id;
      PredictionIsWeightedSum(sims, m, row, c);
      if AllValid(ds.interactions) {
        SumsBounds(sims, m, c);
        EstimateInUnitRange(Prediction(WeightedSum(sims, m, c), WeightSum(sims, m, c)));
      }
    }
  }

  /** The collaborative predictions never repeat a course id. */
  lemma PredictedKeepsDistinct(ds: Dataset, target: string, root: real -> real)
    ensures DistinctRecommendations(Predicted(ds, target, root))
  {
    var m := BuildMatrix(ds.interactions);
    EmitKeepsDistinct(Predict(Neighbourhood(ds, target, root), m, RowOf(m, target)), ds.courses);
  }

  /**
   * Whatever branch is taken: no recommended course was seen by the target,
   * scores of valid data lie in [0, 1], and distinct catalog ids give
   * distinct recommendations.
   */
  lemma CollaborativeProperties(ds: Dataset, target: string, n: int, root: real -> real)
    ensures var r := Collaborative(ds, target, n, root);
            && (forall x :: x in r ==> !HasInteraction(ds.interactions, target, x.course.id))
            && (AllValid(ds.interactions) ==> forall x :: x in r ==> 0.0 <= x.score <= 1.0)
            && (DistinctCourseIds(ds.courses) ==> DistinctRecommendations(r))
  {
    if Active(ds.interactions, target) {
      PredictedSkipsSeen(ds, target, root);
      PredictedIsWeightedMean(ds, target, root);
      PredictedKeepsDistinct(ds, target, root);
      RankKeepsDistinct(Predicted(ds, target, root), n);
    }
  }
}

=== FILE: content.dfy ===
/**
 * The content-based scorer: ranks the courses the target student has not
 * interacted with by how well their tags, category and difficulty match the
 * student's declared interests and completed history.
 */
module ContentFiltering {
  import opened Wrappers
  import opened Learning
  import opened Ranking

  /** `xs.filter(x => ys.includes(x)).length`: duplicates in `xs` count each time. */
  function CountIn(xs: seq<string>, ys: seq<string>): (n: nat)
    ensures n <= |xs|
    ensures n == 0 <==> forall k :: 0 <= k < |xs| ==> xs[k] !in ys
  {
    if |xs| == 0 then 0
    else (if xs[0] in ys then 1 else 0) + CountIn(xs[1..], ys)
  }

  /**
   * The catalog courses of the target's interactions with completion above
   * 70, in interaction order, one per interaction (duplicates kept),
   * dropping interactions whose course is not in the catalog.
   */
  function CompletedCourses(courses: seq<Course>, xs: seq<Interaction>, target: string): (h: seq<Course>)
    ensures |h| <= |xs|
    ensures forall c :: c in h ==> c in courses
  {
    if |xs| == 0 then []
    else
      var rest := CompletedCourses(courses, xs[1..], target);
      var i := xs[0];
      if i.studentId == target && i.completion > 70 then
        match FindCourse(courses, i.courseId)
        case Some(c) => [c] + rest
        case None => rest
      else rest
  }

  /** The interaction is the target's, above 70 % complete, and its course is in the catalog. */
  predicate Completes(courses: seq<Course>, i: Interaction, target: string) {
    i.studentId == target && i.completion > 70 && FindCourse(courses, i.courseId).Some?
  }

  /**
   * Reference definition: the positions, from `from` on, of the interactions
   * that contribute a completed course, in increasing order.
   */
  function CompletedIndices(courses: seq<Course>, xs: seq<Interaction>, target: string, from: nat): (idx: seq<nat>)
    requires from <= |xs|
    ensures forall k :: 0 <= k < |idx| ==> from <= idx[k] < |xs|
    decreases |xs| - from
  {
    if from == |xs| then []
    else
      var rest := CompletedIndices(courses, xs, target, from + 1);
      if Completes(courses, xs[from], target) then [from] + rest else rest
  }

  /** Every listed position holds a contributing interaction. */
  lemma {:induction false} CompletedIndicesQualify(courses: seq<Course>, xs: seq<Interaction>, target: string, from: nat)
    requires from <= |xs|
    ensures forall k :: 0 <= k < |CompletedIndices(courses, xs, target, from)| ==>
              Completes(courses, xs[CompletedIndices(courses, xs, target, from)[k]], target)
    decreases |xs| - from
  {
    if from < |xs| {
      var rest := CompletedIndices(courses, xs, target, from + 1);
      var idx := CompletedIndices(courses, xs, target, from);
      CompletedIndicesQualify(courses, xs, target, from + 1);
      if Completes(courses, xs[from], target) {
        assert idx == [from] + rest;
        forall k | 0 <= k < |idx|
          ensures Completes(courses, xs[idx[k]], target)
        {
          if k > 0 {
            assert idx[k] == rest[k - 1];
          } else {
            assert idx[0] == from;
          }
        }
      } else {
        assert idx == rest;
      }
    }
  }

  /** The positions increase. */
  lemma {:induction false} CompletedIndicesIncrease(courses: seq<Course>, xs: seq<Interaction>, target: string, from: nat)
    requires from <= |xs|
    ensures forall k, l :: 0 <= k < l < |CompletedIndices(courses, xs, target, from)| ==>
              CompletedIndices(courses, xs, target, from)[k] < CompletedIndices(courses, xs, target, from)[l]
    decreases |xs| - from
  {
    if from < |xs| {
      var rest := CompletedIndices(courses, xs, target, from + 1);
      var idx := CompletedIndices(courses, xs, target, from);
      CompletedIndicesIncrease(courses, xs, target, from + 1);
      if Completes(courses, xs[from], target) {
        assert idx == [from] + rest;
        forall k, l | 0 <= k < l < |idx|
          ensures idx[k] < idx[l]
        {
          assert idx[l] == rest[l - 1] && from + 1 <= rest[l - 1];
          if k > 0 {
            assert idx[k] == rest[k - 1];
          } else {
            assert idx[0] == from;
          }
        }
      } else {
        assert idx == rest;
      }
    }
  }

  /** No contributing interaction from `from` on is missed. */
  lemma {:induction false} CompletedIndicesCover(courses: seq<Course>, xs: seq<Interaction>, target: string, from: nat)
    requires from <= |xs|
    ensures forall j :: from <= j < |xs| && Completes(courses, xs[j], target) ==>
              j in CompletedIndices(courses, xs, target, from)
    decreases |xs| - from
  {
    if from < |xs| {
      var rest := CompletedIndices(courses, xs, target, from + 1);
      var idx := CompletedIndices(courses, xs, target, from);
      CompletedIndicesCover(courses, xs, target, from + 1);
      if Completes(courses, xs[from], target) {
        assert idx == [from] + rest;
        forall j | from <= j < |xs| && Completes(courses, xs[j], target)
          ensures j in idx
        {
          if j == from {
            assert idx[0] == j;
          } else {
            assert j in rest;
          }
        }
      } else {
        assert idx == rest;
      }
    }
  }

  /**
   * The history lists one course per contributing interaction, in
   * interaction order: its k-th entry is the catalog course of the k-th
   * contributing interaction.
   */
  lemma {:induction false} CompletedCoursesAt(courses: seq<Course>, xs: seq<Interaction>, target: string, from: nat)
    requires from <= |xs|
    ensures var h := CompletedCourses(courses, xs[from..], target);
            var idx := CompletedIndices(courses, xs, target, from);
            && |h| == |idx|
            && forall k :: 0 <= k < |h| ==> FindCourse(courses, xs[idx[k]].courseId) == Some(h[k])
    decreases |xs| - from
  {
    if from < |xs| {
      var rest := CompletedCourses(courses, xs[from + 1..], target);
      var restIdx := CompletedIndices(courses, xs, target, from + 1);
      CompletedCoursesAt(courses, xs, target, from + 1);
      assert xs[from..][1..] == xs[from + 1..];
      var i := xs[from..][0];
      assert i == xs[from];
      if Completes(courses, i, target) {
        var c := FindCourse(courses, i.courseId).value;
        assert CompletedCourses(courses, xs[from..], target) == [c] + rest;
        assert CompletedIndices(courses, xs, target, from) == [from] + restIdx;
        HistoryCons(courses, xs, c, rest, from, restIdx);
      } else {
        assert CompletedCourses(courses, xs[from..], target) == rest;
        assert CompletedIndices(courses, xs, target, from) == restIdx;
      }
    }
  }

  /** One more contributing interaction in front keeps the history and the positions in step. */
  lemma HistoryCons(courses: seq<Course>, xs: seq<Interaction>, c: Course, rest: seq<Course>,
                    j: nat, restIdx: seq<nat>)
    requires j < |xs| && FindCourse(courses, xs[j].courseId) == Some(c)
    requires |rest| == |restIdx|
    requires forall k :: 0 <= k < |restIdx| ==> restIdx[k] < |xs|
    requires forall k :: 0 <= k < |rest| ==> FindCourse(courses, xs[restIdx[k]].courseId) == Some(rest[k])
    ensures var h := [c] + rest;
            var idx := [j] + restIdx;
            && |h| == |idx|
            && forall k :: 0 <= k < |h| ==> idx[k] < |xs| && FindCourse(courses, xs[idx[k]].courseId) == Some(h[k])
  {
    var h := [c] + rest;
    var idx := [j] + restIdx;
    forall k | 0 <= k < |h|
      ensures idx[k] < |xs| && FindCourse(courses, xs[idx[k]].courseId) == Some(h[k])
    {
      if k > 0 {
        assert idx[k] == restIdx[k - 1] && h[k] == rest[k - 1];
      }
    }
  }

  /**
   * The whole history against the reference positions: one entry per
   * contributing interaction, in increasing position, none missed.
   */
  lemma CompletedCoursesSpec(courses: seq<Course>, xs: seq<Interaction>, target: string)
    ensures var h := CompletedCourses(courses, xs, target);
            var idx := CompletedIndices(courses, xs, target, 0);
            && |h| == |idx|
            && (forall k :: 0 <= k < |h| ==> FindCourse(courses, xs[idx[k]].courseId) == Some(h[k]))
            && (forall k :: 0 <= k < |idx| ==> Completes(courses, xs[idx[k]], target))
            && (forall k, l :: 0 <= k < l < |idx| ==> idx[k] < idx[l])
            && (forall j :: 0 <= j < |xs| && Completes(courses, xs[j], target) ==> j in idx)
  {
    CompletedCoursesAt(courses, xs, target, 0);
    CompletedIndicesQualify(courses, xs, target, 0);
    CompletedIndicesIncrease(courses, xs, target, 0);
    CompletedIndicesCover(courses, xs, target, 0);
    assert xs[0..] == xs;
  }

  /** Adds, for each history course, 0.2 per shared tag and 0.15 for a shared category. */
  function HistoryScore(course: Course, history: seq<Course>, score: real): (r: real)
    ensures score <= r
  {
    if |history| == 0 then score
    else
      var h := history[0];
      var withTags := score + CountIn(course.tags, h.tags) as real * 0.2;
      var withCategory := if course.category == h.category then withTags + 0.15 else withTags;
      HistoryScore(course, history[1..], withCategory)
  }

  function LevelSum(history: seq<Course>): int {
    if |history| == 0 then 0 else Level(history[0].difficulty) + LevelSum(history[1..])
  }

  function Abs(x: int): nat {
    if x < 0 then -x else x
  }

  /**
   * The course level is within one tier of the mean history level (1 with
   * no history); the mean is compared without dividing:
   * |level − sum / k| ≤ 1 is |level·k − sum| ≤ k.
   */
  predicate NearLevel(course: Course, history: seq<Course>) {
    var level := Level(course.difficulty);
    if |history| > 0 then Abs(level * |history| - LevelSum(history)) <= |history|
    else Abs(level - 1) <= 1
  }

  /** The clamped additive score of one candidate course. */
  function ContentScore(student: Student, course: Course, history: seq<Course>): (r: real)
    ensures 0.0 <= r <= 1.0
  {
    var interests := CountIn(student.interests, course.tags) as real * 0.3;
    var withHistory := HistoryScore(course, history, interests);
    var withLevel := if NearLevel(course, history) then withHistory + 0.2 else withHistory;
    if withLevel < 1.0 then withLevel else 1.0
  }

  /** Scores every catalog course the target has no interaction with, in catalog order. */
  function Candidates(courses: seq<Course>, xs: seq<Interaction>, target: string,
                      student: Student, history: seq<Course>): (r: seq<Recommendation>)
    ensures forall x :: x in r ==>
      && x.course in courses
      && !HasInteraction(xs, target, x.course.id)
      && x.score == ContentScore(student, x.course, history)
      && x.algorithm == ContentBasedAlgorithm
    ensures forall c :: c in courses && !HasInteraction(xs, target, c.id) ==>
      exists x :: x in r && x.course == c
    ensures forall x :: x in r ==> exists k :: 0 <= k < |courses| && courses[k] == x.course
  {
    if |courses| == 0 then []
    else
      var c := courses[0];
      var rest := Candidates(courses[1..], xs, target, student, history);
      assert courses == [c] + courses[1..];
      assert forall k :: 0 <= k < |courses[1..]| ==> courses[1..][k] == courses[k + 1];
      if HasInteraction(xs, target, c.id) then rest
      else [Recommendation(c, ContentScore(student, c, history), ContentBasedAlgorithm)] + rest
  }

  /**
   * Reference definition of `availableCourses`: the catalog courses the
   * target has not interacted with, in catalog order.
   */
  function Unseen(courses: seq<Course>, xs: seq<Interaction>, target: string): (u: seq<Course>)
    ensures forall c :: c in u <==> c in courses && !HasInteraction(xs, target, c.id)
  {
    if |courses| == 0 then []
    else
      var rest := Unseen(courses[1..], xs, target);
      assert forall c :: c in courses <==> c == courses[0] || c in courses[1..];
      if HasInteraction(xs, target, courses[0].id) then rest else [courses[0]] + rest
  }

  /** The candidates score the unseen courses one by one, in catalog order. */
  lemma {:induction false} CandidatesFollowUnseen(courses: seq<Course>, xs: seq<Interaction>, target: string,
                                                  student: Student, history: seq<Course>)
    ensures |Candidates(courses, xs, target, student, history)| == |Unseen(courses, xs, target)|
    ensures forall k :: 0 <= k < |Unseen(courses, xs, target)| ==>
              Candidates(courses, xs, target, student, history)[k].course == Unseen(courses, xs, target)[k]
  {
    if |courses| > 0 {
      var rest := Candidates(courses[1..], xs, target, student, history);
      var uRest := Unseen(courses[1..], xs, target);
      CandidatesFollowUnseen(courses[1..], xs, target, student, history);
      if HasInteraction(xs, target, courses[0].id) {
        assert Candidates(courses, xs, target, student, history) == rest;
        assert Unseen(courses, xs, target) == uRest;
      } else {
        var x := Recommendation(courses[0], ContentScore(student, courses[0], history), ContentBasedAlgorithm);
        assert Candidates(courses, xs, target, student, history) == [x] + rest;
        assert Unseen(courses, xs, target) == [courses[0]] + uRest;
        ConsFollows(x, rest, uRest);
      }
    }
  }

  /** Prepending a course and its recommendation keeps the two lists in step. */
  lemma ConsFollows(x: Recommendation, rest: seq<Recommendation>, uRest: seq<Course>)
    requires |rest| == |uRest| && forall k :: 0 <= k < |uRest| ==> rest[k].course == uRest[k]
    ensures var r := [x] + rest;
            var u := [x.course] + uRest;
            |r| == |u| && forall k :: 0 <= k < |u| ==> r[k].course == u[k]
  {
  }

  /** Over a catalog with distinct ids, the candidates are distinct. */
  lemma {:induction false} CandidatesDistinct(courses: seq<Course>, xs: seq<Interaction>, target: string,
                                              student: Student, history: seq<Course>)
    requires DistinctCourseIds(courses)
    ensures DistinctRecommendations(Candidates(courses, xs, target, student, history))
  {
    if |courses| > 0 {
      var c := courses[0];
      var rest := Candidates(courses[1..], xs, target, student, history);
      assert DistinctCourseIds(courses[1..]);
      CandidatesDistinct(courses[1..], xs, target, student, history);
      if !HasInteraction(xs, target, c.id) {
        forall y | y in rest
          ensures y.course.id != c.id
        {
          var k :| 0 <= k < |courses[1..]| && courses[1..][k] == y.course;
          assert courses[k + 1] == y.course;
        }
        ConsDistinct(Recommendation(c, ContentScore(student, c, history), ContentBasedAlgorithm), rest);
      }
    }
  }

  /**
   * `contentBasedFiltering(target, n)`: no recommendations for an unknown
   * student; otherwise the `n` best-scoring courses the student has not
   * interacted with.
   */
  function ContentBased(ds: Dataset, target: string, n: int): (r: seq<Recommendation>)
    ensures (forall k :: 0 <= k < |ds.students| ==> ds.students[k].id != target) ==> r == []
    ensures 0 <= n ==> |r| <= n
    ensures SortedByScore(r)
    ensures forall x :: x in r ==>
      && x.course in ds.courses
      && !HasInteraction(ds.interactions, target, x.course.id)
      && 0.0 <= x.score <= 1.0
      && x.algorithm == ContentBasedAlgorithm
    ensures DistinctCourseIds(ds.courses) ==> DistinctRecommendations(r)
    ensures FindStudent(ds.students, target).Some? ==> forall x :: x in r ==>
      x.score == ContentScore(FindStudent(ds.students, target).value, x.course,
                              CompletedCourses(ds.courses, ds.interactions, target))
  {
    match FindStudent(ds.students, target)
    case None => []
    case Some(student) =>
      var history := CompletedCourses(ds.courses, ds.interactions, target);
      var candidates := Candidates(ds.courses, ds.interactions, target, student, history);
      assert DistinctCourseIds(ds.courses) ==> DistinctRecommendations(Rank(candidates, n)) by {
        if DistinctCourseIds(ds.courses) {
          CandidatesDistinct(ds.courses, ds.interactions, target, student, history);
          RankKeepsDistinct(candidates, n);
        }
      }
      Rank(candidates, n)
  }

  /** Σ over the history of the tags the candidate shares with each history course. */
  function TotalOverlap(course: Course, history: seq<Course>): nat {
    if |history| == 0 then 0 else CountIn(course.tags, history[0].tags) + TotalOverlap(course, history[1..])
  }

  /** How many history courses share the candidate's category. */
  function SameCategory(course: Course, history: seq<Course>): nat {
    if |history| == 0 then 0
    else (if history[0].category == course.category then 1 else 0) + SameCategory(course, history[1..])
  }

  /** The mean difficulty level of the history, 1 for an empty history. */
  function MeanLevel(history: seq<Course>): real {
    if |history| == 0 then 1.0 else LevelSum(history) as real / |history| as real
  }

  function RealAbs(x: real): real {
    if x < 0.0 then -x else x
  }

  lemma {:induction false} HistoryScoreIsSum(course: Course, history: seq<Course>, score: real)
    ensures HistoryScore(course, history, score)
            == score + 0.2 * TotalOverlap(course, history) as real + 0.15 * SameCategory(course, history) as real
  {
    if |history| > 0 {
      var h := history[0];
      var withTags := score + CountIn(course.tags, h.tags) as real * 0.2;
      var withCategory := if course.category == h.category then withTags + 0.15 else withTags;
      HistoryScoreIsSum(course, history[1..], withCategory);
    }
  }

  /** The division-free proximity test is the mean-level test. */
  lemma NearLevelIsMeanDistance(course: Course, history: seq<Course>)
    ensures NearLevel(course, history)
            <==> RealAbs(Level(course.difficulty) as real - MeanLevel(history)) <= 1.0
  {
    if |history| > 0 {
      MeanDistance(Level(course.difficulty), LevelSum(history), |history|);
    }
  }

  /** |level − sum / k| ≤ 1 exactly when |level·k − sum| ≤ k, for positive k. */
  lemma MeanDistance(level: int, sum: int, k: int)
    requires 0 < k
    ensures Abs(level * k - sum) <= k <==> RealAbs(level as real - sum as real / k as real) <= 1.0
  {
    var d := level * k - sum;
    assert d as real == level as real * k as real - sum as real;
    assert level as real - sum as real / k as real == d as real / k as real;
    DivWithin(d as real, k as real);
    assert RealAbs(d as real) == Abs(d) as real;
  }

  /** |x / k| ≤ 1 exactly when |x| ≤ k, for positive k. */
  lemma DivWithin(x: real, k: real)
    requires 0.0 < k
    ensures RealAbs(x / k) <= 1.0 <==> RealAbs(x) <= k
  {
    assert x == (x / k) * k;
    if x / k > 1.0 {
      assert (x / k) * k > 1.0 * k;
    } else if x / k < -1.0 {
      assert (x / k) * k < -1.0 * k;
    }
  }

  /**
   * The content score in closed form: 0.3 per declared interest among the
   * course tags, 0.2 per tag shared with each completed course, 0.15 per
   * completed course of the same category, 0.2 when the course level is
   * within one tier of the mean completed level, capped at 1.
   */
  lemma ContentScoreFormula(student: Student, course: Course, history: seq<Course>)
    ensures var raw := 0.3 * CountIn(student.interests, course.tags) as real
                     + 0.2 * TotalOverlap(course, history) as real
                     + 0.15 * SameCategory(course, history) as real
                     + (if RealAbs(Level(course.difficulty) as real - MeanLevel(history)) <= 1.0 then 0.2 else 0.0);
            ContentScore(student, course, history) == if raw < 1.0 then raw else 1.0
  {
    HistoryScoreIsSum(course, history, CountIn(student.interests, course.tags) as real * 0.3);
    NearLevelIsMeanDistance(course, history);
  }

  /**
   * Ranking keeps the best: an unseen catalog course left out of the result
   * scores no higher than anything returned.
   */
  lemma ContentBasedKeepsBest(ds: Dataset, target: string, n: int, c: Course)
    requires FindStudent(ds.students, target).Some?
    requires c in ds.courses && !HasInteraction(ds.interactions, target, c.id)
    requires forall x :: x in ContentBased(ds, target, n) ==> x.course != c
    ensures forall y :: y in ContentBased(ds, target, n) ==>
      ContentScore(FindStudent(ds.students, target).value, c,
                   CompletedCourses(ds.courses, ds.interactions, target)) <= y.score
  {
    var student := FindStudent(ds.students, target).value;
    var history := CompletedCourses(ds.courses, ds.interactions, target);
    var candidates := Candidates(ds.courses, ds.interactions, target, student, history);
    var r := ContentBased(ds, target, n);
    assert r == Rank(candidates, n);
    var x :| x in candidates && x.course == c;
    assert x !in multiset(r);
    assert x in multiset(candidates) - multiset(r);
    RankIsTopN(candidates, n);
  }

  /**
   * A known learner gets min(n, number of unseen catalog courses)
   * recommendations for n >= 0: `slice` keeps exactly that many.
   */
  lemma ContentBasedCount(ds: Dataset, target: string, n: int)
    ensures FindStudent(ds.students, target).Some? && 0 <= n ==>
      var unseen := |Unseen(ds.courses, ds.interactions, target)|;
      |ContentBased(ds, target, n)| == if n < unseen then n else unseen
  {
    if FindStudent(ds.students, target).Some? {
      var student := FindStudent(ds.students, target).value;
      var history := CompletedCourses(ds.courses, ds.interactions, target);
      CandidatesFollowUnseen(ds.courses, ds.interactions, target, student, history);
      assert ContentBased(ds, target, n) == Rank(Candidates(ds.courses, ds.interactions, target, student, history), n);
    }
  }

  /** A student who has interacted with every catalog course gets no recommendations. */
  lemma ContentBasedAllSeen(ds: Dataset, target: string, n: int)
    requires forall c :: c in ds.courses ==> HasInteraction(ds.interactions, target, c.id)
    ensures ContentBased(ds, target, n) == []
  {
    match FindStudent(ds.students, target)
    case None =>
    case Some(student) =>
      var history := CompletedCourses(ds.courses, ds.interactions, target);
      var candidates := Candidates(ds.courses, ds.interactions, target, student, history);
      CandidatesAllSeen(ds.courses, ds.interactions, target, student, history);
      assert ContentBased(ds, target, n) == Rank(candidates, n);
  }

  /** A learner who has touched every catalog course has no candidates. */
  lemma {:induction false} CandidatesAllSeen(courses: seq<Course>, xs: seq<Interaction>, target: string,
                                             student: Student, history: seq<Course>)
    requires forall c :: c in courses ==> HasInteraction(xs, target, c.id)
    ensures Candidates(courses, xs, target, student, history) == []
  {
    if |courses| > 0 {
      assert courses[0] in courses;
      assert forall c :: c in courses[1..] ==> c in courses;
      CandidatesAllSeen(courses[1..], xs, target, student, history);
    }
  }

  /** Ranking the content-based list of length 2n to n gives the list of length n. */
  lemma ContentBasedTwice(ds: Dataset, target: string, n: int)
    requires 0 <= n
    ensures Rank(ContentBased(ds, target, n * 2), n) == ContentBased(ds, target, n)
  {
    match FindStudent(ds.students, target)
    case None =>
    case Some(student) =>
      var history := CompletedCourses(ds.courses, ds.interactions, target);
      var candidates := Candidates(ds.courses, ds.interactions, target, student, history);
      assert ContentBased(ds, target, n * 2) == Rank(candidates, 2 * n);
      assert ContentBased(ds, target, n) == Rank(candidates, n);
      RankTwice(candidates, n);
  }
}

=== FILE: course_panel.dfy ===
/**
 * The course-selection panel's handlers: the selection (a Set kept in
 * insertion order), the rating and completion maps, the readiness test, the
 * interactions built on completion, and the pager over the catalog.
 */
module CoursePanel {
  import opened Wrappers
  import opened Learning
  import opened AffinityMatrix

  /** `Set.prototype.delete`: the other members keep their order. */
  function Remove(s: seq<string>, id: string): (r: seq<string>)
    ensures forall x :: x in r <==> x in s && x != id
    ensures NoDuplicates(s) ==> NoDuplicates(r)
    ensures |r| <= |s|
    ensures id !in s ==> r == s
  {
    if |s| == 0 then []
    else
      var rest := Remove(s[1..], id);
      assert forall x :: x in s <==> x == s[0] || x in s[1..];
      assert NoDuplicates(s) ==> s[0] !in s[1..] && NoDuplicates(s[1..]);
      assert id !in s ==> s == [s[0]] + s[1..];
      if s[0] == id then rest else [s[0]] + rest
  }

  /** Removing an id that occurs once, at `k`, cuts it out and keeps the others in order. */
  lemma {:induction false} RemoveCuts(s: seq<string>, id: string, k: int)
    requires 0 <= k < |s| && s[k] == id
    requires forall j :: 0 <= j < |s| && j != k ==> s[j] != id
    ensures Remove(s, id) == s[..k] + s[k + 1..]
  {
    var t := s[1..];
    if k == 0 {
      assert Remove(s, id) == Remove(t, id);
      assert Remove(t, id) == t by {
        assert id !in t;
      }
    } else {
      assert Remove(t, id) == t[..k - 1] + t[k..] by {
        RemoveCuts(t, id, k - 1);
      }
      assert Remove(s, id) == [s[0]] + Remove(t, id) by {
        assert s[0] != id;
      }
      assert [s[0]] + (t[..k - 1] + t[k..]) == s[..k] + s[k + 1..] by {
        assert [s[0]] + t[..k - 1] == s[..k];
        assert t[k..] == s[k + 1..];
      }
    }
  }

  /** The panel's state. */
  datatype Panel = Panel(
    selected: seq<string>,
    ratings: map<string, int>,
    completion: map<string, int>,
    page: int)

  const Initial := Panel([], map[], map[], 0)

  /**
   * `toggleCourse`: deselecting drops the course with its rating and
   * completion; selecting appends it and touches nothing else.
   */
  function Toggle(p: Panel, id: string): (r: Panel)
    ensures id in p.selected ==>
      && (forall x :: x in r.selected <==> x in p.selected && x != id)
      && r.ratings == p.ratings - {id} && r.completion == p.completion - {id}
    ensures NoDuplicates(p.selected) ==>
      forall k :: 0 <= k < |p.selected| && p.selected[k] == id ==>
        r.selected == p.selected[..k] + p.selected[k + 1..]
    ensures id !in p.selected ==>
      r.selected == p.selected + [id] && r.ratings == p.ratings && r.completion == p.completion
    ensures r.page == p.page
  {
    if id in p.selected then
      assert NoDuplicates(p.selected) ==>
        forall k :: 0 <= k < |p.selected| && p.selected[k] == id ==>
          Remove(p.selected, id) == p.selected[..k] + p.selected[k + 1..] by {
        forall k | NoDuplicates(p.selected) && 0 <= k < |p.selected| && p.selected[k] == id {
          RemoveCuts(p.selected, id, k);
        }
      }
      p.(selected := Remove(p.selected, id), ratings := p.ratings - {id}, completion := p.completion - {id})
    else
      p.(selected := p.selected + [id])
  }

  /** `updateRating`: only the entry for `id` changes. */
  function UpdateRating(p: Panel, id: string, rating: int): (r: Panel)
    ensures id in r.ratings && r.ratings[id] == rating
    ensures forall x :: x != id ==> (x in r.ratings <==> x in p.ratings)
    ensures forall x :: x != id && x in p.ratings ==> r.ratings[x] == p.ratings[x]
    ensures r.selected == p.selected && r.completion == p.completion && r.page == p.page
  {
    p.(ratings := p.ratings[id := rating])
  }

  /** `updateCompletion`: only the entry for `id` changes. */
  function UpdateCompletion(p: Panel, id: string, value: int): (r: Panel)
    ensures id in r.completion && r.completion[id] == value
    ensures forall x :: x != id ==> (x in r.completion <==> x in p.completion)
    ensures forall x :: x != id && x in p.completion ==> r.completion[x] == p.completion[x]
    ensures r.selected == p.selected && r.ratings == p.ratings && r.page == p.page
  {
    p.(completion := p.completion[id := value])
  }

  /** `canComplete`: three courses or more, each rated and given a completion. */
  predicate CanComplete(p: Panel) {
    |p.selected| >= 3 && forall id :: id in p.selected ==> id in p.ratings && id in p.completion
  }

  /** `courseCompletion.get(id) || 0` */
  function CompletionOf(p: Panel, id: string): int {
    if id in p.completion then p.completion[id] else 0
  }

  function RatingOf(p: Panel, id: string): Option<int> {
    if id in p.ratings then Some(p.ratings[id]) else None
  }

  /**
   * `handleComplete`: one interaction per selected course, in selection
   * order. The map callback reads `Date.now()` once per course; `clock(k)` is
   * the reading taken for the k-th course, which its id embeds.
   */
  function HandleComplete(p: Panel, student: string, clock: nat -> string): (r: seq<Interaction>)
    ensures |r| == |p.selected|
    ensures forall k :: 0 <= k < |r| ==>
      && r[k].id == "i-" + clock(k) + "-" + p.selected[k]
      && r[k].studentId == student
      && r[k].courseId == p.selected[k]
      && r[k].rating == RatingOf(p, p.selected[k])
      && r[k].completion == CompletionOf(p, p.selected[k])
      && (r[k].kind == Complete <==> CompletionOf(p, p.selected[k]) >= 100)
      && (r[k].kind == Rate <==> CompletionOf(p, p.selected[k]) < 100)
  {
    seq(|p.selected|, k requires 0 <= k < |p.selected| =>
      var id := p.selected[k];
      var completion := CompletionOf(p, id);
      Interaction("i-" + clock(k) + "-" + id, student, id,
                  if completion >= 100 then Complete else Rate, RatingOf(p, id), completion))
  }

  /** Interactions for distinct courses never repeat a (student, course) pair. */
  lemma HandleCompleteUniquePairs(p: Panel, student: string, clock: nat -> string)
    requires NoDuplicates(p.selected)
    ensures var r := HandleComplete(p, student, clock);
            forall i, j :: 0 <= i < j < |r| ==> r[i].courseId != r[j].courseId
  {
  }

  /** A rating from the five stars. */
  predicate StarRating(v: int) {
    1 <= v <= 5
  }

  /** A value of the completion slider: 0 to 100 in steps of 10. */
  predicate SliderValue(v: int) {
    0 <= v <= 100 && v % 10 == 0
  }

  /**
   * What the panel's controls maintain: a Set of selected ids, ratings and
   * completions only for selected courses, and only values the controls offer.
   */
  predicate Valid(p: Panel) {
    && NoDuplicates(p.selected)
    && (forall id :: id in p.ratings ==> id in p.selected && StarRating(p.ratings[id]))
    && (forall id :: id in p.completion ==> id in p.selected && SliderValue(p.completion[id]))
  }

  /** A user action on the panel. */
  datatype Event =
    | ToggleCourse(id: string)
    | RateCourse(id: string, stars: int)
    | SetCompletion(id: string, value: int)
    | PreviousPage
    | NextPage
    | GoToPage(index: int)

  const CoursesPerPage: nat := 4

  /** `Math.ceil(count / 4)` */
  function TotalPages(count: nat): (t: nat)
    ensures t * CoursesPerPage >= count && (t == 0 || (t - 1) * CoursesPerPage < count)
  {
    (count + CoursesPerPage - 1) / CoursesPerPage
  }

  function Max(a: int, b: int): int { if a >= b then a else b }
  function Min(a: int, b: int): int { if a <= b then a else b }

  /** `slice`'s reading of an index: negative counts from the end, then clamped to the list. */
  function SliceIndex(i: int, len: nat): (r: nat)
    ensures r <= len
  {
    if i < 0 then Max(len + i, 0) else Min(i, len)
  }

  /** `courses.slice(page * 4, (page + 1) * 4)` */
  function PageCourses(courses: seq<Course>, page: int): seq<Course> {
    var start := SliceIndex(page * CoursesPerPage, |courses|);
    var end := SliceIndex((page + 1) * CoursesPerPage, |courses|);
    if end <= start then [] else courses[start..end]
  }

  /** The catalog holds a course with this id. */
  predicate InCatalog(courses: seq<Course>, id: string) {
    exists k :: 0 <= k < |courses| && courses[k].id == id
  }

  /** The current page draws a card, with its buttons, for this id. */
  predicate Shown(courses: seq<Course>, page: int, id: string) {
    exists c :: c in PageCourses(courses, page) && c.id == id
  }

  /** A course drawn on a page is a catalog course. */
  lemma ShownInCatalog(courses: seq<Course>, page: int, id: string)
    requires Shown(courses, page, id)
    ensures InCatalog(courses, id)
  {
    var c :| c in PageCourses(courses, page) && c.id == id;
    var start := SliceIndex(page * CoursesPerPage, |courses|);
    var end := SliceIndex((page + 1) * CoursesPerPage, |courses|);
    var i :| 0 <= i < |PageCourses(courses, page)| && PageCourses(courses, page)[i] == c;
    assert courses[start + i] == c;
  }

  /**
   * Whether the control is there and enabled. Only the cards of the current
   * page are drawn: each has a toggle button, and stars and a slider when its
   * course is selected. Previous is disabled on page 0 and Next on the last
   * page, and the dots exist for the pages there are.
   */
  predicate Enabled(p: Panel, courses: seq<Course>, e: Event) {
    match e
    case ToggleCourse(id) => Shown(courses, p.page, id)
    case RateCourse(id, stars) => Shown(courses, p.page, id) && id in p.selected && StarRating(stars)
    case SetCompletion(id, value) => Shown(courses, p.page, id) && id in p.selected && SliderValue(value)
    case PreviousPage => p.page != 0
    case NextPage => p.page != TotalPages(|courses|) - 1
    case GoToPage(i) => 0 <= i < TotalPages(|courses|)
  }

  function Apply(p: Panel, courses: seq<Course>, e: Event): Panel {
    match e
    case ToggleCourse(id) => Toggle(p, id)
    case RateCourse(id, stars) => UpdateRating(p, id, stars)
    case SetCompletion(id, value) => UpdateCompletion(p, id, value)
    case PreviousPage => p.(page := Max(0, p.page - 1))
    case NextPage => p.(page := Min(TotalPages(|courses|) - 1, p.page + 1))
    case GoToPage(i) => p.(page := i)
  }

  /** A session: clicks on controls that are absent or disabled do nothing. */
  function Run(p: Panel, courses: seq<Course>, events: seq<Event>): Panel {
    if |events| == 0 then p
    else
      var before := Run(p, courses, events[..|events| - 1]);
      var e := events[|events| - 1];
      if Enabled(before, courses, e) then Apply(before, courses, e) else before
  }

  /** The pager keeps a page of a non-empty catalog in range. */
  predicate PageInRange(p: Panel, count: nat) {
    count > 0 ==> 0 <= p.page < TotalPages(count)
  }

  /** Only catalog courses are selected. */
  predicate FromCatalog(p: Panel, courses: seq<Course>) {
    forall id :: id in p.selected ==> InCatalog(courses, id)
  }

  /** Every enabled action keeps the panel valid, its selection in the catalog and the page in range. */
  lemma ApplyKeepsValid(p: Panel, courses: seq<Course>, e: Event)
    requires Valid(p) && FromCatalog(p, courses) && PageInRange(p, |courses|) && Enabled(p, courses, e)
    ensures Valid(Apply(p, courses, e)) && FromCatalog(Apply(p, courses, e), courses)
    ensures PageInRange(Apply(p, courses, e), |courses|)
  {
    match e
    case ToggleCourse(id) =>
      var r := Toggle(p, id);
      if id !in p.selected {
        assert forall j :: 0 <= j < |p.selected| ==> r.selected[j] == p.selected[j];
        ShownInCatalog(courses, p.page, id);
      }
    case RateCourse(_, _) =>
    case SetCompletion(_, _) =>
    case PreviousPage =>
    case NextPage =>
    case GoToPage(_) =>
  }

  /**
   * Every session from the empty panel ends valid, with only catalog courses
   * selected and its page in range.
   */
  lemma {:induction false} RunKeepsValid(courses: seq<Course>, events: seq<Event>)
    ensures Valid(Run(Initial, courses, events))
    ensures FromCatalog(Run(Initial, courses, events), courses)
    ensures PageInRange(Run(Initial, courses, events), |courses|)
  {
    if |events| > 0 {
      var before := Run(Initial, courses, events[..|events| - 1]);
      RunKeepsValid(courses, events[..|events| - 1]);
      if Enabled(before, courses, events[|events| - 1]) {
        ApplyKeepsValid(before, courses, events[|events| - 1]);
      }
    }
  }

  /**
   * What a session submits names only catalog courses: the engine's
   * `find` resolves every one of them.
   */
  lemma SubmittedCoursesInCatalog(courses: seq<Course>, events: seq<Event>, student: string, clock: nat -> string)
    ensures var r := HandleComplete(Run(Initial, courses, events), student, clock);
            forall k :: 0 <= k < |r| ==> FindCourse(courses, r[k].courseId).Some?
  {
    var p := Run(Initial, courses, events);
    RunKeepsValid(courses, events);
    forall k | 0 <= k < |p.selected|
      ensures FindCourse(courses, p.selected[k]).Some?
    {
      assert InCatalog(courses, p.selected[k]);
    }
  }

  /** With an empty catalog no card is drawn, so no session selects anything. */
  lemma EmptyCatalogSelectsNothing(events: seq<Event>)
    ensures Run(Initial, [], events).selected == []
  {
    RunKeepsValid([], events);
  }

  /**
   * From a valid panel the emitted interactions satisfy the engine's
   * assumptions: valid ratings and completions, affinities in [0, 1], and
   * one interaction per course.
   */
  lemma HandleCompleteIsValid(p: Panel, student: string, clock: nat -> string)
    requires Valid(p)
    ensures var r := HandleComplete(p, student, clock);
            && AllValid(r)
            && (forall k :: 0 <= k < |r| ==> 0.0 <= Affinity(r[k]) <= 1.0)
            && (forall i, j :: 0 <= i < j < |r| ==> r[i].courseId != r[j].courseId)
  {
    HandleCompleteUniquePairs(p, student, clock);
  }

  /** When the panel is ready, every interaction carries a rating and its affinity is rating / 5. */
  lemma ReadyInteractionsAreRated(p: Panel, student: string, clock: nat -> string)
    requires CanComplete(p)
    ensures var r := HandleComplete(p, student, clock);
            && |r| >= 3
            && forall k :: 0 <= k < |r| ==>
                 && r[k].rating == Some(p.ratings[r[k].courseId])
                 && r[k].completion == p.completion[r[k].courseId]
                 && (p.ratings[r[k].courseId] != 0 ==> Affinity(r[k]) == p.ratings[r[k].courseId] as real / 5.0)
  {
    var r := HandleComplete(p, student, clock);
    forall k | 0 <= k < |r|
      ensures r[k].courseId in p.ratings && r[k].courseId in p.completion
    {
      assert p.selected[k] in p.selected;
    }
  }

  lemma {:induction false} RemoveAppended(s: seq<string>, id: string)
    requires id !in s
    ensures Remove(s + [id], id) == s
  {
    if |s| > 0 {
      assert (s + [id])[1..] == s[1..] + [id];
      RemoveAppended(s[1..], id);
    } else {
      assert Remove([id], id) == Remove([], id);
    }
  }

  /** Selecting and then deselecting a course of a valid panel restores the panel. */
  lemma ToggleTwice(p: Panel, id: string)
    requires Valid(p) && id !in p.selected
    ensures Toggle(Toggle(p, id), id) == p
  {
    RemoveAppended(p.selected, id);
    assert p.ratings - {id} == p.ratings;
    assert p.completion - {id} == p.completion;
  }

  /** A page never shows more than four courses, whatever the page number. */
  lemma PageSizeAtMostFour(courses: seq<Course>, page: int)
    ensures |PageCourses(courses, page)| <= CoursesPerPage
  {
  }

  /** Course k is shown on page k / 4 at position k % 4, and that page exists. */
  lemma CourseOnItsPage(courses: seq<Course>, k: int)
    requires 0 <= k < |courses|
    ensures k / CoursesPerPage < TotalPages(|courses|)
    ensures k % CoursesPerPage < |PageCourses(courses, k / CoursesPerPage)|
    ensures PageCourses(courses, k / CoursesPerPage)[k % CoursesPerPage] == courses[k]
  {
    var page := k / CoursesPerPage;
    assert page * CoursesPerPage + k % CoursesPerPage == k;
  }

  /** With an empty catalog Next stays enabled and moves to page -1, which shows no course. */
  lemma EmptyCatalogNext()
    ensures Enabled(Initial, [], NextPage)
    ensures Apply(Initial, [], NextPage).page == -1
    ensures PageCourses([], -1) == []
  {
  }
}

=== FILE: hybrid.dfy ===
/**
 * The hybrid scorer: blends the collaborative list (weight 0.6) and the
 * content-based list (weight 0.4), both computed for twice the requested
 * length, keyed by course id in first-insertion order, then ranks the blend.
 */
module Hybrid {
  import opened Wrappers
  import opened Learning
  import opened Assoc
  import opened Ranking
  import opened ContentFiltering
  import opened CollaborativeFiltering

  /** Which scorer contributed to a blended entry. */
  datatype Source = FromCollaborative | FromContent

  /** One entry of the `hybridScores` map. */
  datatype Blend = Blend(course: Course, score: real, sources: seq<Source>)

  /** The collaborative pass: `set` replaces any entry with 0.6 times the score. */
  function AddCollaborative(b: AList<Blend>, recs: seq<Recommendation>): (r: AList<Blend>)
    ensures UniqueKeys(b) ==> UniqueKeys(r)
  {
    if |recs| == 0 then b
    else
      var x := recs[|recs| - 1];
      var before := AddCollaborative(b, recs[..|recs| - 1]);
      Put(before, x.course.id, Scaled(x))
  }

  /** A collaborative recommendation's entry. */
  function Scaled(x: Recommendation): Blend {
    Blend(x.course, x.score * 0.6, [FromCollaborative])
  }

  /** One content-based recommendation merged into the entry for its course, if any. */
  function Merge(e: Option<Blend>, x: Recommendation): Blend {
    match e
    case Some(existing) => Blend(existing.course, existing.score + x.score * 0.4, existing.sources + [FromContent])
    case None => Blend(x.course, x.score * 0.4, [FromContent])
  }

  /** The content-based pass: adds 0.4 times the score to an entry, or creates one. */
  function AddContent(b: AList<Blend>, recs: seq<Recommendation>): (r: AList<Blend>)
    ensures UniqueKeys(b) ==> UniqueKeys(r)
  {
    if |recs| == 0 then b
    else
      var x := recs[|recs| - 1];
      var before := AddContent(b, recs[..|recs| - 1]);
      Put(before, x.course.id, Merge(Get(before, x.course.id), x))
  }

  /** The `hybridScores` map built from the two lists. */
  function Blends(collaborative: seq<Recommendation>, content: seq<Recommendation>): (b: AList<Blend>)
    ensures UniqueKeys(b)
  {
    AddContent(AddCollaborative([], collaborative), content)
  }

  /** `Array.from(hybridScores.values())` relabelled as hybrid recommendations. */
  function Values(b: AList<Blend>): (r: seq<Recommendation>)
    ensures |r| == |b|
    ensures forall k :: 0 <= k < |b| ==> r[k] == Recommendation(b[k].1.course, b[k].1.score, HybridAlgorithm)
  {
    seq(|b|, k requires 0 <= k < |b| => Recommendation(b[k].1.course, b[k].1.score, HybridAlgorithm))
  }

  /** `hybridRecommendations(target, n)` */
  function HybridRecommend(ds: Dataset, target: string, n: int, root: real -> real): (r: seq<Recommendation>)
    ensures 0 <= n ==> |r| <= n
    ensures SortedByScore(r)
    ensures forall x :: x in r ==> x.algorithm == HybridAlgorithm
  {
    var collaborative := Collaborative(ds, target, n * 2, root);
    var content := ContentBased(ds, target, n * 2);
    Rank(Values(Blends(collaborative, content)), n)
  }

  /** The last recommendation for course `id` in `recs`. */
  function LastFor(recs: seq<Recommendation>, id: string): (r: Option<Recommendation>)
    ensures r.Some? ==> r.value in recs && r.value.course.id == id
    ensures r.None? <==> id !in RecommendedIds(recs)
  {
    if |recs| == 0 then None
    else if recs[|recs| - 1].course.id == id then
      assert RecommendedIds(recs)[|recs| - 1] == id;
      Some(recs[|recs| - 1])
    else
      var prefix := recs[..|recs| - 1];
      assert RecommendedIds(recs) == RecommendedIds(prefix) + [recs[|recs| - 1].course.id];
      LastFor(prefix, id)
  }

  /** After the collaborative pass a course's entry comes from its last collaborative recommendation. */
  lemma {:induction false} AddCollaborativeEntry(b: AList<Blend>, recs: seq<Recommendation>, id: string)
    ensures Get(AddCollaborative(b, recs), id) ==
            match LastFor(recs, id)
            case Some(x) => Some(Scaled(x))
            case None => Get(b, id)
  {
    if |recs| > 0 {
      var prefix := recs[..|recs| - 1];
      var x := recs[|recs| - 1];
      var before := AddCollaborative(b, prefix);
      AddCollaborativeEntry(b, prefix, id);
      assert AddCollaborative(b, recs) == Put(before, x.course.id, Scaled(x));
      if x.course.id != id {
        assert LastFor(recs, id) == LastFor(prefix, id);
      }
    }
  }

  /** After the content pass a course's entry has its content-based recommendation merged in. */
  lemma {:induction false} AddContentEntry(b: AList<Blend>, recs: seq<Recommendation>, id: string)
    requires DistinctRecommendations(recs)
    ensures Get(AddContent(b, recs), id) ==
            match LastFor(recs, id)
            case Some(x) => Some(Merge(Get(b, id), x))
            case None => Get(b, id)
  {
    if |recs| > 0 {
      var prefix := recs[..|recs| - 1];
      var x := recs[|recs| - 1];
      assert DistinctRecommendations(prefix);
      AddContentEntry(b, prefix, id);
      var before := AddContent(b, prefix);
      assert AddContent(b, recs) == Put(before, x.course.id, Merge(Get(before, x.course.id), x));
      if x.course.id == id {
        IdsSnoc(recs, id);
        assert id !in RecommendedIds(prefix);
      } else {
        assert LastFor(recs, id) == LastFor(prefix, id);
      }
    }
  }

  /** Every entry is keyed by its own course's id. */
  predicate WellKeyed(b: AList<Blend>) {
    forall k :: 0 <= k < |b| ==> b[k].0 == b[k].1.course.id
  }

  lemma {:induction false} AddCollaborativeWellKeyed(b: AList<Blend>, recs: seq<Recommendation>)
    requires WellKeyed(b)
    ensures WellKeyed(AddCollaborative(b, recs))
  {
    if |recs| > 0 {
      AddCollaborativeWellKeyed(b, recs[..|recs| - 1]);
    }
  }

  lemma {:induction false} AddContentWellKeyed(b: AList<Blend>, recs: seq<Recommendation>)
    requires WellKeyed(b)
    ensures WellKeyed(AddContent(b, recs))
  {
    if |recs| > 0 {
      var x := recs[|recs| - 1];
      var before := AddContent(b, recs[..|recs| - 1]);
      AddContentWellKeyed(b, recs[..|recs| - 1]);
      var e := Get(before, x.course.id);
      if e.Some? {
        var k :| 0 <= k < |before| && before[k] == (x.course.id, e.value);
      }
      assert Merge(e, x).course.id == x.course.id;
      PutWellKeyed(before, x.course.id, Merge(e, x));
    }
  }

  lemma PutWellKeyed(b: AList<Blend>, key: string, v: Blend)
    requires WellKeyed(b) && v.course.id == key
    ensures WellKeyed(Put(b, key, v))
  {
    var r := Put(b, key, v);
    forall k | 0 <= k < |r|
      ensures r[k].0 == r[k].1.course.id
    {
      if r[k] != (key, v) {
        var j :| 0 <= j < |b| && b[j] == r[k];
      }
    }
  }

  /** The blend has an entry exactly for the courses either list recommends. */
  lemma BlendKeys(collaborative: seq<Recommendation>, content: seq<Recommendation>, id: string)
    ensures Has(Blends(collaborative, content), id) <==>
            id in RecommendedIds(collaborative) || id in RecommendedIds(content)
  {
    HasAddCollaborative([], collaborative, id);
    HasAddContent(AddCollaborative([], collaborative), content, id);
  }

  lemma {:induction false} HasAddCollaborative(b: AList<Blend>, recs: seq<Recommendation>, id: string)
    ensures Has(AddCollaborative(b, recs), id) <==> Has(b, id) || id in RecommendedIds(recs)
  {
    if |recs| > 0 {
      var prefix := recs[..|recs| - 1];
      var x := recs[|recs| - 1];
      HasAddCollaborative(b, prefix, id);
      HasPut(AddCollaborative(b, prefix), x.course.id, Scaled(x), id);
      IdsSnoc(recs, id);
    }
  }

  lemma {:induction false} HasAddContent(b: AList<Blend>, recs: seq<Recommendation>, id: string)
    ensures Has(AddContent(b, recs), id) <==> Has(b, id) || id in RecommendedIds(recs)
  {
    if |recs| > 0 {
      var prefix := recs[..|recs| - 1];
      var x := recs[|recs| - 1];
      var before := AddContent(b, prefix);
      HasAddContent(b, prefix, id);
      HasPut(before, x.course.id, Merge(Get(before, x.course.id), x), id);
      IdsSnoc(recs, id);
    }
  }

  lemma IdsSnoc(recs: seq<Recommendation>, id: string)
    requires |recs| > 0
    ensures RecommendedIds(recs) == RecommendedIds(recs[..|recs| - 1]) + [recs[|recs| - 1].course.id]
    ensures id in RecommendedIds(recs) <==>
            id in RecommendedIds(recs[..|recs| - 1]) || recs[|recs| - 1].course.id == id
  {
    assert RecommendedIds(recs) == RecommendedIds(recs[..|recs| - 1]) + [recs[|recs| - 1].course.id];
  }

  /** 0.6 times the collaborative score plus 0.4 times the content-based score, a missing one counting 0. */
  function BlendedScore(collaborative: seq<Recommendation>, content: seq<Recommendation>, id: string): real {
    (match LastFor(collaborative, id) case Some(a) => a.score * 0.6 case None => 0.0)
    + (match LastFor(content, id) case Some(c) => c.score * 0.4 case None => 0.0)
  }

  /** The sources of a course's entry: collaborative first, then content-based. */
  function BlendedSources(collaborative: seq<Recommendation>, content: seq<Recommendation>, id: string): seq<Source> {
    (if id in RecommendedIds(collaborative) then [FromCollaborative] else [])
    + (if id in RecommendedIds(content) then [FromContent] else [])
  }

  /**
   * With a content-based list free of repeated ids, each entry of the blend
   * carries the weighted sum of the two scores and lists its sources.
   */
  lemma BlendEntry(collaborative: seq<Recommendation>, content: seq<Recommendation>, id: string)
    requires DistinctRecommendations(content)
    ensures var e := Get(Blends(collaborative, content), id);
            e.Some? ==> e.value.score == BlendedScore(collaborative, content, id)
                        && e.value.sources == BlendedSources(collaborative, content, id)
                        && e.value.course.id == id
  {
    var b := AddCollaborative([], collaborative);
    AddCollaborativeEntry([], collaborative, id);
    AddContentEntry(b, content, id);
    assert Get<Blend>([], id) == None;
    MergeLast(collaborative, content, id, Get(b, id), Get(Blends(collaborative, content), id));
  }

  /** The entry built from the last collaborative and the last content-based hit for one course. */
  lemma MergeLast(collaborative: seq<Recommendation>, content: seq<Recommendation>, id: string,
                  e: Option<Blend>, r: Option<Blend>)
    requires e == match LastFor(collaborative, id) case Some(x) => Some(Scaled(x)) case None => None
    requires r == match LastFor(content, id) case Some(y) => Some(Merge(e, y)) case None => e
    ensures r.Some? ==> && r.value.score == BlendedScore(collaborative, content, id)
                        && r.value.sources == BlendedSources(collaborative, content, id)
                        && r.value.course.id == id
  {
  }

  /** A course the recommendation may show: in the catalog and never touched by the target. */
  predicate Eligible(ds: Dataset, target: string, c: Course) {
    c in ds.courses && !HasInteraction(ds.interactions, target, c.id)
  }

  predicate AllEligible(ds: Dataset, target: string, b: AList<Blend>) {
    forall k :: 0 <= k < |b| ==> Eligible(ds, target, b[k].1.course)
  }

  lemma {:induction false} AddCollaborativeEligible(ds: Dataset, target: string, b: AList<Blend>, recs: seq<Recommendation>)
    requires AllEligible(ds, target, b)
    requires forall x :: x in recs ==> Eligible(ds, target, x.course)
    ensures AllEligible(ds, target, AddCollaborative(b, recs))
  {
    if |recs| > 0 {
      AddCollaborativeEligible(ds, target, b, recs[..|recs| - 1]);
      assert recs[|recs| - 1] in recs;
    }
  }

  lemma {:induction false} AddContentEligible(ds: Dataset, target: string, b: AList<Blend>, recs: seq<Recommendation>)
    requires AllEligible(ds, target, b)
    requires forall x :: x in recs ==> Eligible(ds, target, x.course)
    ensures AllEligible(ds, target, AddContent(b, recs))
  {
    if |recs| > 0 {
      var x := recs[|recs| - 1];
      var before := AddContent(b, recs[..|recs| - 1]);
      AddContentEligible(ds, target, b, recs[..|recs| - 1]);
      assert x in recs;
      var e := Get(before, x.course.id);
      if e.Some? {
        var k :| 0 <= k < |before| && before[k] == (x.course.id, e.value);
      }
      assert Eligible(ds, target, Merge(e, x).course);
      PutEligible(ds, target, before, x.course.id, Merge(e, x));
    }
  }

  lemma PutEligible(ds: Dataset, target: string, b: AList<Blend>, key: string, v: Blend)
    requires AllEligible(ds, target, b) && Eligible(ds, target, v.course)
    ensures AllEligible(ds, target, Put(b, key, v))
  {
    var r := Put(b, key, v);
    forall k | 0 <= k < |r|
      ensures Eligible(ds, target, r[k].1.course)
    {
      if r[k] != (key, v) {
        var j :| 0 <= j < |b| && b[j] == r[k];
      }
    }
  }

  /** The hybrid values of a well-keyed Map never repeat a course id. */
  lemma ValuesDistinct(b: AList<Blend>)
    requires UniqueKeys(b) && WellKeyed(b)
    ensures DistinctRecommendations(Values(b))
  {
  }

  /** Scores in [0, 1] on both sides blend to a score in [0, 1]. */
  lemma BlendedScoreInUnitRange(collaborative: seq<Recommendation>, content: seq<Recommendation>, id: string)
    requires forall x :: x in collaborative ==> 0.0 <= x.score <= 1.0
    requires forall x :: x in content ==> 0.0 <= x.score <= 1.0
    ensures 0.0 <= BlendedScore(collaborative, content, id) <= 1.0
  {
  }

  /** The hybrid list shows only eligible courses, and never the same course twice. */
  lemma HybridEligibleAndDistinct(ds: Dataset, target: string, n: int, root: real -> real)
    ensures DistinctRecommendations(HybridRecommend(ds, target, n, root))
    ensures forall x :: x in HybridRecommend(ds, target, n, root) ==> Eligible(ds, target, x.course)
  {
    var collaborative := Collaborative(ds, target, n * 2, root);
    var content := ContentBased(ds, target, n * 2);
    var b0 := AddCollaborative([], collaborative);
    var b := Blends(collaborative, content);
    var values := Values(b);
    assert HybridRecommend(ds, target, n, root) == Rank(values, n);
    CollaborativeProperties(ds, target, n * 2, root);
    AddCollaborativeWellKeyed([], collaborative);
    AddContentWellKeyed(b0, content);
    ValuesDistinct(b);
    RankKeepsDistinct(values, n);
    AddCollaborativeEligible(ds, target, [], collaborative);
    AddContentEligible(ds, target, b0, content);
    forall x | x in values
      ensures Eligible(ds, target, x.course)
    {
      var k :| 0 <= k < |values| && values[k] == x;
    }
  }

  /** The course ids either list recommends. */
  function BlendedIds(collaborative: seq<Recommendation>, content: seq<Recommendation>): set<string> {
    (set id | id in RecommendedIds(collaborative)) + (set id | id in RecommendedIds(content))
  }

  /** The hybrid map has one entry per course id that either list recommends. */
  lemma BlendsSize(collaborative: seq<Recommendation>, content: seq<Recommendation>)
    ensures |Blends(collaborative, content)| == |BlendedIds(collaborative, content)|
  {
    var b := Blends(collaborative, content);
    KeySetSize(b);
    forall id
      ensures id in KeySet(b) <==> id in BlendedIds(collaborative, content)
    {
      BlendKeys(collaborative, content, id);
    }
    assert KeySet(b) == BlendedIds(collaborative, content);
  }

  /**
   * For n >= 0 the hybrid result has min(n, number of blended courses)
   * entries: `slice(0, topN)` of the map's values.
   */
  lemma HybridCount(ds: Dataset, target: string, n: int, root: real -> real)
    ensures 0 <= n ==>
      var ids := BlendedIds(Collaborative(ds, target, n * 2, root), ContentBased(ds, target, n * 2));
      |HybridRecommend(ds, target, n, root)| == if n < |ids| then n else |ids|
  {
    var collaborative := Collaborative(ds, target, n * 2, root);
    var content := ContentBased(ds, target, n * 2);
    BlendsSize(collaborative, content);
    assert HybridRecommend(ds, target, n, root) == Rank(Values(Blends(collaborative, content)), n);
  }

  /** Every hybrid result is a course that one of the two 2n-length lists recommends. */
  lemma HybridFromLists(ds: Dataset, target: string, n: int, root: real -> real)
    ensures forall x :: x in HybridRecommend(ds, target, n, root) ==>
              x.course.id in RecommendedIds(Collaborative(ds, target, n * 2, root))
              || x.course.id in RecommendedIds(ContentBased(ds, target, n * 2))
  {
    var collaborative := Collaborative(ds, target, n * 2, root);
    var content := ContentBased(ds, target, n * 2);
    var b := Blends(collaborative, content);
    var values := Values(b);
    assert HybridRecommend(ds, target, n, root) == Rank(values, n);
    AddCollaborativeWellKeyed([], collaborative);
    AddContentWellKeyed(AddCollaborative([], collaborative), content);
    forall x | x in values
      ensures x.course.id in RecommendedIds(collaborative) || x.course.id in RecommendedIds(content)
    {
      var k :| 0 <= k < |values| && values[k] == x;
      assert b[k].0 == x.course.id;
      assert Has(b, x.course.id);
      BlendKeys(collaborative, content, x.course.id);
    }
  }

  /** Every hybrid value scores the blend of its course's two scores. */
  lemma ValuesScores(collaborative: seq<Recommendation>, content: seq<Recommendation>)
    requires DistinctRecommendations(content)
    ensures forall x :: x in Values(Blends(collaborative, content)) ==>
              x.score == BlendedScore(collaborative, content, x.course.id)
  {
    var b := Blends(collaborative, content);
    var values := Values(b);
    AddCollaborativeWellKeyed([], collaborative);
    AddContentWellKeyed(AddCollaborative([], collaborative), content);
    forall x | x in values
      ensures x.score == BlendedScore(collaborative, content, x.course.id)
    {
      var k :| 0 <= k < |values| && values[k] == x;
      assert Get(b, x.course.id) == Some(b[k].1);
      BlendEntry(collaborative, content, x.course.id);
    }
  }

  /**
   * With distinct catalog ids each hybrid score is the 0.6 / 0.4 blend of
   * the two scorers' lists of length 2n; with valid data it lies in [0, 1].
   */
  lemma HybridScores(ds: Dataset, target: string, n: int, root: real -> real)
    requires DistinctCourseIds(ds.courses)
    ensures forall x :: x in HybridRecommend(ds, target, n, root) ==>
              x.score == BlendedScore(Collaborative(ds, target, n * 2, root), ContentBased(ds, target, n * 2), x.course.id)
    ensures AllValid(ds.interactions) ==>
              forall x :: x in HybridRecommend(ds, target, n, root) ==> 0.0 <= x.score <= 1.0
  {
    var collaborative := Collaborative(ds, target, n * 2, root);
    var content := ContentBased(ds, target, n * 2);
    assert HybridRecommend(ds, target, n, root) == Rank(Values(Blends(collaborative, content)), n);
    ValuesScores(collaborative, content);
    if AllValid(ds.interactions) {
      CollaborativeProperties(ds, target, n * 2, root);
      forall id: string {
        BlendedScoreInUnitRange(collaborative, content, id);
      }
    }
  }

  /** The same recommendations labelled as hybrid. */
  function Relabel(recs: seq<Recommendation>): (r: seq<Recommendation>)
    ensures |r| == |recs|
    ensures forall k :: 0 <= k < |recs| ==> r[k] == Recommendation(recs[k].course, recs[k].score, HybridAlgorithm)
  {
    seq(|recs|, k requires 0 <= k < |recs| => Recommendation(recs[k].course, recs[k].score, HybridAlgorithm))
  }

  /** New distinct ids are appended in list order. */
  lemma {:induction false} KeysAddCollaborativeFresh(b: AList<Blend>, recs: seq<Recommendation>)
    requires DistinctRecommendations(recs)
    requires forall x :: x in recs ==> !Has(b, x.course.id)
    ensures Keys(AddCollaborative(b, recs)) == Keys(b) + RecommendedIds(recs)
  {
    if |recs| > 0 {
      var prefix := recs[..|recs| - 1];
      var x := recs[|recs| - 1];
      var before := AddCollaborative(b, prefix);
      FreshLast(recs);
      KeysAddCollaborativeFresh(b, prefix);
      HasAddCollaborative(b, prefix, x.course.id);
      KeysPutFresh(before, x.course.id, Scaled(x));
      IdsSnoc(recs, x.course.id);
    }
  }

  lemma KeysPutFresh(b: AList<Blend>, key: string, e: Blend)
    requires !Has(b, key)
    ensures Keys(Put(b, key, e)) == Keys(b) + [key]
  {
  }

  /** The last element of a list without repeated ids has an id the rest lacks. */
  lemma FreshLast(recs: seq<Recommendation>)
    requires DistinctRecommendations(recs) && |recs| > 0
    ensures DistinctRecommendations(recs[..|recs| - 1])
    ensures recs[|recs| - 1].course.id !in RecommendedIds(recs[..|recs| - 1])
    ensures forall y :: y in recs[..|recs| - 1] ==> y in recs
    ensures recs[|recs| - 1] in recs
  {
  }

  /** Merging into existing entries keeps the key order. */
  lemma {:induction false} KeysAddContentExisting(b: AList<Blend>, recs: seq<Recommendation>)
    requires forall x :: x in recs ==> Has(b, x.course.id)
    ensures Keys(AddContent(b, recs)) == Keys(b)
  {
    if |recs| > 0 {
      var prefix := recs[..|recs| - 1];
      var x := recs[|recs| - 1];
      assert forall y :: y in prefix ==> y in recs;
      KeysAddContentExisting(b, prefix);
      HasAddContent(b, prefix, x.course.id);
      assert x in recs;
    }
  }

  /** In a list without repeated ids, the last recommendation for an id is the only one. */
  lemma LastForDistinct(recs: seq<Recommendation>, k: int)
    requires DistinctRecommendations(recs) && 0 <= k < |recs|
    ensures LastFor(recs, recs[k].course.id) == Some(recs[k])
  {
    var r := LastFor(recs, recs[k].course.id);
    assert RecommendedIds(recs)[k] == recs[k].course.id;
    var j :| 0 <= j < |recs| && recs[j] == r.value;
  }

  /** Blending a list without repeated ids with itself keeps its ids in order. */
  lemma SelfBlendKeys(recs: seq<Recommendation>)
    requires DistinctRecommendations(recs)
    ensures Keys(Blends(recs, recs)) == RecommendedIds(recs)
  {
    var b0 := AddCollaborative([], recs);
    KeysAddCollaborativeFresh([], recs);
    forall x | x in recs
      ensures Has(b0, x.course.id)
    {
      HasAddCollaborative([], recs, x.course.id);
      var k :| 0 <= k < |recs| && recs[k] == x;
      assert RecommendedIds(recs)[k] == x.course.id;
    }
    KeysAddContentExisting(b0, recs);
  }

  /** ... and gives each course back its own score: 0.6 s + 0.4 s = s. */
  lemma SelfBlendEntry(recs: seq<Recommendation>, k: int)
    requires DistinctRecommendations(recs) && 0 <= k < |recs|
    ensures Get(Blends(recs, recs), recs[k].course.id)
            == Some(Blend(recs[k].course, recs[k].score, [FromCollaborative, FromContent]))
  {
    var x := recs[k];
    var b0 := AddCollaborative([], recs);
    LastForDistinct(recs, k);
    AddCollaborativeEntry([], recs, x.course.id);
    assert Get(b0, x.course.id) == Some(Scaled(x));
    AddContentEntry(b0, recs, x.course.id);
    assert Get(Blends(recs, recs), x.course.id) == Some(Merge(Some(Scaled(x)), x));
    MergeScaled(x);
  }

  lemma MergeScaled(x: Recommendation)
    ensures Merge(Some(Scaled(x)), x) == Blend(x.course, x.score, [FromCollaborative, FromContent])
  {
    assert [FromCollaborative] + [FromContent] == [FromCollaborative, FromContent];
  }

  /** Blending a list without repeated ids with itself gives back the list, relabelled. */
  lemma SelfBlend(recs: seq<Recommendation>)
    requires DistinctRecommendations(recs)
    ensures Values(Blends(recs, recs)) == Relabel(recs)
  {
    var b := Blends(recs, recs);
    SelfBlendKeys(recs);
    forall k | 0 <= k < |recs|
      ensures Values(b)[k] == Relabel(recs)[k]
    {
      assert Keys(b)[k] == recs[k].course.id;
      assert Get(b, recs[k].course.id) == Some(b[k].1);
      SelfBlendEntry(recs, k);
    }
  }

  /** Ranking a sorted list is taking its prefix, so relabelling commutes with it. */
  lemma RankRelabel(recs: seq<Recommendation>, n: int)
    requires SortedByScore(recs) && 0 <= n
    ensures Rank(Relabel(recs), n) == Relabel(Rank(recs, n))
  {
    var relabelled := Relabel(recs);
    assert SortedByScore(relabelled);
    SortSortedIsIdentity(recs);
    SortSortedIsIdentity(relabelled);
    assert Rank(relabelled, n) == Slice(relabelled, n);
    assert Rank(recs, n) == Slice(recs, n);
    var m := |Slice(recs, n)|;
    assert Slice(relabelled, n) == relabelled[..m];
    assert Slice(recs, n) == recs[..m];
    assert relabelled[..m] == Relabel(recs[..m]);
  }

  /**
   * Cold start: for a target without interactions the collaborative list is
   * the content-based one, so with distinct catalog ids the hybrid list is
   * the content-based list relabelled.
   */
  lemma HybridColdStart(ds: Dataset, target: string, n: int, root: real -> real)
    requires !Active(ds.interactions, target) && DistinctCourseIds(ds.courses) && 0 <= n
    ensures HybridRecommend(ds, target, n, root) == Relabel(ContentBased(ds, target, n))
  {
    var content := ContentBased(ds, target, n * 2);
    assert Collaborative(ds, target, n * 2, root) == content;
    SelfBlend(content);
    RankRelabel(content, n);
    ContentBasedTwice(ds, target, n);
  }
}

=== FILE: learning.dfy ===
/**
 * The records the recommendation engine reads and produces: students,
 * courses, interactions and recommendations, with the two catalog look-ups
 * the engine performs (`Array.prototype.find` on students and courses).
 */
module Learning {
  import opened Wrappers

  datatype LearningStyle = Visual | Auditory | Kinesthetic | Reading

  datatype Student = Student(
    id: string,
    name: string,
    email: string,
    learningStyle: LearningStyle,
    interests: seq<string>)

  /** The ordered difficulty tiers. */
  datatype Difficulty = Beginner | Intermediate | Advanced

  datatype Course = Course(
    id: string,
    title: string,
    description: string,
    category: string,
    difficulty: Difficulty,
    tags: seq<string>,
    durationMinutes: int)

  /** The interaction kind is informational: no score depends on it. */
  datatype InteractionKind = View | Complete | Rate | Bookmark

  /**
   * One recorded interaction. `rating` is optional; time spent and the
   * timestamp are not part of this model because nothing reads them.
   */
  datatype Interaction = Interaction(
    id: string,
    studentId: string,
    courseId: string,
    kind: InteractionKind,
    rating: Option<int>,
    completion: int)

  datatype Algorithm = CollaborativeAlgorithm | ContentBasedAlgorithm | HybridAlgorithm

  /** A scored suggestion; the human-readable reasoning text is not modelled. */
  datatype Recommendation = Recommendation(course: Course, score: real, algorithm: Algorithm)

  /** The three read-only collections an engine is constructed with. */
  datatype Dataset = Dataset(
    students: seq<Student>,
    courses: seq<Course>,
    interactions: seq<Interaction>)

  /** beginner = 1, intermediate = 2, advanced = 3 */
  function Level(d: Difficulty): (l: int)
    ensures 1 <= l <= 3
    ensures d == Beginner <==> l == 1
    ensures d == Advanced <==> l == 3
  {
    match d
    case Beginner => 1
    case Intermediate => 2
    case Advanced => 3
  }

  /** An interaction as the input forms produce it: rating 1..5 when present, completion 0..100. */
  predicate ValidInteraction(i: Interaction) {
    && (i.rating.Some? ==> 1 <= i.rating.value <= 5)
    && 0 <= i.completion <= 100
  }

  predicate AllValid(xs: seq<Interaction>) {
    forall k :: 0 <= k < |xs| ==> ValidInteraction(xs[k])
  }

  /** `courses.find(c => c.id === id)`: the first course carrying `id`. */
  function FindCourse(courses: seq<Course>, id: string): (r: Option<Course>)
    ensures r.None? <==> forall k :: 0 <= k < |courses| ==> courses[k].id != id
    ensures r.Some? ==> r.value in courses && r.value.id == id
    ensures r.Some? ==> exists k :: 0 <= k < |courses| && courses[k] == r.value
                                    && forall j :: 0 <= j < k ==> courses[j].id != id
  {
    if |courses| == 0 then None
    else if courses[0].id == id then Some(courses[0])
    else
      var r := FindCourse(courses[1..], id);
      if r.Some? then
        ghost var k :| 0 <= k < |courses[1..]| && courses[1..][k] == r.value
                       && forall j :: 0 <= j < k ==> courses[1..][j].id != id;
        assert courses[k + 1] == r.value;
        r
      else r
  }

  /** `students.find(s => s.id === id)`: the first student carrying `id`. */
  function FindStudent(students: seq<Student>, id: string): (r: Option<Student>)
    ensures r.None? <==> forall k :: 0 <= k < |students| ==> students[k].id != id
    ensures r.Some? ==> r.value in students && r.value.id == id
    ensures r.Some? ==> exists k :: 0 <= k < |students| && students[k] == r.value
                                    && forall j :: 0 <= j < k ==> students[j].id != id
  {
    if |students| == 0 then None
    else if students[0].id == id then Some(students[0])
    else
      var r := FindStudent(students[1..], id);
      if r.Some? then
        ghost var k :| 0 <= k < |students[1..]| && students[1..][k] == r.value
                       && forall j :: 0 <= j < k ==> students[1..][j].id != id;
        assert students[k + 1] == r.value;
        r
      else r
  }

  /** No entry occurs twice, as in a Set. */
  predicate NoDuplicates(s: seq<string>) {
    forall i, j :: 0 <= i < j < |s| ==> s[i] != s[j]
  }

  /** No two catalog entries share an id. */
  predicate DistinctCourseIds(courses: seq<Course>) {
    forall i, j :: 0 <= i < j < |courses| ==> courses[i].id != courses[j].id
  }

  /** The course ids of a recommendation list, in order. */
  function RecommendedIds(recs: seq<Recommendation>): (ids: seq<string>)
    ensures |ids| == |recs|
    ensures forall k :: 0 <= k < |recs| ==> ids[k] == recs[k].course.id
  {
    seq(|recs|, k requires 0 <= k < |recs| => recs[k].course.id)
  }

  /** Prepending one recommendation adds exactly its id to the ids. */
  lemma IdsCons(h: Recommendation, t: seq<Recommendation>, c: string)
    ensures c in RecommendedIds([h] + t) <==> h.course.id == c || c in RecommendedIds(t)
  {
    assert RecommendedIds([h] + t) == [h.course.id] + RecommendedIds(t);
  }

  /** No two recommendations of a list are for the same course id. */
  predicate DistinctRecommendations(recs: seq<Recommendation>) {
    forall i, j :: 0 <= i < j < |recs| ==> recs[i].course.id != recs[j].course.id
  }

  /** Does the dataset record any interaction of `student` with `course`? */
  predicate HasInteraction(xs: seq<Interaction>, student: string, course: string) {
    exists k :: 0 <= k < |xs| && xs[k].studentId == student && xs[k].courseId == course
  }

  /** Does the dataset hold any interaction of `student`? */
  predicate Active(xs: seq<Interaction>, student: string) {
    exists k :: 0 <= k < |xs| && xs[k].studentId == student
  }
}

=== FILE: matrix.dfy ===
/**
 * The user-item matrix: for every student who has interactions, a row
 * mapping each course the student interacted with to an affinity.
 * Interactions are processed in order; a later interaction for the same
 * (student, course) pair overwrites the earlier one.
 */
module AffinityMatrix {
  import opened Wrappers
  import opened Learning
  import opened Assoc

  /** One student's affinities, in the order the courses were first seen. */
  type Row = AList<real>

  type Matrix = map<string, Row>

  /**
   * rating / 5 when a (truthy, hence nonzero) rating is present, else
   * completion / 100 when the completion is positive, else 0.
   */
  function Affinity(i: Interaction): (a: real)
    ensures ValidInteraction(i) ==> 0.0 <= a <= 1.0
  {
    if i.rating.Some? && i.rating.value != 0 then i.rating.value as real / 5.0
    else if i.completion > 0 then i.completion as real / 100.0
    else 0.0
  }

  /** The row of `student`, empty when the matrix has none. */
  function RowOf(m: Matrix, student: string): Row {
    if student in m then m[student] else []
  }

  /** Records one interaction: creates the row if needed, then sets the entry. */
  function Record(m: Matrix, i: Interaction): Matrix {
    m[i.studentId := Put(RowOf(m, i.studentId), i.courseId, Affinity(i))]
  }

  /** Every row is a well-formed Map with at least one entry. */
  predicate WellFormed(m: Matrix) {
    forall s :: s in m ==> UniqueKeys(m[s]) && |m[s]| > 0
  }

  /** `getUserItemMatrix`: the interactions folded in order. */
  function BuildMatrix(xs: seq<Interaction>): (m: Matrix)
    ensures WellFormed(m)
    ensures forall s :: s in m <==> Active(xs, s)
  {
    if |xs| == 0 then map[]
    else
      var prefix := xs[..|xs| - 1];
      var last := xs[|xs| - 1];
      var before := BuildMatrix(prefix);
      RecordStep(before, last);
      forall s
        ensures Active(xs, s) <==> Active(prefix, s) || last.studentId == s
      {
        ActiveSnoc(xs, s);
      }
      Record(before, last)
  }

  /** A learner is active in a list exactly when active in its prefix or in its last interaction. */
  lemma ActiveSnoc(xs: seq<Interaction>, s: string)
    requires |xs| > 0
    ensures Active(xs, s) <==> Active(xs[..|xs| - 1], s) || xs[|xs| - 1].studentId == s
  {
    var prefix := xs[..|xs| - 1];
    if Active(xs, s) {
      var k :| 0 <= k < |xs| && xs[k].studentId == s;
      if k < |prefix| {
        assert prefix[k] == xs[k];
      }
    }
    if Active(prefix, s) {
      var k :| 0 <= k < |prefix| && prefix[k].studentId == s;
      assert xs[k] == prefix[k];
    }
  }

  /** Recording an interaction keeps rows well formed and adds the learner's row if missing. */
  lemma RecordStep(m: Matrix, i: Interaction)
    requires WellFormed(m)
    ensures WellFormed(Record(m, i))
    ensures forall s :: s in Record(m, i) <==> s in m || s == i.studentId
  {
    var row := Put(RowOf(m, i.studentId), i.courseId, Affinity(i));
    assert UniqueKeys(RowOf(m, i.studentId));
    assert Get(row, i.courseId).Some?;
    assert |row| > 0;
  }

  /** The position of the last interaction of `student` with `course`, or -1. */
  function LastMatch(xs: seq<Interaction>, student: string, course: string): (r: int)
    ensures -1 <= r < |xs|
    ensures r == -1 <==> !HasInteraction(xs, student, course)
    ensures 0 <= r ==> xs[r].studentId == student && xs[r].courseId == course
    ensures 0 <= r ==> forall k :: r < k < |xs| ==> !(xs[k].studentId == student && xs[k].courseId == course)
  {
    if |xs| == 0 then -1
    else if xs[|xs| - 1].studentId == student && xs[|xs| - 1].courseId == course then |xs| - 1
    else
      var prefix := xs[..|xs| - 1];
      assert forall k :: 0 <= k < |prefix| ==> xs[k] == prefix[k];
      LastMatch(prefix, student, course)
  }

  /**
   * The matrix entry for (student, course) exists exactly when some
   * interaction records the pair, and then it is the affinity of the last
   * such interaction.
   */
  lemma {:induction false} EntryIsLastInteraction(xs: seq<Interaction>, student: string, course: string)
    ensures var r := LastMatch(xs, student, course);
            Get(RowOf(BuildMatrix(xs), student), course)
            == if r == -1 then None else Some(Affinity(xs[r]))
  {
    if |xs| > 0 {
      var prefix := xs[..|xs| - 1];
      var last := xs[|xs| - 1];
      var before := BuildMatrix(prefix);
      EntryIsLastInteraction(prefix, student, course);
      assert BuildMatrix(xs) == Record(before, last);
      RecordEntry(before, last, student, course);
      if !(last.studentId == student && last.courseId == course) {
        assert LastMatch(xs, student, course) == LastMatch(prefix, student, course);
        var r := LastMatch(prefix, student, course);
        if r != -1 {
          assert xs[r] == prefix[r];
        }
      }
    }
  }

  /** Recording an interaction sets its own entry and leaves every other entry alone. */
  lemma RecordEntry(m: Matrix, i: Interaction, student: string, course: string)
    ensures Get(RowOf(Record(m, i), student), course)
            == if i.studentId == student && i.courseId == course then Some(Affinity(i))
               else Get(RowOf(m, student), course)
  {
    if i.studentId == student {
      assert RowOf(Record(m, i), student) == Put(RowOf(m, student), i.courseId, Affinity(i));
    } else {
      assert RowOf(Record(m, i), student) == RowOf(m, student);
    }
  }

  /** With valid interactions every affinity in the matrix lies in [0, 1]. */
  lemma {:induction false} AffinitiesInUnitRange(xs: seq<Interaction>)
    requires AllValid(xs)
    ensures forall s, k :: s in BuildMatrix(xs) && 0 <= k < |BuildMatrix(xs)[s]| ==>
              0.0 <= BuildMatrix(xs)[s][k].1 <= 1.0
  {
    var m: Matrix := BuildMatrix(xs);
    forall s: string, k: int | s in m && 0 <= k < |m[s]|
      ensures 0.0 <= m[s][k].1 <= 1.0
    {
      var row: Row := m[s];
      var c := row[k].0;
      assert Get(row, c) == Some(row[k].1);
      EntryIsLastInteraction(xs, s, c);
    }
  }

  /** Every course in a student's row is one the student interacted with, and conversely. */
  lemma RowKeysAreInteractedCourses(xs: seq<Interaction>, student: string, course: string)
    ensures Has(RowOf(BuildMatrix(xs), student), course) <==> HasInteraction(xs, student, course)
  {
    EntryIsLastInteraction(xs, student, course);
  }
}

=== FILE: metrics.dfy ===
/**
 * `calculateMetrics`: precision, recall and accuracy against the target's
 * highly rated courses, category coverage and a score-based diversity
 * value, each rounded to two decimals.
 */
module Metrics {
  import opened Wrappers
  import opened Learning

  /** A number that may be one of the two IEEE values a division by zero gives. */
  datatype Quantity = Finite(value: real) | NaN | Infinity

  /** `rating ?? 0` */
  function RatingOrZero(i: Interaction): int {
    i.rating.GetOr(0)
  }

  /** The ids of the courses the student rated 4 or more. */
  function RelevantIds(xs: seq<Interaction>, student: string): (ids: set<string>)
    ensures forall id :: id in ids <==>
      exists k :: 0 <= k < |xs| && xs[k].studentId == student && RatingOrZero(xs[k]) >= 4 && xs[k].courseId == id
  {
    set k | 0 <= k < |xs| && xs[k].studentId == student && RatingOrZero(xs[k]) >= 4 :: xs[k].courseId
  }

  /** The ids of the recommended courses. */
  function RecommendedSet(recs: seq<Recommendation>): (ids: set<string>)
    ensures forall id :: id in ids <==> exists k :: 0 <= k < |recs| && recs[k].course.id == id
  {
    set k | 0 <= k < |recs| :: recs[k].course.id
  }

  /** The categories of the recommended courses. */
  function RecommendedCategories(recs: seq<Recommendation>): (cs: set<string>)
    ensures forall c :: c in cs <==> exists k :: 0 <= k < |recs| && recs[k].course.category == c
  {
    set k | 0 <= k < |recs| :: recs[k].course.category
  }

  /** The categories of the catalog. */
  function CatalogCategories(courses: seq<Course>): (cs: set<string>)
    ensures forall c :: c in cs <==> exists k :: 0 <= k < |courses| && courses[k].category == c
  {
    set k | 0 <= k < |courses| :: courses[k].category
  }

  /** `a > 0 ? b / a : 0` on set sizes. */
  function Ratio(part: nat, whole: nat): real {
    if whole > 0 then part as real / whole as real else 0.0
  }

  /** JavaScript's `a / b` on non-negative counts: 0 / 0 is NaN and a positive / 0 is Infinity. */
  function Divide(a: nat, b: nat): (q: Quantity)
    ensures b > 0 ==> q == Finite(a as real / b as real)
    ensures b == 0 ==> (q == NaN <==> a == 0) && (q == Infinity <==> a > 0)
  {
    if b > 0 then Finite(a as real / b as real)
    else if a == 0 then NaN
    else Infinity
  }

  /** `Math.round(x * 100) / 100`, with `Math.round(y) = floor(y + 1/2)`. */
  function Round2(x: real): (r: real)
    ensures x - 0.005 < r <= x + 0.005
  {
    ((x * 100.0 + 0.5).Floor as real) / 100.0
  }

  function RoundQuantity(q: Quantity): Quantity {
    match q
    case Finite(v) => Finite(Round2(v))
    case NaN => NaN
    case Infinity => Infinity
  }

  /** Sum of the scores. */
  function ScoreSum(recs: seq<Recommendation>): real {
    if |recs| == 0 then 0.0 else ScoreSum(recs[..|recs| - 1]) + recs[|recs| - 1].score
  }

  /**
   * `1 - (avgScore > 0.8 ? 0.3 : 0)`: the mean of an empty list is NaN, and
   * NaN > 0.8 is false.
   */
  function Diversity(recs: seq<Recommendation>): real {
    if |recs| > 0 && ScoreSum(recs) / |recs| as real > 0.8 then 0.7 else 1.0
  }

  /** The rounded values `calculateMetrics` returns. */
  datatype RecommendationMetrics = RecommendationMetrics(
    accuracy: real, precision: real, recall: real, coverage: Quantity, diversity: real)

  /** The values before rounding. */
  function RawMetrics(ds: Dataset, student: string, recs: seq<Recommendation>): RecommendationMetrics {
    var recommended := RecommendedSet(recs);
    var relevant := RelevantIds(ds.interactions, student);
    var truePositives := |recommended * relevant|;
    var precision := Ratio(truePositives, |recommended|);
    var recall := Ratio(truePositives, |relevant|);
    RecommendationMetrics(
      (precision + recall) / 2.0, precision, recall,
      Divide(|RecommendedCategories(recs)|, |CatalogCategories(ds.courses)|),
      Diversity(recs))
  }

  /** `calculateMetrics(student, recs)` */
  function CalculateMetrics(ds: Dataset, student: string, recs: seq<Recommendation>): (r: RecommendationMetrics)
    ensures 0.0 <= r.precision <= 1.0 && 0.0 <= r.recall <= 1.0 && 0.0 <= r.accuracy <= 1.0
    ensures r.diversity == 0.7 || r.diversity == 1.0
    ensures var recommended := RecommendedSet(recs);
            var relevant := RelevantIds(ds.interactions, student);
            var precision := Ratio(|recommended * relevant|, |recommended|);
            var recall := Ratio(|recommended * relevant|, |relevant|);
            && r.precision == Round2(precision) && r.recall == Round2(recall)
            && r.accuracy == Round2((precision + recall) / 2.0)
            && r.coverage == RoundQuantity(Divide(|RecommendedCategories(recs)|, |CatalogCategories(ds.courses)|))
    ensures r.diversity == 0.7 <==> |recs| > 0 && ScoreSum(recs) > 0.8 * |recs| as real
    ensures TwoDecimals(r.precision) && TwoDecimals(r.recall) && TwoDecimals(r.accuracy) && TwoDecimals(r.diversity)
    ensures r.coverage.Finite? ==> TwoDecimals(r.coverage.value)
  {
    var raw := RawMetrics(ds, student, recs);
    MetricBounds(ds, student, recs);
    DiversityIff(recs);
    RawFields(ds, student, recs);
    RoundedFacts(raw);
    RoundMetrics(raw)
  }

  /** Every field of `m` rounded to two decimals, as the return statement of `calculateMetrics` does. */
  function RoundMetrics(m: RecommendationMetrics): RecommendationMetrics {
    RecommendationMetrics(
      Round2(m.accuracy), Round2(m.precision), Round2(m.recall),
      RoundQuantity(m.coverage), Round2(m.diversity))
  }

  /** Rounding keeps the unit range and the two diversity values apart, and leaves two decimals. */
  lemma RoundedFacts(m: RecommendationMetrics)
    requires 0.0 <= m.precision <= 1.0 && 0.0 <= m.recall <= 1.0 && 0.0 <= m.accuracy <= 1.0
    requires m.diversity == 0.7 || m.diversity == 1.0
    ensures var r := RoundMetrics(m);
            && 0.0 <= r.precision <= 1.0 && 0.0 <= r.recall <= 1.0 && 0.0 <= r.accuracy <= 1.0
            && (r.diversity == 0.7 <==> m.diversity == 0.7) && (r.diversity == 0.7 || r.diversity == 1.0)
            && TwoDecimals(r.precision) && TwoDecimals(r.recall) && TwoDecimals(r.accuracy) && TwoDecimals(r.diversity)
            && (r.coverage.Finite? ==> TwoDecimals(r.coverage.value))
  {
    Round2InUnitRange(m.precision);
    Round2InUnitRange(m.recall);
    Round2InUnitRange(m.accuracy);
    Round2Exact(70);
    Round2Exact(100);
    Round2TwoDecimals(m.precision);
    Round2TwoDecimals(m.recall);
    Round2TwoDecimals(m.accuracy);
    Round2TwoDecimals(m.diversity);
    if m.coverage.Finite? {
      Round2TwoDecimals(m.coverage.value);
    }
  }

  lemma RawFields(ds: Dataset, student: string, recs: seq<Recommendation>)
    ensures var recommended := RecommendedSet(recs);
            var relevant := RelevantIds(ds.interactions, student);
            var raw := RawMetrics(ds, student, recs);
            && raw.precision == Ratio(|recommended * relevant|, |recommended|)
            && raw.recall == Ratio(|recommended * relevant|, |relevant|)
            && raw.accuracy == (raw.precision + raw.recall) / 2.0
            && raw.coverage == Divide(|RecommendedCategories(recs)|, |CatalogCategories(ds.courses)|)
  {
  }

  /** `x` has at most two decimals: 100·x is a whole number. */
  predicate TwoDecimals(x: real) {
    (x * 100.0).Floor as real == x * 100.0
  }

  /** Rounding leaves at most two decimals. */
  lemma Round2TwoDecimals(x: real)
    ensures TwoDecimals(Round2(x))
  {
    var f := (x * 100.0 + 0.5).Floor;
    assert Round2(x) * 100.0 == f as real;
  }

  /**
   * Diversity is 0.7 exactly when the list is non-empty and its mean score
   * exceeds 0.8; the empty list's mean is NaN, so it gets 1.
   */
  lemma DiversityIff(recs: seq<Recommendation>)
    ensures Diversity(recs) == if |recs| > 0 && ScoreSum(recs) > 0.8 * |recs| as real then 0.7 else 1.0
  {
    if |recs| > 0 {
      QuotientAbove(ScoreSum(recs), |recs| as real, 0.8);
    }
  }

  lemma QuotientAbove(a: real, w: real, t: real)
    requires 0.0 < w
    ensures a / w > t <==> a > t * w
  {
    var q := a / w;
    assert q * w == a;
    assert q * w - t * w == (q - t) * w;
    if q > t {
      assert (q - t) * w > 0.0;
    } else {
      assert (t - q) * w >= 0.0;
    }
  }

  /** A subset is no larger, and equally large only when equal. */
  lemma {:induction false} SubsetCardinality<T>(a: set<T>, b: set<T>)
    requires a <= b
    ensures |a| <= |b|
    ensures |a| == |b| ==> a == b
  {
    if a != {} {
      var x :| x in a;
      SubsetCardinality(a - {x}, b - {x});
    }
  }

  /** A ratio of a part to its whole lies in [0, 1]; it is 1 exactly when the part is the whole. */
  lemma RatioBounds(part: nat, whole: nat)
    requires part <= whole
    ensures 0.0 <= Ratio(part, whole) <= 1.0
    ensures whole > 0 ==> (Ratio(part, whole) == 1.0 <==> part == whole)
  {
    if whole > 0 {
      UnitQuotient(part as real, whole as real);
    }
  }

  lemma UnitQuotient(x: real, w: real)
    requires 0.0 < w && 0.0 <= x <= w
    ensures 0.0 <= x / w <= 1.0
    ensures x / w == 1.0 <==> x == w
  {
    assert x / w * w == x;
  }

  /** Precision, recall and accuracy lie in [0, 1]; diversity is 0.7 or 1. */
  lemma MetricBounds(ds: Dataset, student: string, recs: seq<Recommendation>)
    ensures var raw := RawMetrics(ds, student, recs);
            && 0.0 <= raw.precision <= 1.0 && 0.0 <= raw.recall <= 1.0 && 0.0 <= raw.accuracy <= 1.0
            && (raw.diversity == 0.7 || raw.diversity == 1.0)
  {
    var recommended := RecommendedSet(recs);
    var relevant := RelevantIds(ds.interactions, student);
    SubsetCardinality(recommended * relevant, recommended);
    SubsetCardinality(recommended * relevant, relevant);
    RatioBounds(|recommended * relevant|, |recommended|);
    RatioBounds(|recommended * relevant|, |relevant|);
  }

  /** For a non-empty list, precision is 1 exactly when every recommended course is relevant. */
  lemma PrecisionOneIff(ds: Dataset, student: string, recs: seq<Recommendation>)
    requires |recs| > 0
    ensures RawMetrics(ds, student, recs).precision == 1.0 <==>
            RecommendedSet(recs) <= RelevantIds(ds.interactions, student)
  {
    var recommended := RecommendedSet(recs);
    var relevant := RelevantIds(ds.interactions, student);
    var both := recommended * relevant;
    assert recs[0].course.id in recommended;
    assert RawMetrics(ds, student, recs).precision == Ratio(|both|, |recommended|);
    SubsetCardinality(both, recommended);
    RatioBounds(|both|, |recommended|);
    assert both == recommended <==> recommended <= relevant;
  }

  /** With relevant courses, recall is 1 exactly when every relevant course is recommended. */
  lemma RecallOneIff(ds: Dataset, student: string, recs: seq<Recommendation>)
    requires |RelevantIds(ds.interactions, student)| > 0
    ensures RawMetrics(ds, student, recs).recall == 1.0 <==>
            RelevantIds(ds.interactions, student) <= RecommendedSet(recs)
  {
    var recommended := RecommendedSet(recs);
    var relevant := RelevantIds(ds.interactions, student);
    var both := recommended * relevant;
    assert RawMetrics(ds, student, recs).recall == Ratio(|both|, |relevant|);
    SubsetCardinality(both, relevant);
    RatioBounds(|both|, |relevant|);
    assert both == relevant <==> relevant <= recommended;
  }

  /** Recommending only catalog courses from a non-empty catalog gives a finite coverage in [0, 1]. */
  lemma CoverageBounds(ds: Dataset, student: string, recs: seq<Recommendation>)
    requires |ds.courses| > 0
    requires forall x :: x in recs ==> x.course in ds.courses
    ensures var c := CalculateMetrics(ds, student, recs).coverage;
            c.Finite? && 0.0 <= c.value <= 1.0
  {
    var mine := RecommendedCategories(recs);
    var all := CatalogCategories(ds.courses);
    assert ds.courses[0].category in all;
    forall c | c in mine
      ensures c in all
    {
      var k :| 0 <= k < |recs| && recs[k].course.category == c;
      assert recs[k] in recs;
      var j :| 0 <= j < |ds.courses| && ds.courses[j] == recs[k].course;
    }
    SubsetCardinality(mine, all);
    RatioBounds(|mine|, |all|);
    Round2InUnitRange(Ratio(|mine|, |all|));
  }

  /** Rounding keeps a value of [0, 1] in [0, 1]. */
  lemma Round2InUnitRange(x: real)
    requires 0.0 <= x <= 1.0
    ensures 0.0 <= Round2(x) <= 1.0
  {
  }

  /** Rounding keeps a value with two decimals as it is, so rounding twice is rounding once. */
  lemma Round2Exact(m: int)
    ensures Round2(m as real / 100.0) == m as real / 100.0
  {
    var y := m as real / 100.0 * 100.0 + 0.5;
    assert y == m as real + 0.5;
    FloorOfHalf(m);
  }

  lemma FloorOfHalf(m: int)
    ensures (m as real + 0.5).Floor == m
  {
    var y := m as real + 0.5;
    assert y.Floor as real <= y < y.Floor as real + 1.0;
  }

  lemma Round2Idempotent(x: real)
    ensures Round2(Round2(x)) == Round2(x)
  {
    Round2Exact((x * 100.0 + 0.5).Floor);
  }

  /**
   * An empty list has precision, recall and accuracy 0, diversity 1, and a
   * coverage of 0 (NaN when the catalog is empty too).
   */
  lemma EmptyRecommendations(ds: Dataset, student: string)
    ensures var r := CalculateMetrics(ds, student, []);
            && r.precision == 0.0 && r.recall == 0.0 && r.accuracy == 0.0 && r.diversity == 1.0
            && r.coverage == (if |ds.courses| > 0 then Finite(0.0) else NaN)
  {
    var raw := RawMetrics(ds, student, []);
    RawEmpty(ds, student);
    Round2Exact(0);
    Round2Exact(100);
    assert CalculateMetrics(ds, student, []) ==
      RecommendationMetrics(Round2(raw.accuracy), Round2(raw.precision), Round2(raw.recall),
                            RoundQuantity(raw.coverage), Round2(raw.diversity));
  }

  /** The unrounded values for an empty list. */
  lemma RawEmpty(ds: Dataset, student: string)
    ensures var raw := RawMetrics(ds, student, []);
            && raw.precision == 0.0 && raw.recall == 0.0 && raw.accuracy == 0.0 && raw.diversity == 1.0
            && raw.coverage == (if |ds.courses| > 0 then Finite(0.0) else NaN)
  {
    var all := CatalogCategories(ds.courses);
    if |ds.courses| > 0 {
      assert ds.courses[0].category in all;
    }
    NothingRecommended(RelevantIds(ds.interactions, student));
    RawFields(ds, student, []);
    DiversityIff([]);
    ZeroQuotient(|RelevantIds(ds.interactions, student)|);
    ZeroQuotient(|all|);
  }

  lemma ZeroQuotient(n: nat)
    ensures Ratio(0, n) == 0.0
    ensures n > 0 ==> 0 as real / n as real == 0.0
  {
  }

  lemma NothingRecommended(relevant: set<string>)
    ensures |RecommendedSet([])| == 0 && |RecommendedSet([]) * relevant| == 0
    ensures |RecommendedCategories([])| == 0
  {
    assert RecommendedSet([]) == {};
    assert RecommendedCategories([]) == {};
  }
}

=== FILE: onboarding.dfy ===
/**
 * The onboarding wizard's logic: three steps (name, learning style,
 * interests), the gate on each step's Next button, the interest toggle and
 * the guard of the final submission.
 */
module Onboarding {
  import opened Wrappers
  import opened Learning

  /** The sixteen interests offered at step 3. */
  const AvailableInterests: seq<string> := [
    "programming", "data-science", "machine-learning", "web-development",
    "ui-design", "mobile", "statistics", "python", "javascript", "react",
    "ai", "neural-networks", "nlp", "backend", "fullstack", "frontend"]

  /** The values of the four learning-style buttons at step 2. */
  const LearningStyles: seq<string> := ["visual", "auditory", "kinesthetic", "reading"]

  /** `prev.filter(i => i !== interest)` */
  function Without(s: seq<string>, x: string): (r: seq<string>)
    ensures forall y :: y in r <==> y in s && y != x
    ensures NoDuplicates(s) ==> NoDuplicates(r)
    ensures x !in s ==> r == s
  {
    if |s| == 0 then []
    else
      var rest := Without(s[1..], x);
      assert forall y :: y in s <==> y == s[0] || y in s[1..];
      assert NoDuplicates(s) ==> s[0] !in s[1..] && NoDuplicates(s[1..]);
      assert x !in s ==> s == [s[0]] + s[1..];
      if s[0] == x then rest else [s[0]] + rest
  }

  /** Filtering out an entry that occurs once, at `k`, cuts it out and keeps the others in order. */
  lemma {:induction false} WithoutCuts(s: seq<string>, x: string, k: int)
    requires 0 <= k < |s| && s[k] == x
    requires forall j :: 0 <= j < |s| && j != k ==> s[j] != x
    ensures Without(s, x) == s[..k] + s[k + 1..]
  {
    if k == 0 {
      WithoutFirst(s, x);
    } else {
      WithoutCuts(s[1..], x, k - 1);
      WithoutKeepsHead(s, x, k);
    }
  }

  /** Filtering out the first entry, which occurs nowhere else, leaves the tail. */
  lemma WithoutFirst(s: seq<string>, x: string)
    requires |s| > 0 && s[0] == x && x !in s[1..]
    ensures Without(s, x) == s[..0] + s[1..]
  {
    assert Without(s, x) == Without(s[1..], x);
  }

  /** A head other than `x` stays in front of the filtered tail. */
  lemma WithoutKeepsHead(s: seq<string>, x: string, k: int)
    requires 0 < k < |s| && s[0] != x
    requires Without(s[1..], x) == s[1..][..k - 1] + s[1..][k..]
    ensures Without(s, x) == s[..k] + s[k + 1..]
  {
    var t := s[1..];
    assert Without(s, x) == [s[0]] + (t[..k - 1] + t[k..]) by {
      assert Without(s, x) == [s[0]] + Without(t, x);
    }
    assert [s[0]] + (t[..k - 1] + t[k..]) == s[..k] + s[k + 1..] by {
      assert [s[0]] + t[..k - 1] == s[..k];
      assert t[k..] == s[k + 1..];
    }
  }

  /**
   * `toggleInterest`: removes a selected interest, keeping the others in
   * their order, or appends an unselected one.
   */
  function ToggleInterest(s: seq<string>, interest: string): (r: seq<string>)
    ensures interest in s ==> forall y :: y in r <==> y in s && y != interest
    ensures forall k :: 0 <= k < |s| && s[k] == interest && (forall j :: 0 <= j < |s| && j != k ==> s[j] != interest) ==>
              r == s[..k] + s[k + 1..]
    ensures interest !in s ==> r == s + [interest]
    ensures NoDuplicates(s) ==> NoDuplicates(r)
  {
    if interest in s then
      assert forall k :: 0 <= k < |s| && s[k] == interest && (forall j :: 0 <= j < |s| && j != k ==> s[j] != interest) ==>
               Without(s, interest) == s[..k] + s[k + 1..] by {
        forall k | 0 <= k < |s| && s[k] == interest && (forall j :: 0 <= j < |s| && j != k ==> s[j] != interest) {
          WithoutCuts(s, interest, k);
        }
      }
      Without(s, interest)
    else s + [interest]
  }

  /** Toggling twice restores the selection as a set, and exactly when the interest was absent. */
  lemma ToggleTwice(s: seq<string>, interest: string)
    requires NoDuplicates(s)
    ensures forall y :: y in ToggleInterest(ToggleInterest(s, interest), interest) <==> y in s
    ensures interest !in s ==> ToggleInterest(ToggleInterest(s, interest), interest) == s
  {
    if interest !in s {
      WithoutAppended(s, interest);
    }
  }

  lemma {:induction false} WithoutAppended(s: seq<string>, x: string)
    requires x !in s
    ensures Without(s + [x], x) == s
  {
    if |s| > 0 {
      assert (s + [x])[1..] == s[1..] + [x];
      WithoutAppended(s[1..], x);
    } else {
      assert Without([x], x) == Without([], x);
    }
  }

  /**
   * The characters `String.prototype.trim` removes: the ECMAScript
   * WhiteSpace and LineTerminator code points.
   */
  predicate IsSpace(c: char) {
    || c == '\t' || c == '\U{000B}' || c == '\U{000C}' || c == ' ' || c == '\U{00A0}' || c == '\U{FEFF}'
    || c == '\n' || c == '\r' || c == '\U{2028}' || c == '\U{2029}'
    || c == '\U{1680}' || ('\U{2000}' <= c <= '\U{200A}') || c == '\U{202F}' || c == '\U{205F}' || c == '\U{3000}'
  }

  function TrimStart(s: string): (r: string)
    ensures |r| <= |s| && r == s[|s| - |r|..]
    ensures |r| > 0 ==> !IsSpace(r[0])
    ensures forall k :: 0 <= k < |s| - |r| ==> IsSpace(s[k])
  {
    if |s| > 0 && IsSpace(s[0]) then TrimStart(s[1..]) else s
  }

  function TrimEnd(s: string): (r: string)
    ensures |r| <= |s| && r == s[..|r|]
    ensures |r| > 0 ==> !IsSpace(r[|r| - 1])
    ensures forall k :: |r| <= k < |s| ==> IsSpace(s[k])
  {
    if |s| > 0 && IsSpace(s[|s| - 1]) then TrimEnd(s[..|s| - 1]) else s
  }

  /**
   * `String.prototype.trim`: `s` without its leading and trailing white
   * space; what remains neither starts nor ends with white space.
   */
  function Trim(s: string): (r: string)
    ensures |r| <= |s|
    ensures |r| > 0 ==> !IsSpace(r[0]) && !IsSpace(r[|r| - 1])
  {
    var t := TrimStart(s);
    var r := TrimEnd(t);
    assert |r| > 0 ==> r[0] == t[0];
    r
  }

  /** Where the trimmed text starts inside `s`. */
  function Lead(s: string): (a: nat)
    ensures a <= |s|
  {
    |s| - |TrimStart(s)|
  }

  /** The trimmed text is the infix of `s` starting at `Lead(s)`. */
  lemma TrimSlice(s: string)
    ensures Lead(s) + |Trim(s)| <= |s|
    ensures Trim(s) == s[Lead(s)..Lead(s) + |Trim(s)|]
  {
    var t := TrimStart(s);
    assert t == s[Lead(s)..];
    var r := TrimEnd(t);
    assert r == t[..|r|];
  }

  /** Every non-space character of `s` lies inside the trimmed text. */
  lemma VisibleInside(s: string, k: int)
    requires 0 <= k < |s| && !IsSpace(s[k])
    ensures Lead(s) <= k < Lead(s) + |Trim(s)|
  {
    TrimSlice(s);
    var t := TrimStart(s);
    assert Lead(s) <= k;
    assert s[k] == t[k - Lead(s)];
  }

  /** A code point outside the Basic Multilingual Plane: UTF-16 stores it as a surrogate pair. */
  predicate Astral(c: char) {
    c as int >= 0x10000
  }

  /** How many UTF-16 code units the character takes. */
  function Units(c: char): (u: nat)
    ensures u == 1 || u == 2
    ensures u == 2 <==> Astral(c)
  {
    if Astral(c) then 2 else 1
  }

  /**
   * JavaScript's `s.length`: the number of UTF-16 code units, where every
   * astral character counts twice.
   */
  function Utf16Length(s: string): (n: nat)
    ensures |s| <= n <= 2 * |s|
    ensures (forall k :: 0 <= k < |s| ==> !Astral(s[k])) ==> n == |s|
  {
    if |s| == 0 then 0 else Units(s[0]) + Utf16Length(s[1..])
  }

  /** Two code units take two characters or a single astral one. */
  lemma Utf16AtLeastTwo(s: string)
    ensures Utf16Length(s) >= 2 <==> |s| >= 2 || (|s| == 1 && Astral(s[0]))
  {
    if |s| == 1 {
      assert Utf16Length(s) == Units(s[0]) + Utf16Length(s[1..]);
    }
  }

  /** No white space character lies outside the Basic Multilingual Plane. */
  lemma AstralIsVisible(c: char)
    requires Astral(c)
    ensures !IsSpace(c)
  {
  }

  /** The text holds two characters, at different positions, that are not white space. */
  predicate TwoVisible(text: string) {
    exists i, j :: 0 <= i < j < |text| && !IsSpace(text[i]) && !IsSpace(text[j])
  }

  /** The text holds two non-space characters or an astral one (two UTF-16 units on its own). */
  predicate LongEnough(text: string) {
    TwoVisible(text) || exists k :: 0 <= k < |text| && Astral(text[k])
  }

  /** The trimmed text has at least two characters exactly when the text holds two non-space characters. */
  lemma TrimmedPair(name: string)
    ensures |Trim(name)| >= 2 <==> TwoVisible(name)
  {
    TrimSlice(name);
    var a := Lead(name);
    var r := Trim(name);
    if |r| >= 2 {
      assert name[a] == r[0];
      assert name[a + |r| - 1] == r[|r| - 1];
      assert TwoVisible(name) by {
        assert 0 <= a < a + |r| - 1 < |name|;
      }
    }
    if TwoVisible(name) {
      var i, j :| 0 <= i < j < |name| && !IsSpace(name[i]) && !IsSpace(name[j]);
      VisibleInside(name, i);
      VisibleInside(name, j);
    }
  }

  /**
   * The name gate of step 1, `name.trim().length >= 2` with JavaScript's
   * UTF-16 length: it passes exactly when the name holds two non-space
   * characters or one astral character.
   */
  lemma NameGate(name: string)
    ensures Utf16Length(Trim(name)) >= 2 <==> LongEnough(name)
  {
    var r := Trim(name);
    TrimSlice(name);
    TrimmedPair(name);
    Utf16AtLeastTwo(r);
    if |r| == 1 && Astral(r[0]) {
      assert name[Lead(name)] == r[0];
    }
    if k :| 0 <= k < |name| && Astral(name[k]) {
      AstralIsVisible(name[k]);
      VisibleInside(name, k);
      assert |r| == 1 ==> r[0] == name[k];
    }
  }

  /** Text that neither starts nor ends with white space is its own trim. */
  lemma TrimKeeps(s: string)
    requires |s| > 0 && !IsSpace(s[0]) && !IsSpace(s[|s| - 1])
    ensures Trim(s) == s
  {
    assert TrimStart(s) == s;
    assert TrimEnd(s) == s;
  }

  /** A single emoji passes the name gate: it is two UTF-16 units long. */
  lemma OneEmojiName()
    ensures Utf16Length(Trim("\U{1F600}")) == 2
  {
    var emoji: string := "\U{1F600}";
    assert Trim(emoji) == emoji by {
      AstralIsVisible(emoji[0]);
      TrimKeeps(emoji);
    }
    assert Utf16Length(emoji) == 2 by {
      assert Utf16Length(emoji) == Units(emoji[0]) + Utf16Length(emoji[1..]);
    }
  }

  /** A single letter does not pass the name gate. */
  lemma OneLetterName()
    ensures Utf16Length(Trim("a")) == 1
  {
    assert Trim("a") == "a" by {
      TrimKeeps("a");
    }
    assert Utf16Length("a") == 1 by {
      assert Utf16Length("a") == Units('a') + Utf16Length(""[..]);
    }
  }

  /** The wizard's state: the current step and the three answers so far. */
  datatype Wizard = Wizard(step: int, name: string, style: string, interests: seq<string>)

  /** Step 1, no name, no style, no interests. */
  const Initial := Wizard(1, "", "", [])

  /** `canProceed`: whether the current step's Next (or Get Started) button is enabled. */
  predicate CanProceed(w: Wizard) {
    if w.step == 1 then Utf16Length(Trim(w.name)) >= 2
    else if w.step == 2 then w.style != ""
    else if w.step == 3 then |w.interests| >= 3
    else false
  }

  /** The profile passed to `onComplete`. */
  datatype Profile = Profile(name: string, style: string, interests: seq<string>)

  /**
   * `handleComplete`: the profile is emitted only for a non-empty (untrimmed)
   * name, a chosen style and at least three interests.
   */
  function HandleComplete(w: Wizard): (r: Option<Profile>)
    ensures r.Some? <==> w.name != "" && w.style != "" && |w.interests| >= 3
    ensures r.Some? ==> r.value.name == w.name && r.value.style == w.style && r.value.interests == w.interests
  {
    if w.name != "" && w.style != "" && |w.interests| >= 3 then
      Some(Profile(w.name, w.style, w.interests))
    else None
  }

  /** What the user can do on the wizard's screen. */
  datatype Event =
    | TypeName(text: string)
    | PickStyle(value: string)
    | ToggleTopic(interest: string)
    | Back
    | Next

  /**
   * Whether the control behind the event is on screen and enabled: the name
   * field at step 1, the style buttons at step 2, the interest buttons at
   * step 3, Back after step 1, Next before step 3 when the step allows it.
   */
  predicate Enabled(w: Wizard, e: Event) {
    match e
    case TypeName(_) => w.step == 1
    case PickStyle(v) => w.step == 2 && v in LearningStyles
    case ToggleTopic(t) => w.step == 3 && t in AvailableInterests
    case Back => w.step > 1
    case Next => w.step < 3 && CanProceed(w)
  }

  /** The state after the event; a disabled control leaves it unchanged. */
  function Apply(w: Wizard, e: Event): (r: Wizard)
    ensures !Enabled(w, e) ==> r == w
    ensures e.TypeName? && Enabled(w, e) ==> r == w.(name := e.text)
    ensures e.PickStyle? && Enabled(w, e) ==> r == w.(style := e.value)
    ensures e.ToggleTopic? && Enabled(w, e) ==>
              r.step == w.step && r.name == w.name && r.style == w.style
              && r.interests == ToggleInterest(w.interests, e.interest)
    ensures e.Back? && Enabled(w, e) ==> r == w.(step := w.step - 1)
    ensures e.Next? && Enabled(w, e) ==> r == w.(step := w.step + 1)
  {
    if !Enabled(w, e) then w
    else match e
      case TypeName(text) => w.(name := text)
      case PickStyle(v) => w.(style := v)
      case ToggleTopic(t) => w.(interests := ToggleInterest(w.interests, t))
      case Back => w.(step := w.step - 1)
      case Next => w.(step := w.step + 1)
  }

  /** The state after a sequence of events from `w`. */
  function Run(w: Wizard, events: seq<Event>): Wizard
    decreases |events|
  {
    if |events| == 0 then w else Run(Apply(w, events[0]), events[1..])
  }

  /**
   * What holds on every screen the user can reach: the step is 1, 2 or 3;
   * the style is empty or one of the four values; the interests are distinct
   * and offered; and every step behind the user had its gate passed.
   */
  predicate Reachable(w: Wizard) {
    && 1 <= w.step <= 3
    && (w.style == "" || w.style in LearningStyles)
    && NoDuplicates(w.interests)
    && (forall t :: t in w.interests ==> t in AvailableInterests)
    && (w.step >= 2 ==> Utf16Length(Trim(w.name)) >= 2)
    && (w.step >= 3 ==> w.style != "")
  }

  lemma ApplyKeepsReachable(w: Wizard, e: Event)
    requires Reachable(w)
    ensures Reachable(Apply(w, e))
  {
  }

  lemma {:induction false} RunKeepsReachable(w: Wizard, events: seq<Event>)
    requires Reachable(w)
    ensures Reachable(Run(w, events))
    decreases |events|
  {
    if |events| > 0 {
      ApplyKeepsReachable(w, events[0]);
      RunKeepsReachable(Apply(w, events[0]), events[1..]);
    }
  }

  /**
   * Get Started, when enabled on a reachable screen, always reaches
   * `onComplete`: its gate implies the guard of `handleComplete`, and the
   * profile carries a name of at least two UTF-16 units, one of the four
   * styles and at least three distinct offered interests.
   */
  lemma GetStartedCompletes(events: seq<Event>)
    ensures var w := Run(Initial, events);
      w.step == 3 && CanProceed(w) ==>
        && HandleComplete(w).Some?
        && Utf16Length(Trim(HandleComplete(w).value.name)) >= 2
        && LongEnough(HandleComplete(w).value.name)
        && HandleComplete(w).value.style in LearningStyles
        && |HandleComplete(w).value.interests| >= 3
        && NoDuplicates(HandleComplete(w).value.interests)
        && (forall t :: t in HandleComplete(w).value.interests ==> t in AvailableInterests)
  {
    var w := Run(Initial, events);
    RunKeepsReachable(Initial, events);
    NameGate(w.name);
  }

  /** Without at least three interests, Get Started is disabled and `handleComplete` emits nothing. */
  lemma TooFewInterests(w: Wizard)
    requires |w.interests| < 3
    ensures w.step == 3 ==> !CanProceed(w)
    ensures HandleComplete(w) == None
  {
  }
}

=== FILE: ranking.dfy ===
/**
 * Ranking as every scorer does it: `list.sort((a, b) => b.score - a.score)`
 * followed by `slice(0, topN)`. JavaScript's sort is stable, so the sort is
 * modelled as a stable insertion sort by descending score; `slice(0, n)` keeps
 * JavaScript's meaning of a negative end index.
 */
module Ranking {
  import opened Learning

  predicate SortedByScore(s: seq<Recommendation>) {
    forall i, j :: 0 <= i < j < |s| ==> s[i].score >= s[j].score
  }

  /** Inserts `x` in front of every element it does not score below. */
  function Insert(x: Recommendation, s: seq<Recommendation>): (r: seq<Recommendation>)
    ensures multiset(r) == multiset(s) + multiset{x}
  {
    if |s| == 0 || s[0].score <= x.score then [x] + s
    else
      assert s == [s[0]] + s[1..];
      [s[0]] + Insert(x, s[1..])
  }

  /** A list with `h` at its head is in order when `h` scores at least as high as the rest. */
  lemma ConsSorted(h: Recommendation, t: seq<Recommendation>)
    requires SortedByScore(t)
    requires forall e :: e in t ==> e.score <= h.score
    ensures SortedByScore([h] + t)
  {
    var r := [h] + t;
    forall i, j | 0 <= i < j < |r|
      ensures r[i].score >= r[j].score
    {
      assert r[j] == t[j - 1];
      if 0 < i {
        assert r[i] == t[i - 1];
      }
    }
  }

  lemma {:induction false} InsertSorted(x: Recommendation, s: seq<Recommendation>)
    requires SortedByScore(s)
    ensures SortedByScore(Insert(x, s))
  {
    if |s| == 0 || s[0].score <= x.score {
      forall e | e in s
        ensures e.score <= x.score
      {
        var k :| 0 <= k < |s| && s[k] == e;
        assert s[0].score >= s[k].score || k == 0;
      }
      ConsSorted(x, s);
    } else {
      var tail := Insert(x, s[1..]);
      InsertSorted(x, s[1..]);
      forall e | e in tail
        ensures e.score <= s[0].score
      {
        assert e in multiset(tail);
        if e != x {
          assert e in multiset(s[1..]);
          var k :| 0 <= k < |s[1..]| && s[1..][k] == e;
          assert s[k + 1] == e;
        }
      }
      ConsSorted(s[0], tail);
    }
  }

  /** Stable sort, highest score first. */
  function SortByScore(s: seq<Recommendation>): (r: seq<Recommendation>)
    ensures SortedByScore(r)
    ensures multiset(r) == multiset(s)
  {
    if |s| == 0 then []
    else
      assert s == [s[0]] + s[1..];
      var t := SortByScore(s[1..]);
      InsertSorted(s[0], t);
      Insert(s[0], t)
  }

  /** `s.slice(0, n)`: a negative `n` counts from the end. */
  function Slice<T>(s: seq<T>, n: int): (r: seq<T>)
    ensures 0 <= n ==> |r| == if n < |s| then n else |s|
    ensures n < 0 ==> |r| == if |s| + n < 0 then 0 else |s| + n
    ensures r <= s
  {
    var end := if n < 0 then (if |s| + n < 0 then 0 else |s| + n)
               else (if n < |s| then n else |s|);
    s[..end]
  }

  /** The `n` best-scoring recommendations, best first. */
  function Rank(recs: seq<Recommendation>, n: int): (r: seq<Recommendation>)
    ensures 0 <= n ==> |r| == if n < |recs| then n else |recs|
    ensures n < 0 ==> |r| == if |recs| + n < 0 then 0 else |recs| + n
    ensures SortedByScore(r)
    ensures forall x :: x in r ==> x in recs
  {
    var sorted := SortByScore(recs);
    assert |sorted| == |recs| by {
      assert |multiset(sorted)| == |multiset(recs)|;
    }
    var r := Slice(sorted, n);
    forall x | x in r
      ensures x in recs
    {
      assert x in multiset(sorted);
    }
    r
  }

  /**
   * Ranking keeps the top n: it picks min(n, |recs|) elements of the input
   * (a sub-multiset), keeps everything when the input fits, and nothing it
   * leaves out scores above anything it keeps.
   */
  lemma RankIsTopN(recs: seq<Recommendation>, n: int)
    ensures 0 <= n ==> |Rank(recs, n)| == if n < |recs| then n else |recs|
    ensures multiset(Rank(recs, n)) <= multiset(recs)
    ensures 0 <= n && |recs| <= n ==> multiset(Rank(recs, n)) == multiset(recs)
    ensures forall x, y :: x in multiset(recs) - multiset(Rank(recs, n)) && y in Rank(recs, n) ==> x.score <= y.score
  {
    var sorted := SortByScore(recs);
    var r := Rank(recs, n);
    SplitSorted(sorted, |r|);
    assert r == sorted[..|r|];
  }

  /** Cutting a sorted list in two: the parts make up the whole, and the front outscores the back. */
  lemma SplitSorted(sorted: seq<Recommendation>, m: nat)
    requires SortedByScore(sorted) && m <= |sorted|
    ensures multiset(sorted) == multiset(sorted[..m]) + multiset(sorted[m..])
    ensures multiset(sorted) - multiset(sorted[..m]) == multiset(sorted[m..])
    ensures forall x, y :: x in multiset(sorted[m..]) && y in sorted[..m] ==> x.score <= y.score
  {
    assert sorted == sorted[..m] + sorted[m..];
    forall x, y | x in multiset(sorted[m..]) && y in sorted[..m]
      ensures x.score <= y.score
    {
      var i :| 0 <= i < m && sorted[i] == y;
      var j :| 0 <= j < |sorted| - m && sorted[m..][j] == x;
      assert sorted[m + j] == x;
    }
  }

  /** The elements of `s` with score `v`, in their order in `s`. */
  function WithScore(s: seq<Recommendation>, v: real): (r: seq<Recommendation>)
    ensures forall x :: x in r ==> x in s && x.score == v
  {
    if |s| == 0 then []
    else (if s[0].score == v then [s[0]] else []) + WithScore(s[1..], v)
  }

  lemma {:induction false} InsertWithScore(x: Recommendation, s: seq<Recommendation>, v: real)
    requires SortedByScore(s)
    ensures WithScore(Insert(x, s), v) == (if x.score == v then [x] else []) + WithScore(s, v)
  {
    if |s| == 0 || s[0].score <= x.score {
      WithScoreCons(x, s, v);
    } else {
      var tail := Insert(x, s[1..]);
      var front := if x.score == v then [x] else [];
      var head := if s[0].score == v then [s[0]] else [];
      var rest := WithScore(s[1..], v);
      calc {
        WithScore(Insert(x, s), v);
        { WithScoreCons(s[0], tail, v); }
        head + WithScore(tail, v);
        { InsertWithScore(x, s[1..], v); }
        head + (front + rest);
        { SwapEmpty(head, front, rest); }
        front + (head + rest);
        { WithScoreCons(s[0], s[1..], v); assert s == [s[0]] + s[1..]; }
        front + WithScore(s, v);
      }
    }
  }

  /** Two prefixes commute when one of them is empty. */
  lemma SwapEmpty(a: seq<Recommendation>, b: seq<Recommendation>, c: seq<Recommendation>)
    requires a == [] || b == []
    ensures a + (b + c) == b + (a + c)
  {
  }

  /** Filtering a list with a known head. */
  lemma WithScoreCons(h: Recommendation, t: seq<Recommendation>, v: real)
    ensures WithScore([h] + t, v) == (if h.score == v then [h] else []) + WithScore(t, v)
  {
    assert ([h] + t)[1..] == t;
  }

  /**
   * Stability: the sort keeps every group of equally scored
   * recommendations in its input order.
   */
  lemma {:induction false} SortIsStable(s: seq<Recommendation>, v: real)
    ensures WithScore(SortByScore(s), v) == WithScore(s, v)
  {
    if |s| > 0 {
      SortIsStable(s[1..], v);
      InsertWithScore(s[0], SortByScore(s[1..]), v);
    }
  }

  /** Sorting a list that is already in order changes nothing. */
  lemma {:induction false} SortSortedIsIdentity(s: seq<Recommendation>)
    requires SortedByScore(s)
    ensures SortByScore(s) == s
  {
    if |s| > 0 {
      SortSortedIsIdentity(s[1..]);
      assert s == [s[0]] + s[1..];
    }
  }

  /** Ranking to `2n` and then to `n` is ranking to `n`. */
  lemma RankTwice(recs: seq<Recommendation>, n: int)
    requires 0 <= n
    ensures Rank(Rank(recs, 2 * n), n) == Rank(recs, n)
  {
    var sorted := SortByScore(recs);
    var wide := Rank(recs, 2 * n);
    assert wide == Slice(sorted, 2 * n);
    SortSortedIsIdentity(wide);
    assert Rank(wide, n) == Slice(wide, n);
    assert Slice(wide, n) == Slice(sorted, n);
  }

  /** Sorting keeps the ids of a list pairwise distinct. */
  lemma {:induction false} SortKeepsDistinct(s: seq<Recommendation>)
    requires DistinctRecommendations(s)
    ensures DistinctRecommendations(SortByScore(s))
  {
    if |s| > 0 {
      SortKeepsDistinct(s[1..]);
      var t := SortByScore(s[1..]);
      forall e | e in t
        ensures e.course.id != s[0].course.id
      {
        assert e in multiset(s[1..]);
        var k :| 0 <= k < |s[1..]| && s[1..][k] == e;
        assert s[k + 1] == e;
      }
      InsertKeepsDistinct(s[0], t);
    }
  }

  lemma {:induction false} InsertKeepsDistinct(x: Recommendation, s: seq<Recommendation>)
    requires DistinctRecommendations(s)
    requires forall e :: e in s ==> e.course.id != x.course.id
    ensures DistinctRecommendations(Insert(x, s))
  {
    if |s| == 0 || s[0].score <= x.score {
      ConsDistinct(x, s);
    } else {
      InsertKeepsDistinct(x, s[1..]);
      var tail := Insert(x, s[1..]);
      forall e | e in tail
        ensures e.course.id != s[0].course.id
      {
        assert e in multiset(s[1..]) + multiset{x};
        if e != x {
          assert e in multiset(s[1..]);
          var k :| 0 <= k < |s[1..]| && s[1..][k] == e;
          assert s[k + 1] == e;
        }
      }
      ConsDistinct(s[0], tail);
    }
  }

  /** A head whose id the tail does not use keeps a distinct list distinct. */
  lemma ConsDistinct(h: Recommendation, t: seq<Recommendation>)
    requires DistinctRecommendations(t)
    requires forall e :: e in t ==> e.course.id != h.course.id
    ensures DistinctRecommendations([h] + t)
  {
    var r := [h] + t;
    forall i, j | 0 <= i < j < |r|
      ensures r[i].course.id != r[j].course.id
    {
      assert r[j] == t[j - 1];
      if 0 < i {
        assert r[i] == t[i - 1];
      }
    }
  }

  /** Ranking keeps the ids of a list pairwise distinct. */
  lemma RankKeepsDistinct(recs: seq<Recommendation>, n: int)
    requires DistinctRecommendations(recs)
    ensures DistinctRecommendations(Rank(recs, n))
  {
    SortKeepsDistinct(recs);
  }
}

=== FILE: similarity.dfy ===
/**
 * Cosine similarity of two equal-length vectors: the dot product divided
 * by the product of the magnitudes, or 0 when either magnitude is 0.
 * `Math.sqrt` is a parameter `root`; the lemmas state which of its facts
 * they rely on, at the two points where it is applied.
 */
module Similarity {

  function Dot(v1: seq<real>, v2: seq<real>): real
    requires |v1| == |v2|
  {
    if |v1| == 0 then 0.0 else v1[0] * v2[0] + Dot(v1[1..], v2[1..])
  }

  /** The squared magnitude. */
  function SumSquares(v: seq<real>): (r: real)
    ensures 0.0 <= r
  {
    if |v| == 0 then 0.0 else v[0] * v[0] + SumSquares(v[1..])
  }

  function Square(x: real): real {
    x * x
  }

  /**
   * `root` behaves as the square root at `x`: nonnegative, zero exactly
   * at zero, and squaring back to `x`.
   */
  predicate RootAt(root: real -> real, x: real) {
    && 0.0 <= root(x)
    && (root(x) == 0.0 <==> x == 0.0)
    && Square(root(x)) == x
  }

  function CosineSimilarity(v1: seq<real>, v2: seq<real>, root: real -> real): real
    requires |v1| == |v2|
  {
    var mag1 := root(SumSquares(v1));
    var mag2 := root(SumSquares(v2));
    if mag1 != 0.0 && mag2 != 0.0 then Dot(v1, v2) / (mag1 * mag2) else 0.0
  }

  predicate AllZero(v: seq<real>) {
    forall k :: 0 <= k < |v| ==> v[k] == 0.0
  }

  /** A nonzero entry makes the squared magnitude positive. */
  lemma {:induction false} SumSquaresPositive(v: seq<real>, k: int)
    requires 0 <= k < |v| && v[k] != 0.0
    ensures 0.0 < SumSquares(v)
  {
    if k == 0 {
      HeadPositive(v[0], SumSquares(v[1..]));
    } else {
      SumSquaresPositive(v[1..], k - 1);
    }
  }

  lemma HeadPositive(x: real, rest: real)
    requires x != 0.0 && 0.0 <= rest
    ensures 0.0 < x * x + rest
  {
    if x > 0.0 {
      ProductPlusPositive(x, x, rest);
    } else {
      ProductPlusPositive(-x, -x, rest);
      assert (-x) * (-x) == x * x;
    }
  }

  lemma ProductPlusPositive(x: real, y: real, rest: real)
    requires 0.0 < x && 0.0 < y && 0.0 <= rest
    ensures 0.0 < x * y + rest
  {
  }

  lemma {:induction false} SumSquaresOfZero(v: seq<real>)
    requires AllZero(v)
    ensures SumSquares(v) == 0.0
  {
    if |v| > 0 {
      assert AllZero(v[1..]) by {
        assert forall k :: 0 <= k < |v[1..]| ==> v[1..][k] == v[k + 1];
      }
      SumSquaresOfZero(v[1..]);
      assert v[0] == 0.0;
    }
  }

  /** The squared magnitude vanishes exactly for the zero vector. */
  lemma SumSquaresZeroIff(v: seq<real>)
    ensures SumSquares(v) == 0.0 <==> AllZero(v)
  {
    if AllZero(v) {
      SumSquaresOfZero(v);
    } else {
      var k :| 0 <= k < |v| && v[k] != 0.0;
      SumSquaresPositive(v, k);
    }
  }

  /** A zero-magnitude vector (either one) makes the similarity exactly 0. */
  lemma {:induction false} CosineOfZeroVector(v1: seq<real>, v2: seq<real>, root: real -> real)
    requires |v1| == |v2|
    requires RootAt(root, 0.0)
    requires AllZero(v1) || AllZero(v2)
    ensures CosineSimilarity(v1, v2, root) == 0.0
  {
    SumSquaresZeroIff(v1);
    SumSquaresZeroIff(v2);
  }

  /**
   * The cross term of Lagrange's identity is never negative:
   * x²·|b|² − 2xy·(a·b) + y²·|a|² = Σ (x·b[i] − y·a[i])² ≥ 0.
   */
  lemma {:induction false} CrossTermNonNegative(a: seq<real>, b: seq<real>, x: real, y: real)
    requires |a| == |b|
    ensures x * x * SumSquares(b) - 2.0 * x * y * Dot(a, b) + y * y * SumSquares(a) >= 0.0
  {
    if |a| > 0 {
      CrossTermNonNegative(a[1..], b[1..], x, y);
      LagrangeTerm(x, y, a[0], b[0]);
      Distribute(x * x, 2.0 * x * y, y * y, b[0] * b[0], SumSquares(b[1..]),
                 a[0] * b[0], Dot(a[1..], b[1..]), a[0] * a[0], SumSquares(a[1..]));
    }
  }

  /** One term of Lagrange's identity is a square. */
  lemma LagrangeTerm(x: real, y: real, a0: real, b0: real)
    ensures x * x * (b0 * b0) - 2.0 * x * y * (a0 * b0) + y * y * (a0 * a0) >= 0.0
  {
    var d := x * b0 - y * a0;
    assert d * d >= 0.0;
    assert x * x * (b0 * b0) - 2.0 * x * y * (a0 * b0) + y * y * (a0 * a0) == d * d;
  }

  /** Splits a weighted sum of three sums into the head terms and the tail terms. */
  lemma Distribute(p: real, q: real, r: real, b0: real, bs: real, c0: real, cs: real, a0: real, as': real)
    ensures p * (b0 + bs) - q * (c0 + cs) + r * (a0 + as')
            == (p * b0 - q * c0 + r * a0) + (p * bs - q * cs + r * as')
  {
  }

  /**
   * Cauchy–Schwarz, squared form: (a·b)² ≤ |a|²·|b|². The cross term taken
   * at x = a·b, y = |b|² is |b|²·(|a|²·|b|² − (a·b)²), which is therefore
   * non-negative.
   */
  lemma CauchySchwarz(a: seq<real>, b: seq<real>)
    requires |a| == |b|
    ensures Dot(a, b) * Dot(a, b) <= SumSquares(a) * SumSquares(b)
  {
    if SumSquares(b) == 0.0 {
      SumSquaresZeroIff(b);
      DotWithZero(b, a);
      DotSymmetric(a, b);
    } else {
      CauchyPositive(a, b);
    }
  }

  lemma CauchyPositive(a: seq<real>, b: seq<real>)
    requires |a| == |b| && SumSquares(b) > 0.0
    ensures Dot(a, b) * Dot(a, b) <= SumSquares(a) * SumSquares(b)
  {
    CrossTermNonNegative(a, b, Dot(a, b), SumSquares(b));
    CauchyFinish(Dot(a, b), SumSquares(a), SumSquares(b));
  }

  /** From nb·(na·nb − d²) ≥ 0 with nb > 0, written out as the cross term, d² ≤ na·nb. */
  lemma CauchyFinish(d: real, na: real, nb: real)
    requires 0.0 < nb
    requires d * d * nb - 2.0 * d * nb * d + nb * nb * na >= 0.0
    ensures d * d <= na * nb
  {
    var gap := na * nb - d * d;
    assert d * d * nb - 2.0 * d * nb * d + nb * nb * na == nb * gap;
    if gap < 0.0 {
      MulPositive(nb, -gap);
    }
  }

  /**
   * With a square root that is exact at the two squared magnitudes, the
   * similarity lies in [-1, 1].
   */
  lemma {:induction false} CosineBounds(v1: seq<real>, v2: seq<real>, root: real -> real)
    requires |v1| == |v2|
    requires RootAt(root, SumSquares(v1)) && RootAt(root, SumSquares(v2))
    ensures -1.0 <= CosineSimilarity(v1, v2, root) <= 1.0
  {
    var m1, m2 := root(SumSquares(v1)), root(SumSquares(v2));
    if m1 != 0.0 && m2 != 0.0 {
      CauchySchwarz(v1, v2);
      RatioBound(Dot(v1, v2), m1, m2, SumSquares(v1), SumSquares(v2));
      assert CosineSimilarity(v1, v2, root) == Dot(v1, v2) / (m1 * m2);
    }
  }

  lemma RatioBound(d: real, m1: real, m2: real, n1: real, n2: real)
    requires 0.0 < m1 && 0.0 < m2 && Square(m1) == n1 && Square(m2) == n2
    requires d * d <= n1 * n2
    ensures -1.0 <= d / (m1 * m2) <= 1.0
  {
    var p := m1 * m2;
    assert 0.0 < p by {
      assert m1 * m2 > 0.0 * m2;
    }
    assert p * p == n1 * n2 by {
      calc {
        p * p;
        (m1 * m2) * (m1 * m2);
        (m1 * m1) * (m2 * m2);
      }
    }
    SquareBound(d, p);
    DivBound(d, p);
  }

  lemma SquareBound(d: real, p: real)
    requires 0.0 < p && d * d <= p * p
    ensures -p <= d <= p
  {
    assert d * d - p * p == (d - p) * (d + p);
    assert (p - d) * (-p - d) == (d - p) * (d + p);
    if d > p {
      MulPositive(d - p, d + p);
    }
    if d < -p {
      MulPositive(p - d, -p - d);
    }
  }

  lemma MulPositive(a: real, b: real)
    requires 0.0 < a && 0.0 < b
    ensures 0.0 < a * b
  {
  }

  lemma DivBound(d: real, p: real)
    requires 0.0 < p && -p <= d <= p
    ensures -1.0 <= d / p <= 1.0
  {
  }

  /**
   * With a square root that is exact at the two squared magnitudes, the
   * similarity is positive exactly when the dot product is.
   */
  lemma {:induction false} CosinePositiveIffDotPositive(v1: seq<real>, v2: seq<real>, root: real -> real)
    requires |v1| == |v2|
    requires RootAt(root, SumSquares(v1)) && RootAt(root, SumSquares(v2))
    ensures CosineSimilarity(v1, v2, root) > 0.0 <==> Dot(v1, v2) > 0.0
  {
    var m1, m2 := root(SumSquares(v1)), root(SumSquares(v2));
    if m1 == 0.0 || m2 == 0.0 {
      SumSquaresZeroIff(v1);
      SumSquaresZeroIff(v2);
      if m1 == 0.0 {
        DotWithZero(v1, v2);
      } else {
        DotWithZero(v2, v1);
        DotSymmetric(v1, v2);
      }
    } else {
      assert 0.0 < m1 * m2;
    }
  }

  lemma {:induction false} DotWithZero(z: seq<real>, v: seq<real>)
    requires |z| == |v| && AllZero(z)
    ensures Dot(z, v) == 0.0
  {
    if |z| > 0 {
      assert AllZero(z[1..]) by {
        assert forall k :: 0 <= k < |z[1..]| ==> z[1..][k] == z[k + 1];
      }
      DotWithZero(z[1..], v[1..]);
    }
  }

  lemma {:induction false} DotSymmetric(v1: seq<real>, v2: seq<real>)
    requires |v1| == |v2|
    ensures Dot(v1, v2) == Dot(v2, v1)
  {
    if |v1| > 0 {
      DotSymmetric(v1[1..], v2[1..]);
    }
  }

  /** Nonnegative vectors have a nonnegative dot product. */
  lemma {:induction false} DotNonNegative(v1: seq<real>, v2: seq<real>)
    requires |v1| == |v2|
    requires forall k :: 0 <= k < |v1| ==> 0.0 <= v1[k] && 0.0 <= v2[k]
    ensures 0.0 <= Dot(v1, v2)
  {
    if |v1| > 0 {
      DotNonNegative(v1[1..], v2[1..]);
    }
  }
}

=== FILE: wrappers.dfy ===
/** Optional values: a JavaScript `undefined` becomes `None`. */
module Wrappers {

  datatype Option<+T> = None | Some(value: T) {

    /** The value, or `default` when there is none (JavaScript's `?? default`). */
    function GetOr(default: T): (r: T)
      ensures Some? ==> r == value
      ensures None? ==> r == default
    {
      match this
      case Some(v) => v
      case None => default
    }
  }
}
